=== FILE: README.md ===
# SRE bot core: AWS authentication, cost and core tools, Slack sessions, model choice

This project is a Dafny model of the core of the SRE bot. It covers six areas.

- **AWS authentication layer** (`aws_auth`):
  - the exception taxonomy and how botocore errors map onto it;
  - the validated `RoleConfig` and the `AWSAuthConfig` settings object, with `from_env`;
  - the `AWSAuthService` credential broker: lazy STS client, AssumeRole exchange, a per-role credential cache with a TTL and an expiry buffer, and client creation;
  - the package-level `configure_auth`, `create_role_config`, `create_client` and `test_auth`.
- **Cost Explorer tools** (`aws_cost_tools.py`): the request each tool builds, the response envelope, the metric priority, the per-day weekend/weekday split, the period totals of the trend analysis and the most expensive linked account. The sub-agent copy and the older copy under `agents/sre_agent/tools/` share this logic, so both are modelled by the same members, and the table cites the sub-agent copy.
- **Core AWS tools** (`aws_core_tools.py`):
  - caller identity, S3, EC2, RDS and region listings;
  - the account summary with its per-state and per-engine counts;
  - the connectivity test with its overall status and success rate.
- **Slack conversation sessions** (`slack_bot/main.py`):
  - the whitelist;
  - `ConversationSession` and its expiry;
  - the `SessionManager` with its session table, thread map, cleanup, lookup and thread migration.
- **Model selection**: `get_configured_model` in `agents/sre_agent/utils.py`.
- **Supporting modules**:
  - `Text` gives the Python string operations the code relies on: truthiness, `strip`, `lower`, `split`, `int()`, `str(int)`, `sorted` on strings, and `os.getenv`.
  - `Calendar` gives the proleptic Gregorian dates of `datetime.date`, with `timedelta` arithmetic, `weekday()` and the `%Y-%m-%d` format.

Boundaries of the model:

- Foreign calls appear as parameters that give their outcome. This covers STS, boto3 client construction, Cost Explorer, EC2/S3/RDS, `json.loads`, package imports and the STS check of `get_configured_model`.
- The clock is an integer parameter, `now` (seconds) or `today` (a date), wherever the model uses it. The report timestamps that only echo `datetime.utcnow()` are not modelled (see "## Left out").
- Objects the source updates in place are classes: `AuthConfig`, `AuthService`, `ConversationSession` and `SessionManager`.
- Request builders and pure decisions are functions.
- The loops of the source are methods whose `ensures` ties them to a specification function. The properties of those functions are proved as lemmas.

## Model

| member | source | states |
|---|---|---|
| AuthErrors.Str | agents/sre_agent/aws_auth/exceptions.py:33-37 | with a non-empty error code the printed form is exactly `[code] message`; without one it is the message; so it differs from the message exactly when a code is set |
| AuthErrors.BaseStrExample | agents/sre_agent/aws_auth/exceptions.py:33-37 | `AWSAuthError("Test error", "TEST_ERROR")` prints as `[TEST_ERROR] Test error`, and without a code as `Test error` |
| AuthErrors.NewAWSAuthError | agents/sre_agent/aws_auth/exceptions.py:11-31 | the base error keeps the caller's message and code |
| AuthErrors.NewAuthenticationError | agents/sre_agent/aws_auth/exceptions.py:40-61 | code `AUTH_FAILED`; the message is extended exactly when a non-empty role ARN is given, and is then exactly `<message> (Role: <arn>)` |
| AuthErrors.NewConfigurationError | agents/sre_agent/aws_auth/exceptions.py:64-85 | code `CONFIG_INVALID`; the message is extended exactly when a non-empty field is given, and is then exactly `<message> (Field: <field>)` |
| AuthErrors.NewCredentialExpiredError | agents/sre_agent/aws_auth/exceptions.py:88-107 | code `CREDENTIALS_EXPIRED`; the message is extended exactly when a non-empty role name is given, and is then exactly `<message> (Role: <name>)` |
| AuthErrors.NewRoleNotFoundError | agents/sre_agent/aws_auth/exceptions.py:110-123 | code `ROLE_NOT_FOUND` and the message `Role configuration not found: <name>` |
| AuthErrors.NewAssumeRoleError | agents/sre_agent/aws_auth/exceptions.py:126-153 | the message carries ` (Role: <arn>)`; the code is `ASSUME_ROLE_FAILED_<aws code>`, or `ASSUME_ROLE_FAILED` without one |
| AuthErrors.NewClientCreationError | agents/sre_agent/aws_auth/exceptions.py:156-176 | code `CLIENT_CREATION_FAILED`; the message ends with ` for service: <service>` |
| AuthErrors.FromClientError | agents/sre_agent/aws_auth/exceptions.py:207-233 | AccessDenied, InvalidParameterValue and TokenRefreshRequired each map to their own subclass; any other code gives an AssumeRoleError for role `unknown`, with code `ASSUME_ROLE_FAILED_<code>` (`ASSUME_ROLE_FAILED` for an empty code) and message `AWS error during <context>: <msg> (Role: unknown)` |
| AuthErrors.FromBotoError | agents/sre_agent/aws_auth/exceptions.py:179-240 | missing credentials map to an authentication error, a missing profile to a configuration error on `aws_profile` with message `AWS profile not found: <text> (Field: aws_profile)`, a ClientError through the code table, anything else to a base error `UNKNOWN_ERROR` |
| AuthErrors.ConstructorsWellFormed | agents/sre_agent/aws_auth/exceptions.py:40-176 | every subclass constructor yields the code its class fixes |
| AuthErrors.SubclassStrHasCode | agents/sre_agent/aws_auth/exceptions.py:33-37 | a subclass instance always prints as `[code] message` |
| AuthErrors.FromBotoErrorKinds | agents/sre_agent/aws_auth/exceptions.py:179-240 | the mapping never yields RoleNotFound or ClientCreation; it yields the base class exactly for unrecognised exceptions |
| AuthConfig.ValidateRole | agents/sre_agent/aws_auth/config.py:17-61 | a role is accepted unchanged iff all four validators pass; otherwise the error lists exactly the failing fields; the session name is checked by the intended rule, not the pattern as written (see Findings) |
| AuthConfig.NewRoleConfig | agents/sre_agent/aws_auth/config.py:17-27 | omitted fields take `SREBotSession` and 3600; the result is Ok iff the fields with those defaults validate (session name by the intended rule, see Findings), and it holds the given values |
| AuthConfig.DefaultSessionNameValid | agents/sre_agent/aws_auth/config.py:25 | the default session name passes its own validator |
| AuthConfig.MinimalRoleAccepted | agents/sre_agent/aws_auth/config.py:17-48 | an ARN and an account id alone give a valid role with the default session name and duration |
| AuthConfig.ExampleRoleArnValid | agents/sre_agent/aws_auth/config.py:32-41 | `arn:aws:iam::123456789012:role/TestRole` has the IAM prefix and a `:role/` part |
| AuthConfig.ExampleAccountIdValid | agents/sre_agent/aws_auth/config.py:43-48 | `123456789012` is twelve digits |
| AuthConfig.InvalidSessionNames | agents/sre_agent/aws_auth/config.py:51-61 | names with characters outside the class, empty names and names over 64 characters are refused |
| AuthConfig.TrailingNewlineAcceptedAsWritten | agents/sre_agent/aws_auth/config.py:55 | the regex as written accepts `SREBotSession\n`, which the intended rule refuses |
| AuthConfig.SessionNameCheckDiffersOnlyByNewline | agents/sre_agent/aws_auth/config.py:51-61 | the written check accepts everything the intended rule does, plus only valid names followed by one newline |
| AuthConfig.AuthConfig.constructor | agents/sre_agent/aws_auth/config.py:74-86 | the settings hold exactly the given data and satisfy the invariant |
| AuthConfig.AuthConfig.GetRole | agents/sre_agent/aws_auth/config.py:172-182 | Some exactly when the name is registered, with the stored role |
| AuthConfig.AuthConfig.AddRole | agents/sre_agent/aws_auth/config.py:184-193 | the registry gains or overwrites that one name and keeps the invariant; the role must pass validation with the intended session-name rule (see Left out) |
| AuthConfig.AuthConfig.ListRoles | agents/sre_agent/aws_auth/config.py:195-202 | every registered name appears, nothing else, with no repeats |
| AuthConfig.AuthConfig.FromEnv | agents/sre_agent/aws_auth/config.py:89-170 | the object built holds the fields `FromEnvSpec` computes and is valid; on failure the error is the one `FromEnvSpec` gives |
| AuthConfig.LoadConfigData | agents/sre_agent/aws_auth/config.py:89-170 | the step-by-step loading equals the whole-environment reading `FromEnvSpec` |
| AuthConfig.LoadSettings | agents/sre_agent/aws_auth/config.py:107-138 | region, profile, caching flag and TTL each follow their variable precedence |
| AuthConfig.LoadRoles | agents/sre_agent/aws_auth/config.py:141-152 | the loop over `AWS_AUTH_ROLES` equals the prefix-wise role decoding |
| AuthConfig.DecodeRolesValid | agents/sre_agent/aws_auth/config.py:141-152 | decoded roles are valid and are stored under exactly the entry names |
| AuthConfig.DecodeRolesStops | agents/sre_agent/aws_auth/config.py:141-152 | the first failing entry decides the outcome of the whole loop |
| AuthConfig.FromEnvValid | agents/sre_agent/aws_auth/config.py:89-170 | every configuration loaded from the environment satisfies the settings invariant |
| AuthConfig.RolesFromDocValid | agents/sre_agent/aws_auth/config.py:140-152 | every role read from `AWS_AUTH_ROLES` is valid |
| AuthConfig.DefaultRoleValid | agents/sre_agent/aws_auth/config.py:154-168 | the single-role setup, when it succeeds, gives a valid role |
| AuthConfig.UpdateKeepsValid | agents/sre_agent/aws_auth/config.py:158-166 | storing a valid role in a map of valid roles keeps every role valid |
| AuthConfig.FromEmptyEnv | agents/sre_agent/aws_auth/config.py:77-86 | an empty environment yields the defaults |
| AuthConfig.MalformedRolesDropped | agents/sre_agent/aws_auth/config.py:149-152 | a malformed roles document, or one invalid role, leaves only the single-role setup, if any |
| AuthConfig.DefaultRoleFields | agents/sre_agent/aws_auth/config.py:157-166 | the single-role setup's role takes its ARN, account id, session name (default `SREBotSession`), duration (`int` of `AWS_AUTH_DEFAULT_DURATION`, default 3600) and external id from their variables |
| AuthConfig.DefaultRoleOverrides | agents/sre_agent/aws_auth/config.py:154-168 | the single-role variables win over a document role of the same name: that name holds exactly the role built from them (ARN, account id, session name or `SREBotSession`, duration read from `AWS_AUTH_DEFAULT_DURATION` or 3600, external id); every other name keeps the document's role |
| AuthConfig.RegionPrecedence | agents/sre_agent/aws_auth/config.py:107-115 | `AWS_AUTH_DEFAULT_*` outranks `AWS_REGION` / `AWS_PROFILE` |
| AuthConfig.TtlHandling | agents/sre_agent/aws_auth/config.py:124-138 | a non-integer TTL is ignored; a loaded configuration always has a TTL in 300..43200 |
| AuthConfig.FlagExamples | agents/sre_agent/aws_auth/config.py:118-122 | `True`, `YES` and `1` switch a flag on; `false` and `on` do not |
| AuthService.StsSetupError | agents/sre_agent/aws_auth/auth_service.py:55-87 | a missing credential or profile goes through the boto mapping; any other failure becomes a base error with no code and exactly the message `Failed to initialize STS client: <text>` |
| AuthService.RequestFor | agents/sre_agent/aws_auth/auth_service.py:158-169 | the request carries the role's ARN and duration, a session name `<name>_<timestamp>`, and the external id only when it is non-empty |
| AuthService.SessionNameCarriesTimestamp | agents/sre_agent/aws_auth/auth_service.py:160-163 | the session name starts with `<name>_`, and its suffix parses back to the timestamp |
| AuthService.RejectionError | agents/sre_agent/aws_auth/auth_service.py:191-219 | always an AssumeRoleError carrying the AWS code; the message is exactly the per-code text (access denied, invalid parameter value with the AWS message, malformed policy document, or `AWS error: <msg>`) followed by ` (Role: <arn>)` |
| AuthService.ExchangeResult | agents/sre_agent/aws_auth/auth_service.py:170-229 | credentials exactly when STS issues them, with its access key id, secret access key, session token and expiration, tagged with the default region; a rejection with code and message becomes its AssumeRoleError, one missing either is a `KeyError` on `'Code'` or `'Message'`; anything else becomes `Unexpected error during role assumption: <text>` |
| AuthService.ClientFailure | agents/sre_agent/aws_auth/auth_service.py:312-320 | the service's own errors pass through unchanged; others become ClientCreationError |
| AuthService.FactoryError | agents/sre_agent/aws_auth/auth_service.py:298-320 | a failed client constructor maps credential and profile errors to their subclasses, and anything else to ClientCreationError |
| AuthService.BuildClient | agents/sre_agent/aws_auth/auth_service.py:280-310 | a client exactly when the factory succeeds, for the given service, region and credential source |
| AuthService.InfoFor | agents/sre_agent/aws_auth/auth_service.py:370-397 | an unparsable expiry gives an invalid row without times; otherwise the row reports the cached time, expiry, validity and region |
| AuthService.AuthService.constructor | agents/sre_agent/aws_auth/auth_service.py:41-53 | an empty cache, no STS client yet, and the invariant holds |
| AuthService.AuthService.GetStsClient | agents/sre_agent/aws_auth/auth_service.py:55-87 | the STS client is created at most once; a failed setup leaves it uncreated and reports the mapped error |
| AuthService.AuthService.AssumeRole | agents/sre_agent/aws_auth/auth_service.py:142-229 | exactly one AssumeRole request once the STS client exists, with the exchange's result; none when the setup fails |
| AuthService.AuthService.RefreshCredentials | agents/sre_agent/aws_auth/auth_service.py:231-251 | an unknown role raises RoleNotFoundError with no request; otherwise one exchange, and its credentials are cached only when caching is on |
| AuthService.AuthService.GetClient | agents/sre_agent/aws_auth/auth_service.py:253-320 | no role gives the profile/default chain; valid cached credentials are reused with no request; otherwise a refresh, then a client from the cache, or ClientCreationError when caching is off |
| AuthService.AuthService.TestCredentials | agents/sre_agent/aws_auth/auth_service.py:322-353 | the identity comes back exactly when the STS client is built and the call answers, carrying the caller's account, user id and ARN and the role name; a failed identity call is mapped with context `credential test`; a failure of `get_client` comes back as its text under `UNKNOWN_ERROR`; the cache, requests and STS client are left as `get_client` leaves them |
| AuthService.AuthService.ClearCache | agents/sre_agent/aws_auth/auth_service.py:355-368 | a role name removes only that entry; no name empties the cache |
| AuthService.AuthService.GetCacheInfo | agents/sre_agent/aws_auth/auth_service.py:370-397 | one row per cached role, each with the cache check's verdict |
| AuthService.RefreshResult | agents/sre_agent/aws_auth/auth_service.py:231-251 | a refresh of a known role fails at STS setup, or gives the exchange's result |
| AuthService.ValidityBoundaries | agents/sre_agent/aws_auth/auth_service.py:104-140 | an entry exactly TTL old and exactly the five-minute buffer from expiry is valid; a second later it is not |
| AuthService.ValidityAntitone | agents/sre_agent/aws_auth/auth_service.py:104-140 | an entry valid now was valid at every earlier time since it was cached |
| AuthService.FreshEntryValid | agents/sre_agent/aws_auth/auth_service.py:104-140 | freshly issued credentials that expire at least the buffer ahead are valid at once |
| AuthService.TwoCallsOneExchange | agents/sre_agent/aws_auth/auth_service.py:253-297 | two calls in a row for the same role send at most one AssumeRole request and return the same client |
| AuthService.CachingOffFails | agents/sre_agent/aws_auth/auth_service.py:242-297 | with caching off, a role-based call exchanges, finds nothing cached and raises ClientCreationError |
| AuthApi.CollectRoles | agents/sre_agent/aws_auth/__init__.py:133-140 | the loop over role arguments equals the prefix-wise collection |
| AuthApi.CollectRolesStops | agents/sre_agent/aws_auth/__init__.py:133-140 | the first bad argument decides the error raised |
| AuthApi.CollectedRoles | agents/sre_agent/aws_auth/__init__.py:133-140 | collected names are exactly the argument names; every role is valid; an instance not overridden later is stored unchanged |
| AuthApi.CollectLast | agents/sre_agent/aws_auth/__init__.py:133-140 | a successful collection is that of the earlier arguments with the last role stored under its name; that role is an instance or a valid dictionary |
| AuthApi.CollectedNames | agents/sre_agent/aws_auth/__init__.py:133-140 | the collected names are exactly the argument names |
| AuthApi.CollectedValid | agents/sre_agent/aws_auth/__init__.py:133-140 | when the `RoleConfig` instances passed are valid, every collected role is valid |
| AuthApi.CollectedInstances | agents/sre_agent/aws_auth/__init__.py:133-140 | an instance whose name no later argument reuses is stored unchanged under its name |
| AuthApi.ConfigureAuth | agents/sre_agent/aws_auth/__init__.py:104-148 | a role error or an out-of-range TTL is raised; otherwise a valid settings object with exactly the given values |
| AuthApi.CreateRoleConfig | agents/sre_agent/aws_auth/__init__.py:151-170 | the same result as the validated constructor, always a valid role |
| AuthApi.CreateClient | agents/sre_agent/aws_auth/__init__.py:58-80 | the no-role, cached and unknown-role cases of `get_client`; at most one exchange |
| AuthApi.TestAuth | agents/sre_agent/aws_auth/__init__.py:83-101 | the contract of `test_credentials` in full: success exactly when the client is built and the identity answers, with account, user id, ARN and role name; the two failure mappings; the state `get_client` leaves |
| SlackSessions.WhitelistDecision | slack_bot/main.py:29-65 | with the whitelist off every user passes; with it on, a user passes iff some stripped comma-separated entry equals the id |
| SlackSessions.WhitelistFlagExamples | slack_bot/main.py:29 | `TRUE`/`True` enable the whitelist; unset, `1` and `yes` do not |
| SlackSessions.WhitelistUsersShape | slack_bot/main.py:30-32 | every whitelisted id is non-empty, has no comma and no surrounding whitespace; every non-blank entry contributes its stripped form |
| SlackSessions.StrippedPiece | slack_bot/main.py:31 | a stripped non-empty piece keeps no comma and has no whitespace at either end |
| SlackSessions.SessionTimeoutDefault | slack_bot/main.py:24-26 | without the variable, the timeout is 1200 minutes |
| SlackSessions.ConversationSession.constructor | slack_bot/main.py:94-103 | the session records channel, user, thread, the session id and its start time |
| SlackSessions.ConversationSession.UpdateActivity | slack_bot/main.py:105-106 | only the activity time changes |
| SlackSessions.ExpiryBoundary | slack_bot/main.py:108-113 | a session is expired iff strictly more than the timeout has passed; once expired it stays expired |
| SlackSessions.SessionManager.constructor | slack_bot/main.py:117-124 | empty tables; the cleanup interval is the timeout in seconds |
| SlackSessions.SessionManager.CleanupExpiredSessions | slack_bot/main.py:199-212 | exactly the live sessions stay; their thread keys stay, the expired ones' go; key consistency is kept |
| SlackSessions.SessionManager.DropSessions | slack_bot/main.py:204-212 | the given sessions and their thread keys are removed, nothing else |
| SlackSessions.SessionManager.DropSession | slack_bot/main.py:207-212 | one session and its own thread key are removed |
| SlackSessions.SessionManager.GetSession | slack_bot/main.py:153-197 | a mapped thread's session is reused, with the caller as its current user; else the caller's live session; else a fresh one is stored |
| SlackSessions.SessionManager.FindOrCreateSession | slack_bot/main.py:159-197 | with no expired session stored: a mapped thread's session is reused with the caller as current user; else the caller's stored session is touched; else a new session is stored and its thread mapped; other sessions are unchanged and key consistency is kept |
| SlackSessions.MoveKey | slack_bot/main.py:204-212 | moving one key from the keys left to the keys removed keeps the two disjoint with the same union |
| SlackSessions.SessionManager.UpdateSessionThread | slack_bot/main.py:126-151 | the session moves from its old key to the thread key, the thread is mapped to it, and its id becomes `s_<channel>_<thread>` |
| SlackSessions.MapMinusUnion | slack_bot/main.py:204-212 | removing two key sets one after the other equals removing their union |
| SlackSessions.ThreadKeysGrow | slack_bot/main.py:204-212 | the thread keys of a larger set of sessions add that session's own key |
| SlackSessions.StartThread | slack_bot/main.py:641-643 | starting a thread reuses or creates the user's session and moves it under the new thread key |
| SlackSessions.ThreadReplyReusesSession | slack_bot/main.py:153-197 | a reply in a thread within the timeout gets the very session that started it, now with the replier as current user |
| Calendar.DaysInMonth | agents/sre_agent/sub_agents/aws_cost/tools/aws_cost_tools.py:265-275 | 28 to 31 days; 29 exactly for February of a leap year |
| Calendar.Weekday | agents/sre_agent/sub_agents/aws_cost/tools/aws_cost_tools.py:512 | a weekday number 0 (Monday) to 6 |
| Calendar.NextDay | agents/sre_agent/sub_agents/aws_cost/tools/aws_cost_tools.py:274 | the following valid date; none only after 9999-12-31 (OverflowError) |
| Calendar.PrevDay | agents/sre_agent/sub_agents/aws_cost/tools/aws_cost_tools.py:171 | the previous valid date; none only before 0001-01-01 |
| Calendar.AddDays | agents/sre_agent/sub_agents/aws_cost/tools/aws_cost_tools.py:447 | adding a `timedelta` yields a valid date when it exists |
| Calendar.DaysBeforeYearStep | agents/sre_agent/sub_agents/aws_cost/tools/aws_cost_tools.py:168-177 | consecutive years are 365 or 366 days apart |
| Calendar.DaysBeforeMonthNext | agents/sre_agent/sub_agents/aws_cost/tools/aws_cost_tools.py:168-177 | a month's days start right after the days of the months before it |
| Calendar.YearBoundary | agents/sre_agent/sub_agents/aws_cost/tools/aws_cost_tools.py:168-177 | New Year's Day is one ordinal after the New Year's Eve before it |
| Calendar.NextDayOrdinal | agents/sre_agent/sub_agents/aws_cost/tools/aws_cost_tools.py:274 | the next day is one ordinal later |
| Calendar.PrevDayOrdinal | agents/sre_agent/sub_agents/aws_cost/tools/aws_cost_tools.py:171 | the previous day is one ordinal earlier |
| Calendar.NextPrevInverse | agents/sre_agent/sub_agents/aws_cost/tools/aws_cost_tools.py:171-177 | the next and the previous day undo each other |
| Calendar.AddDaysOrdinal | agents/sre_agent/sub_agents/aws_cost/tools/aws_cost_tools.py:447 | adding k days moves the ordinal by k; it fails only outside the date range |
| Calendar.AddDaysMoves | agents/sre_agent/sub_agents/aws_cost/tools/aws_cost_tools.py:447 | a successful addition of k days moves the ordinal by exactly k |
| Calendar.AddDaysFails | agents/sre_agent/sub_agents/aws_cost/tools/aws_cost_tools.py:447 | an addition fails only when the ordinal would leave 1 .. 3652059 |
| Calendar.OrdinalEnds | agents/sre_agent/sub_agents/aws_cost/tools/aws_cost_tools.py:447 | 9999-12-31 has ordinal 3652059 and 0001-01-01 has ordinal 1 |
| Calendar.WeekdayNext | agents/sre_agent/sub_agents/aws_cost/tools/aws_cost_tools.py:512 | the weekday advances by one modulo 7 from day to day |
| Calendar.WeekdayExamples | agents/sre_agent/sub_agents/aws_cost/tools/aws_cost_tools.py:512 | 0001-01-01 is a Monday; 2024-01-06 is a Saturday (weekend); 2024-01-08 is a Monday |
| Calendar.PreviousMonth | agents/sre_agent/sub_agents/aws_cost/tools/aws_cost_tools.py:171-174 | the month before is a valid month |
| Calendar.DayBeforeFirstOfMonth | agents/sre_agent/sub_agents/aws_cost/tools/aws_cost_tools.py:168-174 | the day before the first of a month is the last day of the previous month |
| Calendar.MonthRangeLength | agents/sre_agent/sub_agents/aws_cost/tools/aws_cost_tools.py:265-276 | the first of the next month (December wraps) is the month's length of days later |
| Calendar.Zeros | agents/sre_agent/sub_agents/aws_cost/tools/aws_cost_tools.py:184-188 | k zero characters |
| Calendar.ParseIsoDate | agents/sre_agent/sub_agents/aws_cost/tools/aws_cost_tools.py:511 | a parsed `YYYY-MM-DD` string is always a valid date |
| Calendar.NatToStringLength | agents/sre_agent/sub_agents/aws_cost/tools/aws_cost_tools.py:184-188 | a number below 10^w has at most w digits |
| Calendar.LeadingZeros | agents/sre_agent/sub_agents/aws_cost/tools/aws_cost_tools.py:184-188 | leading zeros do not change a digit string's value |
| Calendar.AllZerosValue | agents/sre_agent/sub_agents/aws_cost/tools/aws_cost_tools.py:184-188 | a string of zeros has value 0 |
| Calendar.PadRoundTrip | agents/sre_agent/sub_agents/aws_cost/tools/aws_cost_tools.py:184-188 | a zero-padded field has the width and reads back as the number |
| Calendar.FormatParseRoundTrip | agents/sre_agent/sub_agents/aws_cost/tools/aws_cost_tools.py:184-188 | formatting a date as `%Y-%m-%d` and parsing it back gives the date |
| CostTools.PeriodRequest | agents/sre_agent/sub_agents/aws_cost/tools/aws_cost_tools.py:214-226 | the period, granularity and metrics are kept; GroupBy and Filter are present iff given and non-empty |
| CostTools.CostForPeriod | agents/sre_agent/sub_agents/aws_cost/tools/aws_cost_tools.py:227-244 | the envelope echoes the period; success iff the API answered; failure message `Failed to get cost data: …` |
| CostTools.LookupFound | agents/sre_agent/sub_agents/aws_cost/tools/aws_cost_tools.py:382-387 | a metric is found iff some entry has that name, and the amount is that of the first entry with the name |
| CostTools.SelectCost | agents/sre_agent/sub_agents/aws_cost/tools/aws_cost_tools.py:382-398 | a cost exists iff some metric is present; UnblendedCost wins whenever present |
| CostTools.TrendTotal | agents/sre_agent/sub_agents/aws_cost/tools/aws_cost_tools.py:370-399 | a missing or empty Total counts 0; UnblendedCost is used when present |
| CostTools.MetricPriority | agents/sre_agent/sub_agents/aws_cost/tools/aws_cost_tools.py:382-398 | BlendedCost comes second, NetUnblendedCost third, then the first metric listed |
| CostTools.CurrentDateInfo | agents/sre_agent/sub_agents/aws_cost/tools/aws_cost_tools.py:150-189 | defined iff today is not in January of year 1; it reports today's year and month |
| CostTools.DateInfoMeaning | agents/sre_agent/sub_agents/aws_cost/tools/aws_cost_tools.py:165-189 | the date strings parse back to the first of this month, the last and first days of the previous month, and the day before today |
| CostTools.MonthlyRequest | agents/sre_agent/sub_agents/aws_cost/tools/aws_cost_tools.py:247-283 | a DAILY UnblendedCost request, defined iff the year and month are valid and not 9999-12 |
| CostTools.MonthlyRange | agents/sre_agent/sub_agents/aws_cost/tools/aws_cost_tools.py:265-283 | the range starts on the 1st and ends (exclusive) on the first of the next month, exactly the month's days |
| CostTools.CurrentMonthRequest | agents/sre_agent/sub_agents/aws_cost/tools/aws_cost_tools.py:816-838 | the monthly request for today's month |
| CostTools.PreviousMonthRequest | agents/sre_agent/sub_agents/aws_cost/tools/aws_cost_tools.py:841-870 | the monthly request for the month before today's |
| CostTools.PreviousMonthAgrees | agents/sre_agent/sub_agents/aws_cost/tools/aws_cost_tools.py:859-866 | the previous-month range runs from the reported first day of the previous month to the first day of this month |
| CostTools.ExcludingDaysRequest | agents/sre_agent/sub_agents/aws_cost/tools/aws_cost_tools.py:431-460 | a DAILY request from the first of the month; out-of-range dates fail as overflow |
| CostTools.ExcludingDaysEnd | agents/sre_agent/sub_agents/aws_cost/tools/aws_cost_tools.py:445-453 | the exclusive end is today minus the excluded days, plus one |
| CostTools.TrendRequest | agents/sre_agent/sub_agents/aws_cost/tools/aws_cost_tools.py:333-358 | grouped by SERVICE, starting on the first of a month and ending (exclusively) tomorrow |
| CostTools.TrendStart | agents/sre_agent/sub_agents/aws_cost/tools/aws_cost_tools.py:333-358 | the start is the first of the month holding the day `(months - 2) * 30` days before the first of the month two months back; for two months it is that first |
| CostTools.ExcludingServicesRequest | agents/sre_agent/sub_agents/aws_cost/tools/aws_cost_tools.py:287-315 | the filter is `Not` SERVICE in the list, with no grouping |
| CostTools.DigitalFilter | agents/sre_agent/sub_agents/aws_cost/tools/aws_cost_tools.py:800-809 | the Environment=Digital tag alone, or that tag `And` `Not` the services when some are excluded |
| CostTools.DigitalMonthRequest | agents/sre_agent/sub_agents/aws_cost/tools/aws_cost_tools.py:785-813 | the monthly request with the Digital filter, defined exactly when the monthly one is |
| CostTools.ByServiceRequest | agents/sre_agent/sub_agents/aws_cost/tools/aws_cost_tools.py:734-756 | grouped by SERVICE, unfiltered |
| CostTools.ByTagRequest | agents/sre_agent/sub_agents/aws_cost/tools/aws_cost_tools.py:759-782 | grouped by the given tag, unfiltered |
| CostTools.LinkedAccountRequest | agents/sre_agent/sub_agents/aws_cost/tools/aws_cost_tools.py:665-688 | MONTHLY and grouped by LINKED_ACCOUNT |
| CostTools.TrendAnalysis | agents/sre_agent/sub_agents/aws_cost/tools/aws_cost_tools.py:360-428 | one total per period, in order; one `start to end` label per period after the first |
| CostTools.ReadDay | agents/sre_agent/sub_agents/aws_cost/tools/aws_cost_tools.py:494-512 | a day read successfully has a valid date and keeps its start string |
| CostTools.ReadDays | agents/sre_agent/sub_agents/aws_cost/tools/aws_cost_tools.py:489-512 | all periods read, one day each, all with valid dates |
| CostTools.ReadDaysStops | agents/sre_agent/sub_agents/aws_cost/tools/aws_cost_tools.py:489-512 | the first unreadable period decides the error |
| CostTools.OnWeekend | agents/sre_agent/sub_agents/aws_cost/tools/aws_cost_tools.py:512 | only days on the requested side of the weekend split are kept |
| CostTools.DayCounts | agents/sre_agent/sub_agents/aws_cost/tools/aws_cost_tools.py:510-536 | weekend and weekday days partition the days (as multisets); the included days are all days, or only weekdays |
| CostTools.BreakdownStep | agents/sre_agent/sub_agents/aws_cost/tools/aws_cost_tools.py:510-536 | one more day adds its cost to the included costs when weekends count or it is a weekday, and to exactly its own side |
| CostTools.SideStep | agents/sre_agent/sub_agents/aws_cost/tools/aws_cost_tools.py:584-600 | one more day extends the costs and dates of its own side of the split and leaves the other side unchanged |
| CostTools.AverageDailyCost | agents/sre_agent/sub_agents/aws_cost/tools/aws_cost_tools.py:463-538 | the error of the first unreadable period, or the breakdown of the days into included, weekend and weekday costs |
| CostTools.WeekendDailyCost | agents/sre_agent/sub_agents/aws_cost/tools/aws_cost_tools.py:541-600 | the costs and dates of exactly the weekend days, in order |
| CostTools.WeekdayDailyCost | agents/sre_agent/sub_agents/aws_cost/tools/aws_cost_tools.py:603-662 | the costs and dates of exactly the weekdays, in order |
| CostTools.AccountFields | agents/sre_agent/sub_agents/aws_cost/tools/aws_cost_tools.py:708-713 | the id has no space; without a space the name is `Unknown`; with one, the key is the id, a space and the rest, and the name is that rest with `(` and `)` stripped from both ends |
| CostTools.AccountNameUnwrapped | agents/sre_agent/sub_agents/aws_cost/tools/aws_cost_tools.py:708-713 | the name is a slice of the rest of the key cut only at runs of parentheses, and starts and ends with neither |
| CostTools.MostExpensiveIsFirstMaximum | agents/sre_agent/sub_agents/aws_cost/tools/aws_cost_tools.py:689-721 | fails iff some group has no key or no metrics; otherwise nothing beats the result, none is reported iff no cost is positive, and the one reported is the first group with the maximum |
| CostTools.MostExpensiveReadable | agents/sre_agent/sub_agents/aws_cost/tools/aws_cost_tools.py:692-706 | the selection fails iff some group has no key or no metric |
| CostTools.MostExpensiveCostBound | agents/sre_agent/sub_agents/aws_cost/tools/aws_cost_tools.py:688-721 | over readable groups the result is at least 0 and at least every group's cost |
| CostTools.MostExpensiveNone | agents/sre_agent/sub_agents/aws_cost/tools/aws_cost_tools.py:688-721 | no account is reported iff no cost is positive, and then the cost stays 0 |
| CostTools.MostExpensiveFirst | agents/sre_agent/sub_agents/aws_cost/tools/aws_cost_tools.py:708-719 | a reported account is the first group with the maximum cost, with the id and name of its key |
| CostTools.Leader | agents/sre_agent/sub_agents/aws_cost/tools/aws_cost_tools.py:708-719 | a group that takes the lead reports an id, a name and its own cost |
| CostTools.MostExpensiveAccount | agents/sre_agent/sub_agents/aws_cost/tools/aws_cost_tools.py:686-721 | the nested loop computes the first maximum over all groups of all periods, or the `list index out of range` message when a group has no key or no metric |
| CostTools.ScanGroups | agents/sre_agent/sub_agents/aws_cost/tools/aws_cost_tools.py:691-719 | the inner loop over one period's groups extends the running maximum of the groups before, or fails on an unreadable group |
| CoreTools.Label | agents/sre_agent/sub_agents/aws_core/tools/aws_core_tools.py:53 | the role name (and, at line 172, the region) when it is non-empty, else `default` |
| CoreTools.GetCallerIdentity | agents/sre_agent/sub_agents/aws_core/tools/aws_core_tools.py:29-62 | success iff the call answered, with account, user and ARN; else `Failed to get caller identity: …` |
| CoreTools.ListS3Buckets | agents/sre_agent/sub_agents/aws_core/tools/aws_core_tools.py:65-106 | success iff the call answered; the count is the number of buckets |
| CoreTools.NameTag | agents/sre_agent/sub_agents/aws_core/tools/aws_core_tools.py:148-151 | `N/A` without a Name tag, else the value of the first Name tag |
| CoreTools.InstanceName | agents/sre_agent/sub_agents/aws_core/tools/aws_core_tools.py:145-151 | the tag loop computes that name |
| CoreTools.Row | agents/sre_agent/sub_agents/aws_core/tools/aws_core_tools.py:153-166 | the row keeps the instance's id and state, with its Name tag |
| CoreTools.Rows | agents/sre_agent/sub_agents/aws_core/tools/aws_core_tools.py:153-166 | one row per instance, in order |
| CoreTools.Ec2Filters | agents/sre_agent/sub_agents/aws_core/tools/aws_core_tools.py:134-140 | a state filter exists iff a non-empty state list is given |
| CoreTools.ListEc2Instances | agents/sre_agent/sub_agents/aws_core/tools/aws_core_tools.py:109-186 | the `Filters` sent are those of `Ec2Filters`; the rows of all reservations' instances, in order, with the count; or `Failed to list EC2 instances: …` |
| CoreTools.DbRowOf | agents/sre_agent/sub_agents/aws_core/tools/aws_core_tools.py:210-226 | the row keeps id and engine; a missing endpoint reads `N/A` |
| CoreTools.DbRows | agents/sre_agent/sub_agents/aws_core/tools/aws_core_tools.py:208-228 | one row per database, in order |
| CoreTools.ListRdsInstances | agents/sre_agent/sub_agents/aws_core/tools/aws_core_tools.py:187-246 | success iff the call answered, with rows and count; else `Failed to list RDS instances: …` |
| CoreTools.GetAwsRegions | agents/sre_agent/sub_agents/aws_core/tools/aws_core_tools.py:248-293 | success iff the call answered; else `Failed to get AWS regions: …` |
| CoreTools.RegionsSorted | agents/sre_agent/sub_agents/aws_core/tools/aws_core_tools.py:270-281 | the region list is sorted, a permutation of the names returned, and the count is its length |
| CoreTools.Keys | agents/sre_agent/sub_agents/aws_core/tools/aws_core_tools.py:332 | a missing key reads `unknown` |
| CoreTools.CountByKey | agents/sre_agent/sub_agents/aws_core/tools/aws_core_tools.py:330-347 | the counting loop computes the occurrence map |
| CoreTools.CountsAreOccurrences | agents/sre_agent/sub_agents/aws_core/tools/aws_core_tools.py:330-347 | a key is counted iff it occurs, with its number of occurrences |
| CoreTools.SumValuesRemove | agents/sre_agent/sub_agents/aws_core/tools/aws_core_tools.py:330-347 | a total over a map splits off any one key |
| CoreTools.CountsSum | agents/sre_agent/sub_agents/aws_core/tools/aws_core_tools.py:330-347 | the counts add up to the number of items |
| CoreTools.StatesOf | agents/sre_agent/sub_agents/aws_core/tools/aws_core_tools.py:331-332 | each row's state, in order |
| CoreTools.EnginesOf | agents/sre_agent/sub_agents/aws_core/tools/aws_core_tools.py:345-346 | each row's engine, in order |
| CoreTools.AccountSummary | agents/sre_agent/sub_agents/aws_core/tools/aws_core_tools.py:296-369 | each section is present iff its call answered, with the bucket count and the per-state and per-engine counts |
| CoreTools.SummaryCountsAddUp | agents/sre_agent/sub_agents/aws_core/tools/aws_core_tools.py:327-338 | the per-state counts add up to the number of instances |
| CoreTools.SummaryCountsStates | agents/sre_agent/sub_agents/aws_core/tools/aws_core_tools.py:327-338 | a state is counted iff some instance is in it |
| CoreTools.StsEntry | agents/sre_agent/sub_agents/aws_core/tools/aws_core_tools.py:392-398 | the STS test succeeds iff the identity was found; its message is `Successfully retrieved caller identity` with `account_id` the identity's account, or the failure message with no account |
| CoreTools.S3Entry | agents/sre_agent/sub_agents/aws_core/tools/aws_core_tools.py:407-413 | the S3 test succeeds iff the buckets were listed |
| CoreTools.Ec2Entry | agents/sre_agent/sub_agents/aws_core/tools/aws_core_tools.py:422-428 | the EC2 test succeeds iff the instances were listed |
| CoreTools.SuccessCount | agents/sre_agent/sub_agents/aws_core/tools/aws_core_tools.py:436-438 | all succeeded iff the count is the number of tests; none iff it is 0 |
| CoreTools.OverallStatus | agents/sre_agent/sub_agents/aws_core/tools/aws_core_tools.py:441-447 | `success` iff all succeeded, `error` iff none did, `partial` otherwise |
| CoreTools.OverallOfThree | agents/sre_agent/sub_agents/aws_core/tools/aws_core_tools.py:435-447 | with three tests: `success` iff all three succeeded, `error` iff none did, `partial` otherwise |
| CoreTools.SuccessRateReadsBack | agents/sre_agent/sub_agents/aws_core/tools/aws_core_tools.py:448 | the rate splits at `/` into the success count and the number of tests |
| CoreTools.TestAwsConnectivity | agents/sre_agent/sub_agents/aws_core/tools/aws_core_tools.py:370-450 | the STS, S3 and EC2 tests in order, each succeeding iff its call answered, with the overall status and rate |
| ModelProvider.KeySetIff | agents/sre_agent/utils.py:187-191 | a key counts as set iff it is present and has a non-whitespace character |
| ModelProvider.SelectProvider | agents/sre_agent/utils.py:186-285 | Google first, then Anthropic, then Bedrock; the no-provider error iff no key is set |
| ModelProvider.ConfiguredModelAsWritten | agents/sre_agent/utils.py:257 | Bedrock hands LiteLlm the bare profile |
| ModelProvider.ConfiguredModel | agents/sre_agent/utils.py:168-285 | fails exactly when the selection fails; Bedrock gets `bedrock/<profile>` |
| ModelProvider.BedrockProfileUnprefixed | agents/sre_agent/utils.py:257 | with only a profile set, the code as written and the prefixed model differ |
| ModelProvider.GoogleFirst | agents/sre_agent/utils.py:186-191 | a Google key wins; the model is `GOOGLE_AI_MODEL` or `gemini-2.0-flash` |
| ModelProvider.AnthropicSecond | agents/sre_agent/utils.py:194-208 | without Google, Anthropic goes through LiteLlm with its model or the default; without LiteLlm it fails |
| ModelProvider.BedrockNeedsValidCredentials | agents/sre_agent/utils.py:224-246 | Bedrock with failing credentials raises the credentials message |
| ModelProvider.NoProviderNamesAllVariables | agents/sre_agent/utils.py:281-285 | the no-provider message names all three variables |
| ModelProvider.BlankKeysIgnored | agents/sre_agent/utils.py:187-198 | empty or whitespace-only keys select no provider |
| Text.StripNonEmptyIff | agents/sre_agent/utils.py:188 | `strip()` is non-empty iff the text has a non-whitespace character |
| Text.SplitJoin | slack_bot/main.py:31 | splitting at a separator and joining back gives the text |
| Text.NatToStringValue | agents/sre_agent/aws_auth/auth_service.py:160-163 | the decimal rendering reads back as the number |
| Text.ParseIntRendered | agents/sre_agent/aws_auth/config.py:124-138 | `int()` of a rendered integer gives it back |
| Text.StripCharsSlice | agents/sre_agent/sub_agents/aws_cost/tools/aws_cost_tools.py:713 | `strip(chars)` keeps a slice cut only at runs of those characters, and it starts and ends with none of them |
| Text.SortStringsCorrect | agents/sre_agent/sub_agents/aws_core/tools/aws_core_tools.py:280 | `sorted` gives an ordered permutation |

## Left out

- Timestamps: the ISO expiration timestamp of STS credentials is not parsed. `Expiry` is either seconds or "unparsable".
- The clock is whole seconds: `_credentials_valid` and the session id work on `now` as an integer. The session id renders the integer where the source formats a float timestamp.
- `enable_role_chaining` is not modelled: the code only stores the flag.
- Strings use plain code points. `\w`, `lower()` and `strip()` are modelled on ASCII letters and ASCII whitespace.
- Floating point: costs are `real`. The per-period averages, `percent_change`, `round` and `float()` parsing of amounts are left out. The trend of `get_cost_trend` and `get_last_n_months_trend` is modelled up to the totals and labels.
- Process-wide state is not modelled: the service singleton `get_auth_service`, `configure_aws_auth`/`clear_aws_auth` and the cost-tool client globals. The service is passed in instead, and Cost Explorer client selection is not modelled.
- `json.loads` of `AWS_AUTH_ROLES` is not modelled: the decoded document is a parameter.
- All SDK calls are parameters that give their outcome. This covers STS, boto3 constructors, Cost Explorer, EC2, S3, RDS, package imports and the credential probe of `get_configured_model`.
- AuthConfig.ValidateRole, AuthConfig.NewRoleConfig, AuthConfig.AuthConfig.AddRole, AuthConfig.AuthConfig.FromEnv, AuthApi.ConfigureAuth and AuthApi.CreateRoleConfig: the session name is checked by the intended rule (`AuthConfig.ValidSessionName`), so a name with one trailing newline, which the pattern as written lets through, is refused (see Findings). `AddRole` requires a role valid under that rule, while `add_role` stores any `RoleConfig`.
- AuthConfig.ValidAccountId: `isdigit()` is modelled on ASCII digits only; Python also accepts other Unicode decimal and superscript digits, so such an account id is refused here, and through it by AuthConfig.ValidateRole and AuthConfig.NewRoleConfig.
- Text.ParseInt: reads an optional sign and ASCII digits only; `int()` also takes single underscores between digits and non-ASCII decimal digits, so `1_200` in `AWS_AUTH_CACHE_TTL`, `AWS_AUTH_DEFAULT_DURATION` or `SESSION_TIMEOUT_MINUTES` is read here as not an integer.
- AuthConfig.AuthConfig.ListRoles: the names come in no particular order, while `list(self.roles.keys())` gives them in insertion order.
- AuthApi.CreateClient: states only the no-role, cached and unknown-role cases and the one-exchange bound, not the refresh case that `AuthService.GetClient` states in full.
- Calendar.ParseIsoDate: accepts only four-digit years with two-digit month and day, while `strptime` also takes one-digit fields. The timestamps the API returns always have the full form.
- `strftime("%Y")` below year 1000 is not modelled: such years are rendered with four digits.
- Slack handlers are not modelled: event handling, message sending and the API session calls. SlackSessions.StartThread models only the call site that migrates a session to its thread.
- Instance fields not modelled: the `isoformat` timestamps `launch_time` of EC2 instances, `creation_date` of S3 buckets and `creation_time` of RDS instances; the records carry every other reported field.
- Report timestamps not modelled: the `timestamp` of `get_account_summary` and of `test_aws_connectivity` is `datetime.utcnow().isoformat()`, read from the real clock, so `CoreTools.SummaryResult` and `CoreTools.ConnectivityReport` have no such field.
- KeyError on an instance without a required key is not modelled: the typed records always hold the key.
- The per-test `except` branches of `test_aws_connectivity` are not modelled: the tools it calls catch every exception themselves.
- Concurrency is not modelled: the thread-pool executor and `async` scheduling.
- `kube_tools.py` is not part of this model.

## Findings

| source | as written | input that shows it | evidently intended | confidence | as-written member | corrected member |
|---|---|---|---|---|---|---|
| agents/sre_agent/aws_auth/config.py:55 | the session-name pattern ends in `$`, which also matches just before a final newline | role session name `"SREBotSession\n"` passes validation | the pattern's own rule without the newline: 1 to 64 characters of the class only | not executed | AuthConfig.TrailingNewlineAcceptedAsWritten | AuthConfig.ValidSessionName |
| agents/sre_agent/utils.py:257 | the Bedrock branch hands LiteLlm the bare inference profile | only `BEDROCK_INFERENCE_PROFILE` set, boto3, credentials and LiteLlm available | `LiteLlm(model="bedrock/" + profile)`, as tests/test_model_configuration.py:88 expects | not executed | ModelProvider.BedrockProfileUnprefixed | ModelProvider.ConfiguredModel |

=== FILE: auth_api.dfy ===
/**
 * The package-level entry points of the authentication layer: building a
 * settings object from arguments, building a role, and the two
 * conveniences that forward to the service.
 *
 * The process-wide service instance is not modelled: the service the
 * conveniences use is passed in.
 */
module AuthApi {
  import opened Wrappers
  import opened Text
  import opened AuthErrors
  import opened AuthConfig
  import opened AuthService

  /** A keyword argument given to `configure_auth` for a role. */
  datatype RoleArg =
      /** A `RoleConfig` instance, which exists only once validated. */
    | Instance(config: RoleConfig)
      /** A dictionary whose entries form a role (absent optional fields at their defaults). */
    | Dict(config: RoleConfig)
      /** A dictionary pydantic cannot read as a role: a required key missing or a value of the wrong type. */
    | UnreadableDict
      /** Any other value; `text` is its `str`. */
    | OtherValue(text: string)

  /** A role keyword argument of `configure_auth`: its name and its value. */
  datatype RoleKwarg = RoleKwarg(name: string, arg: RoleArg)

  /** What `configure_auth` raises. */
  datatype ConfigureError =
    | InvalidRoleArgument(name: string, value: string)   // ValueError "Invalid role configuration for <name>: <value>"
    | RoleValidationFailed(name: string)                 // validation error of a dictionary role
    | CacheTtlOutOfRange(ttl: int)                       // validation error of the TTL

  /** Role instances given to `configure_auth` are valid ones. */
  predicate InstancesValid(args: seq<RoleKwarg>) {
    forall i :: 0 <= i < |args| && args[i].arg.Instance? ==> RoleValid(args[i].arg.config)
  }

  /** The role map `configure_auth` builds from the first arguments, or the error it raises. */
  function CollectRolesSpec(args: seq<RoleKwarg>): Result<map<string, RoleConfig>, ConfigureError> {
    if args == [] then Ok(map[])
    else
      var RoleKwarg(name, arg) := args[|args| - 1];
      match CollectRolesSpec(args[..|args| - 1])
      case Err(e) => Err(e)
      case Ok(m) =>
        match arg
        case Instance(c) => Ok(m[name := c])
        case Dict(c) => if RoleValid(c) then Ok(m[name := c]) else Err(RoleValidationFailed(name))
        case UnreadableDict => Err(RoleValidationFailed(name))
        case OtherValue(text) => Err(InvalidRoleArgument(name, text))
  }

  /** The loop of `configure_auth` over its role arguments. */
  method CollectRoles(args: seq<RoleKwarg>) returns (r: Result<map<string, RoleConfig>, ConfigureError>)
    ensures r == CollectRolesSpec(args)
  {
    var roles: map<string, RoleConfig> := map[];
    var i := 0;
    while i < |args|
      invariant 0 <= i <= |args|
      invariant CollectRolesSpec(args[..i]) == Ok(roles)
    {
      var p := args[..i + 1];
      assert p[..|p| - 1] == args[..i];
      var RoleKwarg(name, arg) := args[i];
      match arg {
        case Instance(c) =>
          roles := roles[name := c];
        case Dict(c) =>
          if !RoleValid(c) {
            CollectRolesStops(args, i + 1);
            return Err(RoleValidationFailed(name));
          }
          roles := roles[name := c];
        case UnreadableDict =>
          CollectRolesStops(args, i + 1);
          return Err(RoleValidationFailed(name));
        case OtherValue(text) =>
          CollectRolesStops(args, i + 1);
          return Err(InvalidRoleArgument(name, text));
      }
      i := i + 1;
    }
    assert args[..i] == args;
    return Ok(roles);
  }

  /** Once an argument fails, the whole collection fails with that error. */
  lemma {:induction false} CollectRolesStops(args: seq<RoleKwarg>, k: nat)
    requires 0 < k <= |args| && CollectRolesSpec(args[..k]).Err?
    ensures CollectRolesSpec(args) == CollectRolesSpec(args[..k])
    decreases |args| - k
  {
    if k < |args| {
      var p := args[..k + 1];
      assert p[..|p| - 1] == args[..k];
      CollectRolesStops(args, k + 1);
    } else {
      assert args[..k] == args;
    }
  }

  /** A successful collection is the collection of the first arguments with the last one's role stored under its name. */
  lemma CollectLast(args: seq<RoleKwarg>)
    requires args != [] && CollectRolesSpec(args).Ok?
    ensures CollectRolesSpec(args[..|args| - 1]).Ok?
    ensures var last := args[|args| - 1];
      (last.arg.Instance? || RoleValid(last.arg.config))
      && CollectRolesSpec(args).value == CollectRolesSpec(args[..|args| - 1]).value[last.name := last.arg.config]
  {
  }

  /** The collected roles are stored under exactly the argument names. */
  lemma {:induction false} CollectedNames(args: seq<RoleKwarg>)
    requires CollectRolesSpec(args).Ok?
    ensures forall n :: n in CollectRolesSpec(args).value <==> exists i :: 0 <= i < |args| && args[i].name == n
  {
    if args != [] {
      var init := args[..|args| - 1];
      CollectLast(args);
      CollectedNames(init);
      var m0 := CollectRolesSpec(init).value;
      forall n
        ensures n in CollectRolesSpec(args).value <==> exists i :: 0 <= i < |args| && args[i].name == n
      {
        if n in m0 {
          var i :| 0 <= i < |init| && init[i].name == n;
          assert args[i].name == n;
        }
        if exists i :: 0 <= i < |args| && args[i].name == n {
          var i :| 0 <= i < |args| && args[i].name == n;
          if i < |init| {
            assert init[i].name == n;
          }
        }
      }
    }
  }

  /** Every collected role is valid when the instances given are. */
  lemma {:induction false} CollectedValid(args: seq<RoleKwarg>)
    requires InstancesValid(args) && CollectRolesSpec(args).Ok?
    ensures forall n :: n in CollectRolesSpec(args).value ==> RoleValid(CollectRolesSpec(args).value[n])
  {
    if args != [] {
      var init := args[..|args| - 1];
      assert InstancesValid(init) by {
        forall i | 0 <= i < |init| && init[i].arg.Instance?
          ensures RoleValid(init[i].arg.config)
        {
          assert init[i] == args[i];
        }
      }
      CollectLast(args);
      CollectedValid(init);
    }
  }

  /** An instance whose name no later argument reuses is stored unchanged. */
  lemma {:induction false} CollectedInstances(args: seq<RoleKwarg>)
    requires CollectRolesSpec(args).Ok?
    ensures var m := CollectRolesSpec(args).value;
      forall i :: (0 <= i < |args| && args[i].arg.Instance?
        && (forall j :: i < j < |args| ==> args[j].name != args[i].name)) ==> args[i].name in m && m[args[i].name] == args[i].arg.config
  {
    if args != [] {
      var init := args[..|args| - 1];
      CollectLast(args);
      CollectedInstances(init);
      var m := CollectRolesSpec(args).value;
      forall i | 0 <= i < |args| && args[i].arg.Instance? && (forall j :: i < j < |args| ==> args[j].name != args[i].name)
        ensures args[i].name in m && m[args[i].name] == args[i].arg.config
      {
        if i < |init| {
          assert init[i] == args[i];
          assert forall j :: i < j < |init| ==> init[j].name != init[i].name by {
            forall j | i < j < |init|
              ensures init[j].name != init[i].name
            {
              assert init[j] == args[j];
            }
          }
        }
      }
    }
  }

  /** Instances are stored unchanged under their names, and every collected role is valid. */
  lemma CollectedRoles(args: seq<RoleKwarg>)
    requires InstancesValid(args) && CollectRolesSpec(args).Ok?
    ensures var m := CollectRolesSpec(args).value;
      (forall n :: n in m <==> exists i :: 0 <= i < |args| && args[i].name == n)
      && (forall n :: n in m ==> RoleValid(m[n]))
    ensures var m := CollectRolesSpec(args).value;
      forall i :: (0 <= i < |args| && args[i].arg.Instance?
        && (forall j :: i < j < |args| ==> args[j].name != args[i].name)) ==> m[args[i].name] == args[i].arg.config
  {
    CollectedNames(args);
    CollectedValid(args);
    CollectedInstances(args);
  }

  /** `configure_auth(...)`: the settings object built from the arguments, or the error raised. */
  method ConfigureAuth(defaultRegion: string, defaultProfile: Option<string>, enableCaching: bool,
                       cacheTtlSeconds: int, roles: seq<RoleKwarg>)
    returns (r: Result<AuthConfig, ConfigureError>)
    requires InstancesValid(roles)
    ensures CollectRolesSpec(roles).Err? ==> r == Err(CollectRolesSpec(roles).error)
    ensures CollectRolesSpec(roles).Ok? && !ValidCacheTtl(cacheTtlSeconds) ==> r == Err(CacheTtlOutOfRange(cacheTtlSeconds))
    ensures CollectRolesSpec(roles).Ok? && ValidCacheTtl(cacheTtlSeconds) ==>
      r.Ok? && fresh(r.value) && r.value.Valid()
      && r.value.Data() == ConfigData(defaultRegion, defaultProfile, CollectRolesSpec(roles).value, enableCaching, cacheTtlSeconds)
  {
    var collected := CollectRoles(roles);
    if collected.Err? {
      return Err(collected.error);
    }
    if !ValidCacheTtl(cacheTtlSeconds) {
      return Err(CacheTtlOutOfRange(cacheTtlSeconds));
    }
    CollectedRoles(roles);
    var config := new AuthConfig(ConfigData(defaultRegion, defaultProfile, collected.value, enableCaching, cacheTtlSeconds));
    return Ok(config);
  }

  /** `create_role_config(role_arn, account_id, **kwargs)`: exactly the validated constructor. */
  function CreateRoleConfig(roleArn: string, accountId: string, sessionName: Option<string>,
                            duration: Option<int>, externalId: Option<string>): (r: Result<RoleConfig, seq<RoleField>>)
    ensures r == NewRoleConfig(roleArn, accountId, sessionName, duration, externalId)
    ensures r.Ok? ==> RoleValid(r.value)
  {
    NewRoleConfig(roleArn, accountId, sessionName, duration, externalId)
  }

  /** `create_client(service, role_name, region)`: the service's `get_client` with the same arguments. */
  method CreateClient(s: AuthService, service: string, roleName: Option<string>, region: Option<string>, now: int,
                      setup: StsSetup, outcome: ExchangeOutcome, factory: FactoryOutcome)
    returns (r: Result<Client, AuthError>)
    requires s.Valid()
    modifies s
    ensures s.Valid()
    ensures !Truthy(roleName) ==>
      s.requests == old(s.requests)
      && r == BuildClient(service, TargetRegion(region, s.config.defaultRegion), None, s.config.defaultProfile, factory)
    ensures Truthy(roleName) && old(s.CredentialsValid(roleName.value, now)) ==>
      s.requests == old(s.requests)
      && r == BuildClient(service, TargetRegion(region, s.config.defaultRegion), Some(old(s.cache)[roleName.value].credentials), None, factory)
    ensures Truthy(roleName) && !old(s.CredentialsValid(roleName.value, now)) && roleName.value !in s.config.roles ==>
      s.requests == old(s.requests) && r == Err(NewRoleNotFoundError(roleName.value))
    ensures |s.requests| <= |old(s.requests)| + 1
  {
    r := s.GetClient(service, roleName, region, now, setup, outcome, factory);
  }

  /** `test_auth(role_name)`: the service's `test_credentials` for that role. */
  method TestAuth(s: AuthService, roleName: Option<string>, now: int, setup: StsSetup, outcome: ExchangeOutcome,
                  factory: FactoryOutcome, identity: IdentityOutcome)
    returns (r: Result<Identity, AuthError>)
    requires s.Valid()
    modifies s
    ensures s.Valid()
    ensures r.Ok? ==> (r.value.roleName == roleName && identity.IdentityReturned? && r.value.account == identity.account
      && r.value.userId == identity.userId && r.value.arn == identity.arn)
    ensures r.Err? ==> r.error.kind.Base? || identity.IdentityFailed?
    ensures r.Err? && !identity.IdentityFailed? ==> r.error.errorCode == Some("UNKNOWN_ERROR")
    ensures r.Ok? <==> old(s.ClientAfter("sts", roleName, None, now, setup, outcome, factory)).Ok? && identity.IdentityReturned?
    ensures old(s.ClientAfter("sts", roleName, None, now, setup, outcome, factory)).Err? ==>
      r == Err(FromBotoError(OtherError(Str(old(s.ClientAfter("sts", roleName, None, now, setup, outcome, factory)).error)), "credential test"))
    ensures old(s.ClientAfter("sts", roleName, None, now, setup, outcome, factory)).Ok? && identity.IdentityFailed? ==>
      r == Err(FromBotoError(identity.error, "credential test"))
    ensures s.cache == old(s.CacheAfter(roleName, now, setup, outcome)) && s.requests == old(s.RequestsAfter(roleName, now, setup))
      && s.stsClientCreated == old(s.StsAfter(roleName, now, setup))
  {
    r := s.TestCredentials(roleName, now, setup, outcome, factory, identity);
  }
}

=== FILE: auth_config.dfy ===
/**
 * Configuration of the AWS authentication layer: the validated role record,
 * the service-wide settings object with its role registry, and loading both
 * from the process environment.
 */
module AuthConfig {
  import opened Wrappers
  import opened Text

  // ---------------------------------------------------------------------
  // Role configuration

  /** A role the service may assume, as `RoleConfig` stores it. */
  datatype RoleConfig = RoleConfig(
    roleArn: string,
    accountId: string,
    roleSessionName: string,
    durationSeconds: int,
    externalId: Option<string>)

  const DefaultSessionName := "SREBotSession"
  const DefaultDuration := 3600
  const MinDuration := 900
  const MaxDuration := 43200
  const MaxSessionNameLength := 64

  /** `role_arn` names an IAM role: the IAM ARN prefix and a `:role/` part. */
  predicate ValidRoleArn(v: string) {
    StartsWith(v, "arn:aws:iam::") && Contains(v, ":role/")
  }

  /** `account_id` is exactly twelve decimal digits. */
  predicate ValidAccountId(v: string) {
    IsDigitString(v) && |v| == 12
  }

  /** The characters of the class `[\w+=,.@-]`, with `\w` read as ASCII letters, digits and `_`. */
  predicate SessionNameChar(c: char) {
    ('a' <= c <= 'z') || ('A' <= c <= 'Z') || ('0' <= c <= '9') || c == '_'
    || c == '+' || c == '=' || c == ',' || c == '.' || c == '@' || c == '-'
  }

  predicate AllSessionNameChars(v: string) {
    forall i :: 0 <= i < |v| ==> SessionNameChar(v[i])
  }

  /**
   * The session-name check as the validator is written: `re.match` with
   * `^[...]+$`, where `$` also matches just before a final newline, then the
   * length limit on the whole string.
   */
  predicate SessionNameAcceptedAsWritten(v: string) {
    ((|v| >= 1 && AllSessionNameChars(v))
     || (|v| >= 2 && v[|v| - 1] == '\n' && AllSessionNameChars(v[..|v| - 1])))
    && |v| <= MaxSessionNameLength
  }

  /** The session-name rule the validator means: the pattern's 1 to 64 characters of the class, without the newline. */
  predicate ValidSessionName(v: string) {
    1 <= |v| <= MaxSessionNameLength && AllSessionNameChars(v)
  }

  predicate ValidDuration(d: int) {
    MinDuration <= d <= MaxDuration
  }

  /** The fields of a role that validation checks, in declaration order. */
  datatype RoleField = RoleArnField | AccountIdField | SessionNameField | DurationField

  predicate FieldValid(c: RoleConfig, f: RoleField) {
    match f
    case RoleArnField => ValidRoleArn(c.roleArn)
    case AccountIdField => ValidAccountId(c.accountId)
    case SessionNameField => ValidSessionName(c.roleSessionName)
    case DurationField => ValidDuration(c.durationSeconds)
  }

  predicate RoleValid(c: RoleConfig) {
    ValidRoleArn(c.roleArn) && ValidAccountId(c.accountId)
    && ValidSessionName(c.roleSessionName) && ValidDuration(c.durationSeconds)
  }

  /**
   * Constructing a `RoleConfig`: the values are kept unchanged when every
   * field validates; otherwise the validation error lists each failing field.
   */
  function ValidateRole(c: RoleConfig): (r: Result<RoleConfig, seq<RoleField>>)
    ensures r.Ok? <==> RoleValid(c)
    ensures r.Ok? ==> r.value == c
    ensures r.Err? ==> r.error != [] && forall f :: f in r.error <==> !FieldValid(c, f)
  {
    var failing :=
      (if ValidRoleArn(c.roleArn) then [] else [RoleArnField])
      + (if ValidAccountId(c.accountId) then [] else [AccountIdField])
      + (if ValidSessionName(c.roleSessionName) then [] else [SessionNameField])
      + (if ValidDuration(c.durationSeconds) then [] else [DurationField]);
    if failing == [] then Ok(c) else Err(failing)
  }

  /** `RoleConfig(role_arn, account_id, ...)` with the optional fields left out taking their defaults. */
  function NewRoleConfig(roleArn: string, accountId: string, sessionName: Option<string>,
                         duration: Option<int>, externalId: Option<string>): (r: Result<RoleConfig, seq<RoleField>>)
    ensures r.Ok? <==> (ValidRoleArn(roleArn) && ValidAccountId(accountId)
      && ValidSessionName(sessionName.GetOr(DefaultSessionName)) && ValidDuration(duration.GetOr(DefaultDuration)))
    ensures r.Ok? ==> (r.value.roleArn == roleArn && r.value.accountId == accountId
      && r.value.roleSessionName == sessionName.GetOr(DefaultSessionName)
      && r.value.durationSeconds == duration.GetOr(DefaultDuration)
      && r.value.externalId == externalId)
  {
    ValidateRole(RoleConfig(roleArn, accountId, sessionName.GetOr(DefaultSessionName),
                            duration.GetOr(DefaultDuration), externalId))
  }

  /** The default session name passes its own validator. */
  lemma DefaultSessionNameValid()
    ensures ValidSessionName(DefaultSessionName)
  {
    assert forall i :: 0 <= i < |DefaultSessionName| ==> SessionNameChar(DefaultSessionName[i]);
  }

  const ExampleRoleArn := "arn:aws:iam::123456789012:role/TestRole"
  const ExampleAccountId := "123456789012"

  /** The test suite's role ARN has the IAM prefix and a `:role/` part. */
  lemma ExampleRoleArnValid()
    ensures ValidRoleArn(ExampleRoleArn)
  {
    var arn := ExampleRoleArn;
    assert arn[..13] == "arn:aws:iam::";
    assert arn[25..][..6] == ":role/";
    assert StartsWith(arn[25..], ":role/");
  }

  /** The test suite's account id is twelve digits. */
  lemma ExampleAccountIdValid()
    ensures ValidAccountId(ExampleAccountId)
  {
    assert forall i :: 0 <= i < 12 ==> IsDigit(ExampleAccountId[i]);
  }

  /** A role given only an ARN and an account id takes the defaults and validates. */
  lemma MinimalRoleAccepted()
    ensures var r := NewRoleConfig(ExampleRoleArn, ExampleAccountId, None, None, None);
      r.Ok? && r.value.roleSessionName == "SREBotSession" && r.value.durationSeconds == 3600
  {
    DefaultSessionNameValid();
    ExampleRoleArnValid();
    ExampleAccountIdValid();
  }

  /** Names outside the character class, empty names and over-long names are refused. */
  lemma {:induction false} InvalidSessionNames()
    ensures !ValidSessionName("invalid@session#name")
    ensures !ValidSessionName("")
    ensures forall v :: |v| > MaxSessionNameLength ==> !ValidSessionName(v)
  {
    assert "invalid@session#name"[15] == '#';
  }

  /** The validator as written lets a trailing newline through, which the intended rule refuses. */
  lemma {:induction false} TrailingNewlineAcceptedAsWritten()
    ensures SessionNameAcceptedAsWritten("SREBotSession\n")
    ensures !ValidSessionName("SREBotSession\n")
  {
    var v := "SREBotSession\n";
    assert v[..|v| - 1] == DefaultSessionName;
    DefaultSessionNameValid();
    assert !SessionNameChar(v[|v| - 1]);
  }

  /** Apart from that newline, the written check and the intended rule agree. */
  lemma {:induction false} SessionNameCheckDiffersOnlyByNewline(v: string)
    ensures ValidSessionName(v) ==> SessionNameAcceptedAsWritten(v)
    ensures SessionNameAcceptedAsWritten(v) && !ValidSessionName(v) ==>
      |v| >= 2 && v[|v| - 1] == '\n' && ValidSessionName(v[..|v| - 1])
  {
  }

  // ---------------------------------------------------------------------
  // Temporary credentials

  /** The expiration timestamp of a credential set: seconds since the epoch, or text that does not parse. */
  datatype Expiry = At(time: int) | Unparseable

  /** `AWSCredentials`: the temporary key set an exchange issues, tagged with the service's default region. */
  datatype AWSCredentials = AWSCredentials(
    accessKeyId: string,
    secretAccessKey: string,
    sessionToken: string,
    expiration: Expiry,
    region: string)

  // ---------------------------------------------------------------------
  // Service-wide settings

  const DefaultRegion := "us-east-1"
  const DefaultCacheTtl := 3000
  const MinCacheTtl := 300
  const MaxCacheTtl := 43200

  predicate ValidCacheTtl(t: int) {
    MinCacheTtl <= t <= MaxCacheTtl
  }

  /** The keyword arguments `AWSAuthConfig` is built from, with the defaults filled in. */
  datatype ConfigData = ConfigData(
    defaultRegion: string,
    defaultProfile: Option<string>,
    roles: map<string, RoleConfig>,
    enableCaching: bool,
    cacheTtlSeconds: int)

  /** `AWSAuthConfig()` with every field at its default. */
  const DefaultConfigData := ConfigData(DefaultRegion, None, map[], true, DefaultCacheTtl)

  predicate ConfigDataValid(d: ConfigData) {
    ValidCacheTtl(d.cacheTtlSeconds) && forall n :: n in d.roles ==> RoleValid(d.roles[n])
  }

  /** `AWSAuthConfig`: settings fixed at construction and a role registry that `AddRole` updates. */
  class AuthConfig {
    const defaultRegion: string
    const defaultProfile: Option<string>
    const enableCaching: bool
    const cacheTtlSeconds: int
    var roles: map<string, RoleConfig>

    ghost predicate Valid()
      reads this
    {
      ConfigDataValid(Data())
    }

    /** The settings as a value. */
    function Data(): ConfigData
      reads this
    {
      ConfigData(defaultRegion, defaultProfile, roles, enableCaching, cacheTtlSeconds)
    }

    constructor (d: ConfigData)
      requires ConfigDataValid(d)
      ensures Data() == d
      ensures Valid()
    {
      defaultRegion := d.defaultRegion;
      defaultProfile := d.defaultProfile;
      enableCaching := d.enableCaching;
      cacheTtlSeconds := d.cacheTtlSeconds;
      roles := d.roles;
    }

    /** `get_role(name)`: the stored role, or `None`. */
    function GetRole(name: string): (r: Option<RoleConfig>)
      reads this
      ensures r.Some? <==> name in roles
      ensures r.Some? ==> r.value == roles[name]
    {
      if name in roles then Some(roles[name]) else None
    }

    /** `add_role(name, role)`: inserts or overwrites that one name. */
    method AddRole(name: string, role: RoleConfig)
      requires Valid() && RoleValid(role)
      modifies this
      ensures roles == old(roles)[name := role]
      ensures Valid()
    {
      roles := roles[name := role];
    }

    /** `list_roles()`: every configured name exactly once. */
    method ListRoles() returns (names: seq<string>)
      ensures forall n :: n in names <==> n in roles
      ensures |names| == |roles.Keys|
    {
      names := [];
      var rest := roles.Keys;
      while rest != {}
        invariant rest <= roles.Keys
        invariant forall n :: n in names <==> n in roles.Keys - rest
        invariant |names| == |roles.Keys - rest|
        decreases |rest|
      {
        var n :| n in rest;
        assert roles.Keys - (rest - {n}) == (roles.Keys - rest) + {n};
        names := names + [n];
        rest := rest - {n};
      }
    }

    /** `AWSAuthConfig.from_env()`: the loaded settings, or the error loading raises. */
    static method FromEnv(env: map<string, string>, rolesDoc: RolesDoc) returns (r: Result<AuthConfig, ConfigError>)
      ensures r.Err? ==> FromEnvSpec(env, rolesDoc) == Err(r.error)
      ensures r.Ok? ==> FromEnvSpec(env, rolesDoc) == Ok(r.value.Data()) && fresh(r.value) && r.value.Valid()
    {
      var data := LoadConfigData(env, rolesDoc);
      if data.Err? {
        return Err(data.error);
      }
      FromEnvValid(env, rolesDoc);
      var config := new AuthConfig(data.value);
      return Ok(config);
    }
  }

  // ---------------------------------------------------------------------
  // Loading from the environment

  /** A feature flag reads true iff its lowercased value is `true`, `1` or `yes`. */
  predicate FlagValue(v: string) {
    Lower(v) in {"true", "1", "yes"}
  }

  /** One entry of the decoded `AWS_AUTH_ROLES` object. */
  datatype RoleEntry =
      /** An object whose fields form a role (absent optional fields already at their defaults). */
    | RoleFields(config: RoleConfig)
      /** An object pydantic cannot read as a role: a required field missing or a field of the wrong type. */
    | Unreadable
      /** A value that is not an object, so `RoleConfig(**value)` raises `TypeError`. */
    | NotAMapping

  /** One name/value pair of the decoded object. */
  datatype NamedEntry = NamedEntry(name: string, entry: RoleEntry)

  /** `json.loads` applied to `AWS_AUTH_ROLES`; decoding itself is not part of this model. */
  datatype RolesDoc = Undecodable | NotAnObject | Object(entries: seq<NamedEntry>)

  /** What `from_env` raises. */
  datatype ConfigError =
    | RolesNotAnObject                          // AttributeError: the document has no `.items()`
    | RoleNotAMapping(name: string)             // TypeError from `RoleConfig(**value)`
    | DurationNotAnInteger(text: string)        // ValueError from `int(AWS_AUTH_DEFAULT_DURATION)`
    | InvalidDefaultRole(fields: seq<RoleField>) // validation error of the default role
    | InvalidCacheTtl(ttl: int)                 // validation error of `cache_ttl_seconds`

  /** Why the role loop stopped: an error `from_env` catches, or one it lets through. */
  datatype RolesFailure = Caught | Raised(error: ConfigError)

  /** The role loop over the first entries of the object: each valid role is stored under its name; the first failure stops it. */
  function DecodeRoles(entries: seq<NamedEntry>): Result<map<string, RoleConfig>, RolesFailure> {
    if entries == [] then Ok(map[])
    else
      var NamedEntry(name, entry) := entries[|entries| - 1];
      match DecodeRoles(entries[..|entries| - 1])
      case Err(f) => Err(f)
      case Ok(m) =>
        match entry
        case RoleFields(c) => if RoleValid(c) then Ok(m[name := c]) else Err(Caught)
        case Unreadable => Err(Caught)
        case NotAMapping => Err(Raised(RoleNotAMapping(name)))
  }

  /** Roles the loop stores are valid, and they are stored under exactly the entry names. */
  lemma {:induction false} DecodeRolesValid(entries: seq<NamedEntry>)
    requires DecodeRoles(entries).Ok?
    ensures forall n :: n in DecodeRoles(entries).value ==> RoleValid(DecodeRoles(entries).value[n])
    ensures forall n :: n in DecodeRoles(entries).value <==> exists i :: 0 <= i < |entries| && entries[i].name == n
  {
    if entries != [] {
      var init := entries[..|entries| - 1];
      DecodeRolesValid(init);
      var m := DecodeRoles(init).value;
      forall n
        ensures n in DecodeRoles(entries).value <==> exists i :: 0 <= i < |entries| && entries[i].name == n
      {
        if n in m {
          var i :| 0 <= i < |init| && init[i].name == n;
          assert entries[i].name == n;
        }
        if exists i :: 0 <= i < |entries| && entries[i].name == n {
          var i :| 0 <= i < |entries| && entries[i].name == n;
          if i < |init| {
            assert init[i].name == n;
          }
        }
      }
    }
  }

  /** The roles from `AWS_AUTH_ROLES`: none when unset, none when the document or a role is malformed. */
  function RolesFromDoc(env: map<string, string>, doc: RolesDoc): Result<map<string, RoleConfig>, ConfigError> {
    if !Truthy(Getenv(env, "AWS_AUTH_ROLES")) then Ok(map[])
    else
      match doc
      case Undecodable => Ok(map[])
      case NotAnObject => Err(RolesNotAnObject)
      case Object(entries) =>
        match DecodeRoles(entries)
        case Ok(m) => Ok(m)
        case Err(Caught) => Ok(map[])
        case Err(Raised(e)) => Err(e)
  }

  /** The region: `AWS_AUTH_DEFAULT_REGION` first, then `AWS_REGION`, then the default. */
  function RegionFromEnv(env: map<string, string>): string {
    if Truthy(Getenv(env, "AWS_AUTH_DEFAULT_REGION")) then env["AWS_AUTH_DEFAULT_REGION"]
    else if Truthy(Getenv(env, "AWS_REGION")) then env["AWS_REGION"]
    else DefaultRegion
  }

  /** The profile: `AWS_AUTH_DEFAULT_PROFILE` first, then `AWS_PROFILE`, else none. */
  function ProfileFromEnv(env: map<string, string>): Option<string> {
    if Truthy(Getenv(env, "AWS_AUTH_DEFAULT_PROFILE")) then Some(env["AWS_AUTH_DEFAULT_PROFILE"])
    else if Truthy(Getenv(env, "AWS_PROFILE")) then Some(env["AWS_PROFILE"])
    else None
  }

  /** Caching: the flag's value when the variable is set and non-empty, on otherwise. */
  function CachingFromEnv(env: map<string, string>): bool {
    if Truthy(Getenv(env, "AWS_AUTH_ENABLE_CACHING")) then FlagValue(env["AWS_AUTH_ENABLE_CACHING"]) else true
  }

  /** The TTL: the integer value of `AWS_AUTH_CACHE_TTL`, the default when it is unset or not an integer. */
  function TtlFromEnv(env: map<string, string>): int {
    if Truthy(Getenv(env, "AWS_AUTH_CACHE_TTL")) && ParseInt(env["AWS_AUTH_CACHE_TTL"]).Some? then
      ParseInt(env["AWS_AUTH_CACHE_TTL"]).value
    else DefaultCacheTtl
  }

  /** The name the simplified single-role setup registers its role under. */
  function DefaultRoleName(env: map<string, string>): string {
    Getenv(env, "AWS_AUTH_DEFAULT_ROLE_NAME").GetOr("default")
  }

  /** The simplified single-role setup applies when both the ARN and the account id are set and non-empty. */
  predicate HasDefaultRole(env: map<string, string>) {
    Truthy(Getenv(env, "AWS_AUTH_DEFAULT_ROLE_ARN")) && Truthy(Getenv(env, "AWS_AUTH_DEFAULT_ACCOUNT_ID"))
  }

  /** The role the simplified single-role setup builds. */
  function DefaultRoleFromEnv(env: map<string, string>): Result<RoleConfig, ConfigError>
    requires HasDefaultRole(env)
  {
    var durationText := Getenv(env, "AWS_AUTH_DEFAULT_DURATION").GetOr("3600");
    match ParseInt(durationText)
    case None => Err(DurationNotAnInteger(durationText))
    case Some(duration) =>
      var role := RoleConfig(env["AWS_AUTH_DEFAULT_ROLE_ARN"], env["AWS_AUTH_DEFAULT_ACCOUNT_ID"],
                             Getenv(env, "AWS_AUTH_DEFAULT_SESSION_NAME").GetOr(DefaultSessionName),
                             duration, Getenv(env, "AWS_AUTH_DEFAULT_EXTERNAL_ID"));
      match ValidateRole(role)
      case Ok(c) => Ok(c)
      case Err(fields) => Err(InvalidDefaultRole(fields))
  }

  /** `from_env` as a whole: the settings object's fields, or the error it raises. */
  function FromEnvSpec(env: map<string, string>, doc: RolesDoc): Result<ConfigData, ConfigError> {
    match RolesFromDoc(env, doc)
    case Err(e) => Err(e)
    case Ok(roles) =>
      var withDefault :=
        if HasDefaultRole(env) then
          match DefaultRoleFromEnv(env)
          case Err(e) => Err(e)
          case Ok(c) => Ok(roles[DefaultRoleName(env) := c])
        else Ok(roles);
      match withDefault
      case Err(e) => Err(e)
      case Ok(allRoles) =>
        var ttl := TtlFromEnv(env);
        if ValidCacheTtl(ttl) then
          Ok(ConfigData(RegionFromEnv(env), ProfileFromEnv(env), allRoles, CachingFromEnv(env), ttl))
        else Err(InvalidCacheTtl(ttl))
  }

  /** `from_env` step by step, as the settings dictionary is assembled. */
  method LoadConfigData(env: map<string, string>, doc: RolesDoc) returns (r: Result<ConfigData, ConfigError>)
    ensures r == FromEnvSpec(env, doc)
  {
    var data := LoadSettings(env);
    var roles := LoadRoles(env, doc);
    if roles.Err? {
      return Err(roles.error);
    }
    data := data.(roles := roles.value);
    if HasDefaultRole(env) {
      var role := DefaultRoleFromEnv(env);
      if role.Err? {
        return Err(role.error);
      }
      data := data.(roles := data.roles[DefaultRoleName(env) := role.value]);
    }
    if !ValidCacheTtl(data.cacheTtlSeconds) {
      return Err(InvalidCacheTtl(data.cacheTtlSeconds));
    }
    return Ok(data);
  }

  /** The region, profile and feature-flag part of `from_env`. */
  method LoadSettings(env: map<string, string>) returns (data: ConfigData)
    ensures data == ConfigData(RegionFromEnv(env), ProfileFromEnv(env), map[], CachingFromEnv(env), TtlFromEnv(env))
  {
    data := DefaultConfigData;
    if Truthy(Getenv(env, "AWS_AUTH_DEFAULT_REGION")) {
      data := data.(defaultRegion := env["AWS_AUTH_DEFAULT_REGION"]);
    } else if Truthy(Getenv(env, "AWS_REGION")) {
      data := data.(defaultRegion := env["AWS_REGION"]);
    }
    if Truthy(Getenv(env, "AWS_AUTH_DEFAULT_PROFILE")) {
      data := data.(defaultProfile := Some(env["AWS_AUTH_DEFAULT_PROFILE"]));
    } else if Truthy(Getenv(env, "AWS_PROFILE")) {
      data := data.(defaultProfile := Some(env["AWS_PROFILE"]));
    }
    if Truthy(Getenv(env, "AWS_AUTH_ENABLE_CACHING")) {
      data := data.(enableCaching := FlagValue(env["AWS_AUTH_ENABLE_CACHING"]));
    }
    if Truthy(Getenv(env, "AWS_AUTH_CACHE_TTL")) {
      var parsed := ParseInt(env["AWS_AUTH_CACHE_TTL"]);
      if parsed.Some? {
        data := data.(cacheTtlSeconds := parsed.value);
      }
    }
  }

  /** The `AWS_AUTH_ROLES` part of `from_env`: the loop over the document's entries. */
  method LoadRoles(env: map<string, string>, doc: RolesDoc) returns (r: Result<map<string, RoleConfig>, ConfigError>)
    ensures r == RolesFromDoc(env, doc)
  {
    if !Truthy(Getenv(env, "AWS_AUTH_ROLES")) || doc.Undecodable? {
      return Ok(map[]);
    }
    if doc.NotAnObject? {
      return Err(RolesNotAnObject);
    }
    var entries := doc.entries;
    var roles: map<string, RoleConfig> := map[];
    var i := 0;
    while i < |entries|
      invariant 0 <= i <= |entries|
      invariant DecodeRoles(entries[..i]) == Ok(roles)
    {
      var p := entries[..i + 1];
      assert p[..|p| - 1] == entries[..i];
      var NamedEntry(name, entry) := entries[i];
      match entry {
        case RoleFields(c) =>
          if !RoleValid(c) {
            DecodeRolesStops(entries, i + 1);
            return Ok(map[]);
          }
          roles := roles[name := c];
        case Unreadable =>
          DecodeRolesStops(entries, i + 1);
          return Ok(map[]);
        case NotAMapping =>
          DecodeRolesStops(entries, i + 1);
          return Err(RoleNotAMapping(name));
      }
      i := i + 1;
    }
    assert entries[..i] == entries;
    return Ok(roles);
  }

  /** Once the role loop fails on an entry, every longer prefix fails the same way. */
  lemma {:induction false} DecodeRolesStops(entries: seq<NamedEntry>, k: nat)
    requires 0 < k <= |entries| && DecodeRoles(entries[..k]).Err?
    ensures DecodeRoles(entries) == DecodeRoles(entries[..k])
    decreases |entries| - k
  {
    if k < |entries| {
      var p := entries[..k + 1];
      assert p[..|p| - 1] == entries[..k];
      assert DecodeRoles(p) == DecodeRoles(entries[..k]);
      DecodeRolesStops(entries, k + 1);
    } else {
      assert entries[..k] == entries;
    }
  }

  /** Every configuration `from_env` returns satisfies the settings invariant. */
  lemma FromEnvValid(env: map<string, string>, doc: RolesDoc)
    requires FromEnvSpec(env, doc).Ok?
    ensures ConfigDataValid(FromEnvSpec(env, doc).value)
  {
    RolesFromDocValid(env, doc);
    var roles := RolesFromDoc(env, doc).value;
    var d := FromEnvSpec(env, doc).value;
    if HasDefaultRole(env) {
      var c := DefaultRoleFromEnv(env).value;
      DefaultRoleValid(env);
      assert d.roles == roles[DefaultRoleName(env) := c];
      UpdateKeepsValid(roles, DefaultRoleName(env), c);
    } else {
      assert d.roles == roles;
    }
  }

  /** Every role of the map is valid. */
  predicate AllRolesValid(m: map<string, RoleConfig>) {
    forall n :: n in m ==> RoleValid(m[n])
  }

  /** Storing a valid role in a map of valid roles leaves only valid roles. */
  lemma UpdateKeepsValid(m: map<string, RoleConfig>, k: string, c: RoleConfig)
    requires AllRolesValid(m) && RoleValid(c)
    ensures AllRolesValid(m[k := c])
  {
  }

  /** The roles read from `AWS_AUTH_ROLES` are valid ones. */
  lemma RolesFromDocValid(env: map<string, string>, doc: RolesDoc)
    requires RolesFromDoc(env, doc).Ok?
    ensures forall n :: n in RolesFromDoc(env, doc).value ==> RoleValid(RolesFromDoc(env, doc).value[n])
  {
    if Truthy(Getenv(env, "AWS_AUTH_ROLES")) && doc.Object? && DecodeRoles(doc.entries).Ok? {
      DecodeRolesValid(doc.entries);
    }
  }

  /** The simplified single-role setup yields a valid role when it yields one. */
  lemma DefaultRoleValid(env: map<string, string>)
    requires HasDefaultRole(env) && DefaultRoleFromEnv(env).Ok?
    ensures RoleValid(DefaultRoleFromEnv(env).value)
  {
  }

  /** With no variables set, `from_env` gives the defaults. */
  lemma FromEmptyEnv(doc: RolesDoc)
    ensures FromEnvSpec(map[], doc) == Ok(DefaultConfigData)
  {
  }

  /** A malformed roles document, or a role that fails validation, leaves only the default role, if any. */
  lemma {:induction false} MalformedRolesDropped(env: map<string, string>, doc: RolesDoc)
    requires Truthy(Getenv(env, "AWS_AUTH_ROLES"))
    requires doc.Undecodable? || (doc.Object? && DecodeRoles(doc.entries) == Err(Caught))
    requires FromEnvSpec(env, doc).Ok?
    ensures var roles := FromEnvSpec(env, doc).value.roles;
      if HasDefaultRole(env) then roles.Keys == {DefaultRoleName(env)} else roles == map[]
  {
  }

  /** The role the single-role variables build: each field from its variable, with the defaults for the optional ones. */
  lemma DefaultRoleFields(env: map<string, string>)
    requires HasDefaultRole(env) && DefaultRoleFromEnv(env).Ok?
    ensures var role := DefaultRoleFromEnv(env).value;
      role.roleArn == env["AWS_AUTH_DEFAULT_ROLE_ARN"]
      && role.accountId == env["AWS_AUTH_DEFAULT_ACCOUNT_ID"]
      && role.roleSessionName == Getenv(env, "AWS_AUTH_DEFAULT_SESSION_NAME").GetOr(DefaultSessionName)
      && Some(role.durationSeconds) == ParseInt(Getenv(env, "AWS_AUTH_DEFAULT_DURATION").GetOr("3600"))
      && role.externalId == Getenv(env, "AWS_AUTH_DEFAULT_EXTERNAL_ID")
  {
    var duration := ParseInt(Getenv(env, "AWS_AUTH_DEFAULT_DURATION").GetOr("3600"));
    var built := RoleConfig(env["AWS_AUTH_DEFAULT_ROLE_ARN"], env["AWS_AUTH_DEFAULT_ACCOUNT_ID"],
                            Getenv(env, "AWS_AUTH_DEFAULT_SESSION_NAME").GetOr(DefaultSessionName),
                            duration.value, Getenv(env, "AWS_AUTH_DEFAULT_EXTERNAL_ID"));
    assert DefaultRoleFromEnv(env).value == built;
  }

  /** The single-role setup wins over a role of the same name from the document. */
  lemma {:induction false} DefaultRoleOverrides(env: map<string, string>, doc: RolesDoc)
    requires HasDefaultRole(env) && FromEnvSpec(env, doc).Ok?
    ensures DefaultRoleFromEnv(env).Ok?
    ensures var roles := FromEnvSpec(env, doc).value.roles;
      DefaultRoleName(env) in roles
      && roles[DefaultRoleName(env)] == DefaultRoleFromEnv(env).value
      && roles[DefaultRoleName(env)].roleArn == env["AWS_AUTH_DEFAULT_ROLE_ARN"]
      && roles[DefaultRoleName(env)].accountId == env["AWS_AUTH_DEFAULT_ACCOUNT_ID"]
      && roles[DefaultRoleName(env)].roleSessionName == Getenv(env, "AWS_AUTH_DEFAULT_SESSION_NAME").GetOr(DefaultSessionName)
      && Some(roles[DefaultRoleName(env)].durationSeconds) == ParseInt(Getenv(env, "AWS_AUTH_DEFAULT_DURATION").GetOr("3600"))
      && roles[DefaultRoleName(env)].externalId == Getenv(env, "AWS_AUTH_DEFAULT_EXTERNAL_ID")
    ensures RolesFromDoc(env, doc).Ok?
    ensures var roles := FromEnvSpec(env, doc).value.roles;
      forall n :: n in roles && n != DefaultRoleName(env) ==>
        n in RolesFromDoc(env, doc).value && roles[n] == RolesFromDoc(env, doc).value[n]
  {
    var fromDoc := RolesFromDoc(env, doc);
    assert fromDoc.Ok?;
    var role := DefaultRoleFromEnv(env);
    assert role.Ok?;
    DefaultRoleFields(env);
    assert FromEnvSpec(env, doc).value.roles == fromDoc.value[DefaultRoleName(env) := role.value];
  }

  /** The setting-specific variable outranks the generic AWS one. */
  lemma RegionPrecedence(env: map<string, string>)
    ensures Truthy(Getenv(env, "AWS_AUTH_DEFAULT_REGION")) ==> RegionFromEnv(env) == env["AWS_AUTH_DEFAULT_REGION"]
    ensures !Truthy(Getenv(env, "AWS_AUTH_DEFAULT_REGION")) && Truthy(Getenv(env, "AWS_REGION")) ==>
      RegionFromEnv(env) == env["AWS_REGION"]
    ensures Truthy(Getenv(env, "AWS_AUTH_DEFAULT_PROFILE")) ==> ProfileFromEnv(env) == Some(env["AWS_AUTH_DEFAULT_PROFILE"])
  {
  }

  /** A TTL that is not an integer is ignored; one that is an integer but out of range makes loading fail. */
  lemma TtlHandling(env: map<string, string>, doc: RolesDoc)
    requires Truthy(Getenv(env, "AWS_AUTH_CACHE_TTL"))
    ensures ParseInt(env["AWS_AUTH_CACHE_TTL"]).None? ==> TtlFromEnv(env) == DefaultCacheTtl
    ensures FromEnvSpec(env, doc).Ok? ==> ValidCacheTtl(FromEnvSpec(env, doc).value.cacheTtlSeconds)
  {
  }

  /** Both spellings `True` and `YES` switch a flag on; `false` and anything else switch it off. */
  lemma {:induction false} FlagExamples()
    ensures FlagValue("True") && FlagValue("YES") && FlagValue("1")
    ensures !FlagValue("false") && !FlagValue("on")
  {
    assert Lower("True") == "true";
    assert Lower("YES") == "yes";
    assert Lower("1") == "1";
    assert Lower("false") == "false";
    assert Lower("on") == "on";
  }
}

=== FILE: auth_errors.dfy ===
/**
 * The error taxonomy of the AWS authentication layer: one value type for
 * every exception class, the constructors that compute each class's code
 * and message, the string form, and the mapping from provider (botocore)
 * errors to this taxonomy.
 */
module AuthErrors {
  import opened Wrappers
  import opened Text

  /** Which exception class an error is, with the attributes that class records. */
  datatype Kind =
    | Base
    | Authentication(roleArn: Option<string>)
    | Configuration(configField: Option<string>)
    | CredentialExpired(roleName: Option<string>)
    | RoleNotFound(missingRole: string)
    | AssumeRole(assumedArn: string, awsErrorCode: Option<string>)
    | ClientCreation(service: string)

  /** An `AWSAuthError` (or subclass) instance: its class, final message and error code. */
  datatype AuthError = AuthError(kind: Kind, message: string, errorCode: Option<string>)

  /** The code each subclass fixes; the base class takes its code from the caller. */
  function CodeFor(k: Kind): Option<string> {
    match k
    case Base => None
    case Authentication(_) => Some("AUTH_FAILED")
    case Configuration(_) => Some("CONFIG_INVALID")
    case CredentialExpired(_) => Some("CREDENTIALS_EXPIRED")
    case RoleNotFound(_) => Some("ROLE_NOT_FOUND")
    case AssumeRole(_, code) =>
      if Truthy(code) then Some("ASSUME_ROLE_FAILED_" + code.value) else Some("ASSUME_ROLE_FAILED")
    case ClientCreation(_) => Some("CLIENT_CREATION_FAILED")
  }

  /** Every subclass instance carries the code its class fixes. */
  predicate WellFormed(e: AuthError) {
    !e.kind.Base? ==> e.errorCode == CodeFor(e.kind)
  }

  /** `AWSAuthError.__str__`: `[code] message` when the code is truthy, the bare message otherwise. */
  function Str(e: AuthError): (r: string)
    ensures |r| >= |e.message| && r[|r| - |e.message|..] == e.message
    ensures Truthy(e.errorCode) <==> r != e.message
    ensures Truthy(e.errorCode) ==> StartsWith(r, "[" + e.errorCode.value + "] ")
    ensures Truthy(e.errorCode) ==> r == "[" + e.errorCode.value + "] " + e.message
    ensures !Truthy(e.errorCode) ==> r == e.message
  {
    if Truthy(e.errorCode) then "[" + e.errorCode.value + "] " + e.message else e.message
  }

  /** `AWSAuthError(message, error_code)` */
  function NewAWSAuthError(message: string, errorCode: Option<string>): (e: AuthError)
    ensures e.kind == Base && WellFormed(e)
    ensures e.message == message && e.errorCode == errorCode
  {
    AuthError(Base, message, errorCode)
  }

  /** `AuthenticationError(message, role_arn)` */
  function NewAuthenticationError(message: string, roleArn: Option<string>): (e: AuthError)
    ensures e.kind == Authentication(roleArn) && e.errorCode == Some("AUTH_FAILED")
    ensures StartsWith(e.message, message)
    ensures Truthy(roleArn) <==> e.message != message
    ensures Truthy(roleArn) ==> Contains(e.message, roleArn.value)
    ensures Truthy(roleArn) ==> e.message == message + " (Role: " + roleArn.value + ")"
  {
    if Truthy(roleArn) then
      ContainsAppended(message + " (Role: ", roleArn.value, ")");
      AuthError(Authentication(roleArn), message + " (Role: " + roleArn.value + ")", Some("AUTH_FAILED"))
    else
      AuthError(Authentication(roleArn), message, Some("AUTH_FAILED"))
  }

  /** `ConfigurationError(message, config_field)` */
  function NewConfigurationError(message: string, configField: Option<string>): (e: AuthError)
    ensures e.kind == Configuration(configField) && e.errorCode == Some("CONFIG_INVALID")
    ensures StartsWith(e.message, message)
    ensures Truthy(configField) <==> e.message != message
    ensures Truthy(configField) ==> Contains(e.message, configField.value)
    ensures Truthy(configField) ==> e.message == message + " (Field: " + configField.value + ")"
  {
    if Truthy(configField) then
      ContainsAppended(message + " (Field: ", configField.value, ")");
      AuthError(Configuration(configField), message + " (Field: " + configField.value + ")", Some("CONFIG_INVALID"))
    else
      AuthError(Configuration(configField), message, Some("CONFIG_INVALID"))
  }

  /** The default message of `CredentialExpiredError`. */
  const ExpiredMessage := "AWS credentials have expired"

  /** `CredentialExpiredError(message, role_name)` */
  function NewCredentialExpiredError(message: string, roleName: Option<string>): (e: AuthError)
    ensures e.kind == CredentialExpired(roleName) && e.errorCode == Some("CREDENTIALS_EXPIRED")
    ensures StartsWith(e.message, message)
    ensures Truthy(roleName) <==> e.message != message
    ensures Truthy(roleName) ==> Contains(e.message, roleName.value)
    ensures Truthy(roleName) ==> e.message == message + " (Role: " + roleName.value + ")"
  {
    if Truthy(roleName) then
      ContainsAppended(message + " (Role: ", roleName.value, ")");
      AuthError(CredentialExpired(roleName), message + " (Role: " + roleName.value + ")", Some("CREDENTIALS_EXPIRED"))
    else
      AuthError(CredentialExpired(roleName), message, Some("CREDENTIALS_EXPIRED"))
  }

  /** `RoleNotFoundError(role_name)` */
  function NewRoleNotFoundError(roleName: string): (e: AuthError)
    ensures e.kind == RoleNotFound(roleName) && e.errorCode == Some("ROLE_NOT_FOUND")
    ensures e.message == "Role configuration not found: " + roleName
  {
    AuthError(RoleNotFound(roleName), "Role configuration not found: " + roleName, Some("ROLE_NOT_FOUND"))
  }

  /** `AssumeRoleError(message, role_arn, aws_error_code)`: the role is always appended. */
  function NewAssumeRoleError(message: string, roleArn: string, awsErrorCode: Option<string>): (e: AuthError)
    ensures e.kind == AssumeRole(roleArn, awsErrorCode)
    ensures e.message == message + " (Role: " + roleArn + ")"
    ensures Truthy(awsErrorCode) ==> e.errorCode == Some("ASSUME_ROLE_FAILED_" + awsErrorCode.value)
    ensures !Truthy(awsErrorCode) ==> e.errorCode == Some("ASSUME_ROLE_FAILED")
  {
    AuthError(AssumeRole(roleArn, awsErrorCode), message + " (Role: " + roleArn + ")",
      if Truthy(awsErrorCode) then Some("ASSUME_ROLE_FAILED_" + awsErrorCode.value) else Some("ASSUME_ROLE_FAILED"))
  }

  /** The default message of `ClientCreationError`. */
  const ClientCreationMessage := "Failed to create AWS client"

  /** `ClientCreationError(service, message)` */
  function NewClientCreationError(service: string, message: string): (e: AuthError)
    ensures e.kind == ClientCreation(service) && e.errorCode == Some("CLIENT_CREATION_FAILED")
    ensures e.message == message + " for service: " + service
  {
    AuthError(ClientCreation(service), message + " for service: " + service, Some("CLIENT_CREATION_FAILED"))
  }

  /** The exceptions a botocore call can raise, as far as the mapping tells them apart; `text` is `str(e)`. */
  datatype BotoError =
    | NoCredentials(text: string)
    | ProfileNotFound(text: string)
      /** `code` and `errMessage` are the `Error.Code` and `Error.Message` entries, `None` when absent. */
    | ClientError(code: Option<string>, errMessage: Option<string>, text: string)
    | OtherError(text: string)

  /** The provider code of a `ClientError`, defaulting to `Unknown`. */
  function ClientCode(err: BotoError): string
    requires err.ClientError?
  {
    err.code.GetOr("Unknown")
  }

  /** The provider message of a `ClientError`, defaulting to `str(e)`. */
  function ClientMessage(err: BotoError): string
    requires err.ClientError?
  {
    err.errMessage.GetOr(err.text)
  }

  const NoCredentialsMessage := "AWS credentials not found. Please configure AWS credentials or check environment variables."

  /** The `ClientError` branch of the mapping: one subclass per recognised provider code. */
  function FromClientError(code: string, msg: string, context: string): (e: AuthError)
    ensures WellFormed(e)
    ensures code == "AccessDenied" ==>
      e.kind == Authentication(None) && e.message == "Access denied during " + context + ": " + msg
    ensures code == "InvalidParameterValue" ==>
      e.kind == Configuration(None) && e.message == "Invalid parameter during " + context + ": " + msg
    ensures code == "TokenRefreshRequired" ==>
      e.kind == CredentialExpired(None) && e.message == "AWS token refresh required during " + context + ": " + msg
    ensures code != "AccessDenied" && code != "InvalidParameterValue" && code != "TokenRefreshRequired" ==>
      e.kind == AssumeRole("unknown", Some(code))
      && StartsWith(e.message, "AWS error during " + context + ": " + msg)
      && e.message == "AWS error during " + context + ": " + msg + " (Role: unknown)"
      && e.errorCode == (if code != "" then Some("ASSUME_ROLE_FAILED_" + code) else Some("ASSUME_ROLE_FAILED"))
  {
    if code == "AccessDenied" then
      NewAuthenticationError("Access denied during " + context + ": " + msg, None)
    else if code == "InvalidParameterValue" then
      NewConfigurationError("Invalid parameter during " + context + ": " + msg, None)
    else if code == "TokenRefreshRequired" then
      NewCredentialExpiredError("AWS token refresh required during " + context + ": " + msg, None)
    else
      var prefix := "AWS error during " + context + ": " + msg;
      assert (prefix + " (Role: " + "unknown" + ")")[..|prefix|] == prefix;
      NewAssumeRoleError(prefix, "unknown", Some(code))
  }

  /** `create_auth_error_from_boto_error(err, context)` */
  function FromBotoError(err: BotoError, context: string): (e: AuthError)
    ensures WellFormed(e)
    ensures err.NoCredentials? ==> e.kind == Authentication(None) && e.message == NoCredentialsMessage
    ensures err.ProfileNotFound? ==>
      e.kind == Configuration(Some("aws_profile"))
      && StartsWith(e.message, "AWS profile not found: " + err.text)
      && e.message == "AWS profile not found: " + err.text + " (Field: aws_profile)"
    ensures err.ClientError? ==> e == FromClientError(ClientCode(err), ClientMessage(err), context)
    ensures err.OtherError? ==>
      e == AuthError(Base, "Unknown error during " + context + ": " + err.text, Some("UNKNOWN_ERROR"))
  {
    match err
    case NoCredentials(_) => NewAuthenticationError(NoCredentialsMessage, None)
    case ProfileNotFound(text) =>
      assert Truthy(Some("aws_profile"));
      NewConfigurationError("AWS profile not found: " + text, Some("aws_profile"))
    case ClientError(_, _, _) => FromClientError(ClientCode(err), ClientMessage(err), context)
    case OtherError(text) => NewAWSAuthError("Unknown error during " + context + ": " + text, Some("UNKNOWN_ERROR"))
  }

  /** Every subclass constructor yields an error whose code is the one its class fixes. */
  lemma ConstructorsWellFormed(message: string, attr: Option<string>, name: string, awsCode: Option<string>)
    ensures WellFormed(NewAuthenticationError(message, attr))
    ensures WellFormed(NewConfigurationError(message, attr))
    ensures WellFormed(NewCredentialExpiredError(message, attr))
    ensures WellFormed(NewRoleNotFoundError(name))
    ensures WellFormed(NewAssumeRoleError(message, name, awsCode))
    ensures WellFormed(NewClientCreationError(name, message))
  {
  }

  /** A subclass instance always prints with its bracketed code in front. */
  lemma {:induction false} SubclassStrHasCode(e: AuthError)
    requires WellFormed(e) && !e.kind.Base?
    ensures Str(e) == "[" + e.errorCode.value + "] " + e.message
  {
    match e.kind
    case AssumeRole(_, code) =>
      assert e.errorCode.value[..18] == "ASSUME_ROLE_FAILED";
    case _ =>
  }

  /** A base error with a code prints as `[code] message`, as the test suite's `TEST_ERROR` example does. */
  lemma BaseStrExample()
    ensures Str(NewAWSAuthError("Test error", Some("TEST_ERROR"))) == "[TEST_ERROR] Test error"
    ensures Str(NewAWSAuthError("Test error", None)) == "Test error"
  {
  }

  /** The mapping never produces the errors that only the service raises itself. */
  lemma FromBotoErrorKinds(err: BotoError, context: string)
    ensures !FromBotoError(err, context).kind.RoleNotFound?
    ensures !FromBotoError(err, context).kind.ClientCreation?
    ensures FromBotoError(err, context).kind.Base? <==> err.OtherError?
  {
  }
}

=== FILE: auth_service.dfy ===
/**
 * The credential broker: assumes configured IAM roles through STS, caches
 * the temporary credentials per role name, and hands out service clients
 * built from cached credentials, a named profile or the default chain.
 *
 * The clock is the `now` parameter (whole seconds). The STS client setup,
 * the AssumeRole exchange, the client factory and the identity call are
 * foreign calls; each appears as the outcome it produces.
 */
module AuthService {
  import opened Wrappers
  import opened Text
  import opened AuthErrors
  import opened AuthConfig

  /** Seconds before expiration at which cached credentials stop being used. */
  const ExpiryBuffer := 5 * 60

  /** One cache slot: the credentials and the time they were stored. */
  datatype CacheEntry = CacheEntry(credentials: AWSCredentials, cachedAt: int)

  /** A cache entry is usable at `now` when it is at most `ttl` seconds old and expires at least the buffer after `now`. */
  predicate EntryValid(e: CacheEntry, now: int, ttl: int) {
    now - e.cachedAt <= ttl
    && e.credentials.expiration.At?
    && e.credentials.expiration.time - now >= ExpiryBuffer
  }

  /** What the lazy STS client setup does when it runs. */
  datatype StsSetup = StsReady | StsSetupFailed(error: BotoError)

  /** What the AssumeRole call does. */
  datatype ExchangeOutcome =
    | Issued(accessKeyId: string, secretAccessKey: string, sessionToken: string, expiration: Expiry)
      /** A `ClientError`; `code` and `errMessage` are `None` when the response lacks them. */
    | Rejected(code: Option<string>, errMessage: Option<string>)
      /** Any other exception, including a response without the expected credential fields. */
    | ExchangeFailed(text: string)

  /** What the boto3 client constructor does. */
  datatype FactoryOutcome = Created | FactoryFailed(error: BotoError)

  /** The AssumeRole request parameters. */
  datatype AssumeRoleRequest = AssumeRoleRequest(
    roleArn: string,
    roleSessionName: string,
    durationSeconds: int,
    externalId: Option<string>)

  /** A service client and what it authenticates with: assumed-role credentials, a named profile, or neither (the default chain). */
  datatype Client = Client(service: string, region: string, credentials: Option<AWSCredentials>, profile: Option<string>)

  /** An exception on its way out of a service method: one of the taxonomy, or a foreign one (a `KeyError`). */
  datatype Failure = Auth(error: AuthError) | Foreign(text: string)

  /** The caller identity `test_credentials` reports. */
  datatype Identity = Identity(account: Option<string>, userId: Option<string>, arn: Option<string>, roleName: Option<string>)

  /** What the `GetCallerIdentity` call does. */
  datatype IdentityOutcome = IdentityReturned(account: Option<string>, userId: Option<string>, arn: Option<string>) | IdentityFailed(error: BotoError)

  /** One row of `get_cache_info`. */
  datatype CacheInfo =
    | Described(cachedAt: int, expiresAt: int, valid: bool, region: string)
    | Undescribable(valid: bool)

  /** The error a failed STS client setup raises. */
  function StsSetupError(e: BotoError): (err: AuthError)
    ensures WellFormed(err)
    ensures e.NoCredentials? || e.ProfileNotFound? ==> err == FromBotoError(e, "STS client creation")
    ensures !(e.NoCredentials? || e.ProfileNotFound?) ==>
      err.kind == Base && err.errorCode == None && StartsWith(err.message, "Failed to initialize STS client: ")
    ensures !(e.NoCredentials? || e.ProfileNotFound?) ==> err.message == "Failed to initialize STS client: " + e.text
  {
    if e.NoCredentials? || e.ProfileNotFound? then FromBotoError(e, "STS client creation")
    else NewAWSAuthError("Failed to initialize STS client: " + e.text, None)
  }

  /** The request for `role` at time `now`: the session name is the configured one, `_`, and the timestamp. */
  function RequestFor(role: RoleConfig, now: int): (req: AssumeRoleRequest)
    ensures req.roleArn == role.roleArn && req.durationSeconds == role.durationSeconds
    ensures req.roleSessionName == role.roleSessionName + "_" + IntToString(now)
    ensures req.externalId.Some? <==> Truthy(role.externalId)
    ensures req.externalId.Some? ==> req.externalId == role.externalId
  {
    AssumeRoleRequest(role.roleArn, role.roleSessionName + "_" + IntToString(now), role.durationSeconds,
                      if Truthy(role.externalId) then role.externalId else None)
  }

  /** The session name carries the configured name and, after the `_`, a timestamp that reads back as `now`. */
  lemma {:induction false} SessionNameCarriesTimestamp(role: RoleConfig, now: int)
    ensures var name := RequestFor(role, now).roleSessionName;
      StartsWith(name, role.roleSessionName + "_")
      && ParseInt(name[|role.roleSessionName| + 1..]) == Some(now)
  {
    var name := RequestFor(role, now).roleSessionName;
    assert name[|role.roleSessionName| + 1..] == IntToString(now);
    ParseIntRendered(now);
  }

  /** The error an AssumeRole `ClientError` becomes: always an `AssumeRoleError` for the role, with a message per code. */
  function RejectionError(roleArn: string, code: string, msg: string): (e: AuthError)
    ensures WellFormed(e) && e.kind == AssumeRole(roleArn, Some(code))
    ensures code == "AccessDenied" ==>
      StartsWith(e.message, "Access denied - check IAM permissions and trust relationships")
    ensures code == "InvalidParameterValue" ==> StartsWith(e.message, "Invalid parameter value: " + msg)
    ensures code == "MalformedPolicyDocument" ==> StartsWith(e.message, "Malformed policy document in role trust policy")
    ensures code !in {"AccessDenied", "InvalidParameterValue", "MalformedPolicyDocument"} ==>
      StartsWith(e.message, "AWS error: " + msg)
    ensures Contains(e.message, roleArn)
    ensures code == "AccessDenied" ==>
      e.message == "Access denied - check IAM permissions and trust relationships" + " (Role: " + roleArn + ")"
    ensures code == "InvalidParameterValue" ==> e.message == "Invalid parameter value: " + msg + " (Role: " + roleArn + ")"
    ensures code == "MalformedPolicyDocument" ==>
      e.message == "Malformed policy document in role trust policy" + " (Role: " + roleArn + ")"
    ensures code !in {"AccessDenied", "InvalidParameterValue", "MalformedPolicyDocument"} ==>
      e.message == "AWS error: " + msg + " (Role: " + roleArn + ")"
  {
    var text :=
      if code == "AccessDenied" then "Access denied - check IAM permissions and trust relationships"
      else if code == "InvalidParameterValue" then "Invalid parameter value: " + msg
      else if code == "MalformedPolicyDocument" then "Malformed policy document in role trust policy"
      else "AWS error: " + msg;
    ContainsAppended(text + " (Role: ", roleArn, ")");
    assert (text + " (Role: " + roleArn + ")")[..|text|] == text;
    NewAssumeRoleError(text, roleArn, Some(code))
  }

  /** The `try` around the AssumeRole call: credentials on success, the mapped exception otherwise. */
  function ExchangeResult(role: RoleConfig, outcome: ExchangeOutcome, region: string): (r: Result<AWSCredentials, Failure>)
    ensures outcome.Issued? <==> r.Ok?
    ensures r.Ok? ==> (r.value.region == region && r.value.expiration == outcome.expiration
      && r.value.accessKeyId == outcome.accessKeyId && r.value.secretAccessKey == outcome.secretAccessKey
      && r.value.sessionToken == outcome.sessionToken)
    ensures outcome.Rejected? && outcome.code.Some? && outcome.errMessage.Some? ==>
      r == Err(Auth(RejectionError(role.roleArn, outcome.code.value, outcome.errMessage.value)))
    ensures outcome.Rejected? && outcome.code.None? ==> r == Err(Foreign("'Code'"))
    ensures outcome.Rejected? && outcome.code.Some? && outcome.errMessage.None? ==> r == Err(Foreign("'Message'"))
    ensures outcome.ExchangeFailed? ==>
      r == Err(Auth(NewAWSAuthError("Unexpected error during role assumption: " + outcome.text, None)))
  {
    match outcome
    case Issued(key, secret, token, expiration) => Ok(AWSCredentials(key, secret, token, expiration, region))
    case Rejected(code, msg) =>
      if code.None? then Err(Foreign("'Code'"))
      else if msg.None? then Err(Foreign("'Message'"))
      else Err(Auth(RejectionError(role.roleArn, code.value, msg.value)))
    case ExchangeFailed(text) => Err(Auth(NewAWSAuthError("Unexpected error during role assumption: " + text, None)))
  }

  /** The exception `get_client` lets out for a failure inside it: its own errors unchanged, any other as `ClientCreationError`. */
  function ClientFailure(service: string, f: Failure): (e: AuthError)
    ensures f.Auth? ==> e == f.error
    ensures f.Foreign? ==> e.kind == ClientCreation(service)
  {
    match f
    case Auth(e) => e
    case Foreign(_) => NewClientCreationError(service, ClientCreationMessage)
  }

  /** The exception a failed client constructor becomes. */
  function FactoryError(service: string, e: BotoError): (err: AuthError)
    ensures e.NoCredentials? ==> err.kind == Authentication(None)
    ensures e.ProfileNotFound? ==> err.kind == Configuration(Some("aws_profile"))
    ensures !(e.NoCredentials? || e.ProfileNotFound?) ==>
      err == NewClientCreationError(service, ClientCreationMessage)
  {
    if e.NoCredentials? || e.ProfileNotFound? then FromBotoError(e, service + " client creation")
    else NewClientCreationError(service, ClientCreationMessage)
  }

  /** Building a client once the credentials are settled. */
  function BuildClient(service: string, region: string, credentials: Option<AWSCredentials>,
                       profile: Option<string>, factory: FactoryOutcome): (r: Result<Client, AuthError>)
    ensures factory.Created? <==> r.Ok?
    ensures r.Ok? ==> r.value == Client(service, region, credentials, profile)
  {
    match factory
    case Created => Ok(Client(service, region, credentials, profile))
    case FactoryFailed(e) => Err(FactoryError(service, e))
  }

  /** The row `get_cache_info` gives one entry, with `valid` the cache check's verdict. */
  function InfoFor(e: CacheEntry, valid: bool): (info: CacheInfo)
    ensures e.credentials.expiration.Unparseable? <==> info.Undescribable?
    ensures info.Undescribable? ==> !info.valid
    ensures info.Described? ==> (info.valid == valid && info.cachedAt == e.cachedAt
      && info.expiresAt == e.credentials.expiration.time && info.region == e.credentials.region)
  {
    match e.credentials.expiration
    case At(t) => Described(e.cachedAt, t, valid, e.credentials.region)
    case Unparseable => Undescribable(false)
  }

  /** `AWSAuthService`: the configuration it serves, the credential cache, and the lazily created STS client. */
  class AuthService {
    const config: AuthConfig
    /** `_credential_cache`: role name to the credentials last issued for it. */
    var cache: map<string, CacheEntry>
    /** Whether `_sts_client` has been created. */
    var stsClientCreated: bool
    /** Every AssumeRole request sent, oldest first. */
    ghost var requests: seq<AssumeRoleRequest>

    /** The TTL is in range, the cache stays empty while caching is off, and it holds only credentials for the default region. */
    ghost predicate Valid()
      reads this
    {
      ValidCacheTtl(config.cacheTtlSeconds)
      && (!config.enableCaching ==> cache == map[])
      && forall n :: n in cache ==> cache[n].credentials.region == config.defaultRegion
    }

    constructor (config: AuthConfig)
      requires config.Valid()
      ensures this.config == config && cache == map[] && !stsClientCreated && requests == []
      ensures Valid()
    {
      this.config := config;
      cache := map[];
      stsClientCreated := false;
      requests := [];
    }

    /** `_credentials_valid(role_name)` at time `now`. */
    predicate CredentialsValid(roleName: string, now: int)
      reads this
    {
      config.enableCaching && roleName in cache && EntryValid(cache[roleName], now, config.cacheTtlSeconds)
    }

    /** `_get_sts_client()`: creates the STS client on first use only. */
    method GetStsClient(setup: StsSetup) returns (r: Result<(), AuthError>)
      modifies this
      ensures cache == old(cache) && requests == old(requests)
      ensures old(stsClientCreated) ==> r.Ok? && stsClientCreated
      ensures !old(stsClientCreated) ==> stsClientCreated == setup.StsReady? && (r.Ok? <==> setup.StsReady?)
      ensures r.Err? ==> r.error == StsSetupError(setup.error)
    {
      if !stsClientCreated {
        if setup.StsSetupFailed? {
          return Err(StsSetupError(setup.error));
        }
        stsClientCreated := true;
      }
      return Ok(());
    }

    /** `_assume_role(role)`: one AssumeRole request once the STS client exists. */
    method AssumeRole(role: RoleConfig, now: int, setup: StsSetup, outcome: ExchangeOutcome)
      returns (r: Result<AWSCredentials, Failure>)
      modifies this
      ensures cache == old(cache)
      ensures ExchangeAttempted(old(stsClientCreated), setup) ==>
        stsClientCreated && requests == old(requests) + [RequestFor(role, now)]
        && r == ExchangeResult(role, outcome, config.defaultRegion)
      ensures !ExchangeAttempted(old(stsClientCreated), setup) ==>
        !stsClientCreated && requests == old(requests) && r == Err(Auth(StsSetupError(setup.error)))
    {
      var sts := GetStsClient(setup);
      if sts.Err? {
        return Err(Auth(sts.error));
      }
      requests := requests + [RequestFor(role, now)];
      r := ExchangeResult(role, outcome, config.defaultRegion);
    }

    /** `_refresh_credentials(role_name)`: look the role up, exchange, and cache the result when caching is on. */
    method RefreshCredentials(roleName: string, now: int, setup: StsSetup, outcome: ExchangeOutcome)
      returns (r: Result<(), Failure>)
      requires Valid()
      modifies this
      ensures Valid()
      ensures roleName !in config.roles ==>
        r == Err(Auth(NewRoleNotFoundError(roleName)))
        && cache == old(cache) && requests == old(requests) && stsClientCreated == old(stsClientCreated)
      ensures roleName in config.roles && !ExchangeAttempted(old(stsClientCreated), setup) ==>
        r == Err(Auth(StsSetupError(setup.error)))
        && cache == old(cache) && requests == old(requests) && !stsClientCreated
      ensures roleName in config.roles && ExchangeAttempted(old(stsClientCreated), setup) ==>
        requests == old(requests) + [RequestFor(config.roles[roleName], now)] && stsClientCreated
      ensures (roleName in config.roles && ExchangeAttempted(old(stsClientCreated), setup)
        && ExchangeResult(config.roles[roleName], outcome, config.defaultRegion).Err?) ==>
        r == Err(ExchangeResult(config.roles[roleName], outcome, config.defaultRegion).error) && cache == old(cache)
      ensures (roleName in config.roles && ExchangeAttempted(old(stsClientCreated), setup)
        && ExchangeResult(config.roles[roleName], outcome, config.defaultRegion).Ok?) ==>
        r.Ok?
        && cache == (if config.enableCaching
                     then old(cache)[roleName := CacheEntry(ExchangeResult(config.roles[roleName], outcome, config.defaultRegion).value, now)]
                     else old(cache))
    {
      var role := config.GetRole(roleName);
      if role.None? {
        return Err(Auth(NewRoleNotFoundError(roleName)));
      }
      var credentials := AssumeRole(role.value, now, setup, outcome);
      if credentials.Err? {
        return Err(credentials.error);
      }
      if config.enableCaching {
        cache := cache[roleName := CacheEntry(credentials.value, now)];
      }
      return Ok(());
    }

    /** Whether `get_client` has to refresh: a named role, configured, without valid cached credentials. */
    predicate NeedsRefresh(roleName: Option<string>, now: int)
      reads this, config
    {
      Truthy(roleName) && !CredentialsValid(roleName.value, now) && roleName.value in config.roles
    }

    /** What `get_client` returns when called in the current state. */
    function ClientAfter(service: string, roleName: Option<string>, region: Option<string>, now: int,
                         setup: StsSetup, outcome: ExchangeOutcome, factory: FactoryOutcome): Result<Client, AuthError>
      reads this, config
    {
      var target := TargetRegion(region, config.defaultRegion);
      if !Truthy(roleName) then BuildClient(service, target, None, config.defaultProfile, factory)
      else if CredentialsValid(roleName.value, now) then
        BuildClient(service, target, Some(cache[roleName.value].credentials), None, factory)
      else if roleName.value !in config.roles then Err(NewRoleNotFoundError(roleName.value))
      else
        var result := RefreshResult(config.roles[roleName.value], now, stsClientCreated, setup, outcome, config.defaultRegion);
        if result.Err? then Err(ClientFailure(service, result.error))
        else if !config.enableCaching then Err(NewClientCreationError(service, ClientCreationMessage))
        else BuildClient(service, target, Some(result.value), None, factory)
    }

    /** The cache `get_client` leaves behind: changed only by a successful refresh with caching on. */
    function CacheAfter(roleName: Option<string>, now: int, setup: StsSetup, outcome: ExchangeOutcome): map<string, CacheEntry>
      reads this, config
    {
      if NeedsRefresh(roleName, now) then
        var result := RefreshResult(config.roles[roleName.value], now, stsClientCreated, setup, outcome, config.defaultRegion);
        if config.enableCaching && result.Ok? then cache[roleName.value := CacheEntry(result.value, now)] else cache
      else cache
    }

    /** The requests log after `get_client`: one more request when a refresh reaches the exchange. */
    ghost function RequestsAfter(roleName: Option<string>, now: int, setup: StsSetup): seq<AssumeRoleRequest>
      reads this, config
    {
      if NeedsRefresh(roleName, now) && ExchangeAttempted(stsClientCreated, setup) then
        requests + [RequestFor(config.roles[roleName.value], now)]
      else requests
    }

    /** Whether the STS client exists after `get_client`: a refresh creates it when the setup allows. */
    function StsAfter(roleName: Option<string>, now: int, setup: StsSetup): bool
      reads this, config
    {
      if NeedsRefresh(roleName, now) then ExchangeAttempted(stsClientCreated, setup) else stsClientCreated
    }

    /** The three cases of `get_client` without a refresh, read off the state functions. */
    lemma ClientAfterCases(service: string, roleName: Option<string>, region: Option<string>, now: int,
                           setup: StsSetup, outcome: ExchangeOutcome, factory: FactoryOutcome)
      ensures !NeedsRefresh(roleName, now) ==>
        CacheAfter(roleName, now, setup, outcome) == cache && RequestsAfter(roleName, now, setup) == requests
        && StsAfter(roleName, now, setup) == stsClientCreated
      ensures !Truthy(roleName) ==>
        ClientAfter(service, roleName, region, now, setup, outcome, factory)
        == BuildClient(service, TargetRegion(region, config.defaultRegion), None, config.defaultProfile, factory)
      ensures Truthy(roleName) && CredentialsValid(roleName.value, now) ==>
        ClientAfter(service, roleName, region, now, setup, outcome, factory)
        == BuildClient(service, TargetRegion(region, config.defaultRegion), Some(cache[roleName.value].credentials), None, factory)
      ensures Truthy(roleName) && !CredentialsValid(roleName.value, now) && roleName.value !in config.roles ==>
        ClientAfter(service, roleName, region, now, setup, outcome, factory) == Err(NewRoleNotFoundError(roleName.value))
    {
    }

    /** The refreshing case of `get_client`, read off the state functions. */
    lemma RefreshingClientAfter(service: string, roleName: Option<string>, region: Option<string>, now: int,
                                setup: StsSetup, outcome: ExchangeOutcome, factory: FactoryOutcome)
      ensures NeedsRefresh(roleName, now) ==>
        var name := roleName.value;
        var result := RefreshResult(config.roles[name], now, stsClientCreated, setup, outcome, config.defaultRegion);
        RequestsAfter(roleName, now, setup)
          == requests + (if ExchangeAttempted(stsClientCreated, setup) then [RequestFor(config.roles[name], now)] else [])
        && CacheAfter(roleName, now, setup, outcome)
          == (if config.enableCaching && result.Ok? then cache[name := CacheEntry(result.value, now)] else cache)
        && StsAfter(roleName, now, setup) == ExchangeAttempted(stsClientCreated, setup)
        && ClientAfter(service, roleName, region, now, setup, outcome, factory)
          == (if result.Err? then Err(ClientFailure(service, result.error))
              else if !config.enableCaching then Err(NewClientCreationError(service, ClientCreationMessage))
              else BuildClient(service, TargetRegion(region, config.defaultRegion), Some(result.value), None, factory))
    {
    }

    /** `get_client(service, role_name, region)` */
    method GetClient(service: string, roleName: Option<string>, region: Option<string>, now: int,
                     setup: StsSetup, outcome: ExchangeOutcome, factory: FactoryOutcome)
      returns (r: Result<Client, AuthError>)
      requires Valid()
      modifies this
      ensures Valid()
      // Without a role name: the profile or default chain, and no exchange.
      ensures !Truthy(roleName) ==>
        cache == old(cache) && requests == old(requests) && stsClientCreated == old(stsClientCreated)
        && r == BuildClient(service, TargetRegion(region, config.defaultRegion), None, config.defaultProfile, factory)
      // A role whose cached credentials are valid: those credentials, and no exchange.
      ensures Truthy(roleName) && old(CredentialsValid(roleName.value, now)) ==>
        cache == old(cache) && requests == old(requests) && stsClientCreated == old(stsClientCreated)
        && r == BuildClient(service, TargetRegion(region, config.defaultRegion), Some(old(cache)[roleName.value].credentials), None, factory)
      // An unknown role: `RoleNotFoundError` unchanged, and no exchange.
      ensures Truthy(roleName) && !old(CredentialsValid(roleName.value, now)) && roleName.value !in config.roles ==>
        cache == old(cache) && requests == old(requests) && stsClientCreated == old(stsClientCreated)
        && r == Err(NewRoleNotFoundError(roleName.value))
      // A known role without valid credentials: a refresh, then the cache lookup.
      ensures Truthy(roleName) && !old(CredentialsValid(roleName.value, now)) && roleName.value in config.roles ==>
        var name := roleName.value;
        var result := RefreshResult(config.roles[name], now, old(stsClientCreated), setup, outcome, config.defaultRegion);
        requests == old(requests) + (if ExchangeAttempted(old(stsClientCreated), setup) then [RequestFor(config.roles[name], now)] else [])
        && cache == (if config.enableCaching && result.Ok? then old(cache)[name := CacheEntry(result.value, now)] else old(cache))
        && r == (if result.Err? then Err(ClientFailure(service, result.error))
                 else if !config.enableCaching then Err(NewClientCreationError(service, ClientCreationMessage))
                 else BuildClient(service, TargetRegion(region, config.defaultRegion), Some(result.value), None, factory))
      // The same, as the state functions above.
      ensures r == old(ClientAfter(service, roleName, region, now, setup, outcome, factory))
      ensures cache == old(CacheAfter(roleName, now, setup, outcome)) && requests == old(RequestsAfter(roleName, now, setup))
        && stsClientCreated == old(StsAfter(roleName, now, setup))
    {
      ClientAfterCases(service, roleName, region, now, setup, outcome, factory);
      RefreshingClientAfter(service, roleName, region, now, setup, outcome, factory);
      var target := TargetRegion(region, config.defaultRegion);
      if Truthy(roleName) {
        var name := roleName.value;
        if !CredentialsValid(name, now) {
          var refreshed := RefreshCredentials(name, now, setup, outcome);
          if refreshed.Err? {
            return Err(ClientFailure(service, refreshed.error));
          }
        }
        if name !in cache {
          // The lookup raises `KeyError`, which the generic handler turns into a `ClientCreationError`.
          return Err(NewClientCreationError(service, ClientCreationMessage));
        }
        r := BuildClient(service, target, Some(cache[name].credentials), None, factory);
      } else {
        r := BuildClient(service, target, None, config.defaultProfile, factory);
      }
    }

    /** `test_credentials(role_name)`: the caller identity through an STS client, every failure re-mapped. */
    method TestCredentials(roleName: Option<string>, now: int, setup: StsSetup, outcome: ExchangeOutcome,
                           factory: FactoryOutcome, identity: IdentityOutcome)
      returns (r: Result<Identity, AuthError>)
      requires Valid()
      modifies this
      ensures Valid()
      ensures r.Ok? ==> (identity.IdentityReturned? && r.value.roleName == roleName
        && r.value.account == identity.account && r.value.userId == identity.userId && r.value.arn == identity.arn)
      ensures r.Err? ==> r.error.kind.Base? || identity.IdentityFailed?
      ensures r.Err? && !identity.IdentityFailed? ==> r.error.errorCode == Some("UNKNOWN_ERROR")
      // The identity comes back exactly when the STS client is built and the call answers.
      ensures r.Ok? <==> old(ClientAfter("sts", roleName, None, now, setup, outcome, factory)).Ok? && identity.IdentityReturned?
      ensures old(ClientAfter("sts", roleName, None, now, setup, outcome, factory)).Err? ==>
        r == Err(FromBotoError(OtherError(Str(old(ClientAfter("sts", roleName, None, now, setup, outcome, factory)).error)), "credential test"))
      ensures old(ClientAfter("sts", roleName, None, now, setup, outcome, factory)).Ok? && identity.IdentityFailed? ==>
        r == Err(FromBotoError(identity.error, "credential test"))
      // The state is what `get_client` leaves.
      ensures cache == old(CacheAfter(roleName, now, setup, outcome)) && requests == old(RequestsAfter(roleName, now, setup))
        && stsClientCreated == old(StsAfter(roleName, now, setup))
    {
      var client := GetClient("sts", roleName, None, now, setup, outcome, factory);
      if client.Err? {
        // The service's own error is not a botocore error, so the mapping treats it as unknown.
        return Err(FromBotoError(OtherError(Str(client.error)), "credential test"));
      }
      match identity {
        case IdentityReturned(account, userId, arn) =>
          return Ok(Identity(account, userId, arn, roleName));
        case IdentityFailed(e) =>
          return Err(FromBotoError(e, "credential test"));
      }
    }

    /** `clear_cache(role_name)`: drops one role's entry, or everything when no (or an empty) name is given. */
    method ClearCache(roleName: Option<string>)
      requires Valid()
      modifies this
      ensures Valid()
      ensures Truthy(roleName) ==> cache == old(cache) - {roleName.value}
      ensures !Truthy(roleName) ==> cache == map[]
      ensures requests == old(requests) && stsClientCreated == old(stsClientCreated)
    {
      if Truthy(roleName) {
        if roleName.value in cache {
          cache := cache - {roleName.value};
        }
      } else {
        cache := map[];
      }
    }

    /** `get_cache_info()`: one row per cached role, its validity recomputed by the cache check. */
    method GetCacheInfo(now: int) returns (info: map<string, CacheInfo>)
      ensures info.Keys == cache.Keys
      ensures forall n :: n in info ==> info[n] == InfoFor(cache[n], CredentialsValid(n, now))
    {
      info := map[];
      var rest := cache.Keys;
      while rest != {}
        invariant rest <= cache.Keys
        invariant info.Keys == cache.Keys - rest
        invariant forall n :: n in info ==> info[n] == InfoFor(cache[n], CredentialsValid(n, now))
        decreases |rest|
      {
        var n :| n in rest;
        info := info[n := InfoFor(cache[n], CredentialsValid(n, now))];
        rest := rest - {n};
      }
    }
  }

  /** Whether `_assume_role` gets past the STS client setup. */
  predicate ExchangeAttempted(stsClientCreated: bool, setup: StsSetup) {
    stsClientCreated || setup.StsReady?
  }

  /** The outcome of a refresh of a configured role: the STS setup, then the exchange. */
  function RefreshResult(role: RoleConfig, now: int, stsClientCreated: bool, setup: StsSetup,
                         outcome: ExchangeOutcome, region: string): (r: Result<AWSCredentials, Failure>)
    ensures !ExchangeAttempted(stsClientCreated, setup) ==> r == Err(Auth(StsSetupError(setup.error)))
    ensures ExchangeAttempted(stsClientCreated, setup) ==> r == ExchangeResult(role, outcome, region)
  {
    if ExchangeAttempted(stsClientCreated, setup) then ExchangeResult(role, outcome, region)
    else Err(Auth(StsSetupError(setup.error)))
  }

  /** `region or default_region` */
  function TargetRegion(region: Option<string>, defaultRegion: string): string {
    if Truthy(region) then region.value else defaultRegion
  }

  // ---------------------------------------------------------------------
  // Properties of the cache check

  /** Both boundaries count as valid: an entry exactly `ttl` old, expiring exactly the buffer away. */
  lemma ValidityBoundaries(c: AWSCredentials, cachedAt: int, ttl: int)
    requires c.expiration == At(cachedAt + ttl + ExpiryBuffer)
    ensures EntryValid(CacheEntry(c, cachedAt), cachedAt + ttl, ttl)
    ensures !EntryValid(CacheEntry(c, cachedAt), cachedAt + ttl + 1, ttl)
  {
  }

  /** An entry valid at some time was valid at every earlier time since it was cached. */
  lemma ValidityAntitone(e: CacheEntry, earlier: int, later: int, ttl: int)
    requires e.cachedAt <= earlier <= later && EntryValid(e, later, ttl)
    ensures EntryValid(e, earlier, ttl)
  {
  }

  /** Credentials just issued and expiring at least the buffer ahead are valid at once. */
  lemma FreshEntryValid(c: AWSCredentials, now: int, ttl: int)
    requires ttl >= 0 && c.expiration.At? && c.expiration.time >= now + ExpiryBuffer
    ensures EntryValid(CacheEntry(c, now), now, ttl)
  {
  }

  /**
   * Two back-to-back role-based calls at the same time: the first may
   * exchange, the second is served from the cache, so at most one request
   * is sent and both clients carry the same credentials.
   */
  method TwoCallsOneExchange(s: AuthService, service: string, name: string, now: int,
                             setup: StsSetup, outcome: ExchangeOutcome)
    returns (first: Result<Client, AuthError>, second: Result<Client, AuthError>)
    requires s.Valid() && s.config.enableCaching && name != "" && name in s.config.roles
    requires setup.StsReady? && outcome.Issued? && outcome.expiration.At?
    requires outcome.expiration.time >= now + ExpiryBuffer
    modifies s
    ensures first.Ok? && second.Ok? && first == second
    ensures |s.requests| <= |old(s.requests)| + 1
    ensures old(s.CredentialsValid(name, now)) ==> s.requests == old(s.requests)
    ensures !old(s.CredentialsValid(name, now)) ==> |s.requests| == |old(s.requests)| + 1
  {
    first := s.GetClient(service, Some(name), None, now, setup, outcome, Created);
    assert s.CredentialsValid(name, now) by {
      if !old(s.CredentialsValid(name, now)) {
        FreshEntryValid(s.cache[name].credentials, now, s.config.cacheTtlSeconds);
      }
    }
    ghost var mid := s.requests;
    second := s.GetClient(service, Some(name), None, now, setup, outcome, Created);
    assert s.requests == mid;
  }

  /** With caching off, a role-based call exchanges but cannot find what it exchanged, and fails. */
  method CachingOffFails(s: AuthService, service: string, name: string, now: int,
                         setup: StsSetup, outcome: ExchangeOutcome, factory: FactoryOutcome)
    returns (r: Result<Client, AuthError>)
    requires s.Valid() && !s.config.enableCaching && name != "" && name in s.config.roles
    requires setup.StsReady? && outcome.Issued?
    modifies s
    ensures r == Err(NewClientCreationError(service, ClientCreationMessage))
    ensures |s.requests| == |old(s.requests)| + 1
    ensures s.cache == map[]
  {
    r := s.GetClient(service, Some(name), None, now, setup, outcome, factory);
  }
}

=== FILE: calendar.dfy ===
/**
 * Proleptic Gregorian calendar dates as Python's `datetime.date` has them:
 * years 1 to 9999, day arithmetic that fails beyond that range, ordinals
 * counted from 0001-01-01 = 1, weekdays from Monday = 0, and the
 * `YYYY-MM-DD` text form used by `strftime` and `strptime`.
 */
module Calendar {
  import opened Wrappers
  import opened Text

  datatype Date = Date(year: int, month: int, day: int)

  /** A month of a year. */
  datatype YearMonth = YearMonth(year: int, month: int)

  const MinYear := 1
  const MaxYear := 9999

  predicate IsLeap(y: int) {
    y % 4 == 0 && (y % 100 != 0 || y % 400 == 0)
  }

  /** `calendar.monthrange(y, m)[1]` */
  function DaysInMonth(y: int, m: int): (n: int)
    requires 1 <= m <= 12
    ensures 28 <= n <= 31
    ensures n == 29 <==> m == 2 && IsLeap(y)
  {
    if m == 2 then (if IsLeap(y) then 29 else 28)
    else if m == 4 || m == 6 || m == 9 || m == 11 then 30
    else 31
  }

  /** What `date(year, month, day)` accepts. */
  predicate ValidDate(d: Date) {
    MinYear <= d.year <= MaxYear && 1 <= d.month <= 12 && 1 <= d.day <= DaysInMonth(d.year, d.month)
  }

  /** A date `date(year, month, day)` accepts. */
  type ValidDay = d: Date | ValidDate(d) witness Date(MinYear, 1, 1)

  /** `d.replace(day=1)` */
  function FirstOfMonth(d: Date): Date {
    Date(d.year, d.month, 1)
  }

  // ---------------------------------------------------------------------
  // Ordinals and weekdays

  /** Days in the months of year `y` before month `m`: the common-year table, plus the leap day after February. */
  function DaysBeforeMonth(y: int, m: int): nat
    requires 1 <= m <= 12
  {
    (if m == 1 then 0 else if m == 2 then 31 else if m == 3 then 59 else if m == 4 then 90
     else if m == 5 then 120 else if m == 6 then 151 else if m == 7 then 181 else if m == 8 then 212
     else if m == 9 then 243 else if m == 10 then 273 else if m == 11 then 304 else 334)
    + (if m > 2 && IsLeap(y) then 1 else 0)
  }

  /** Days in the years before year `y`. */
  function DaysBeforeYear(y: int): int
    requires y >= 1
  {
    var p := y - 1;
    p * 365 + p / 4 - p / 100 + p / 400
  }

  /** `d.toordinal()`: 0001-01-01 is day 1. */
  function ToOrdinal(d: Date): int
    requires ValidDate(d)
  {
    DaysBeforeYear(d.year) + DaysBeforeMonth(d.year, d.month) + d.day
  }

  /** `d.weekday()`: Monday is 0, Sunday is 6. */
  function Weekday(d: Date): (w: int)
    requires ValidDate(d)
    ensures 0 <= w < 7
  {
    (ToOrdinal(d) + 6) % 7
  }

  /** Saturday or Sunday: `weekday() >= 5`. */
  predicate IsWeekend(d: Date)
    requires ValidDate(d)
  {
    Weekday(d) >= 5
  }

  // ---------------------------------------------------------------------
  // Day arithmetic

  /** `d + timedelta(days=1)`; `None` where Python raises `OverflowError`. */
  function NextDay(d: Date): (r: Option<Date>)
    requires ValidDate(d)
    ensures r.Some? ==> ValidDate(r.value)
    ensures r.None? <==> d == Date(MaxYear, 12, 31)
  {
    if d.day < DaysInMonth(d.year, d.month) then Some(Date(d.year, d.month, d.day + 1))
    else if d.month < 12 then Some(Date(d.year, d.month + 1, 1))
    else if d.year < MaxYear then Some(Date(d.year + 1, 1, 1))
    else None
  }

  /** `d - timedelta(days=1)`; `None` where Python raises `OverflowError`. */
  function PrevDay(d: Date): (r: Option<Date>)
    requires ValidDate(d)
    ensures r.Some? ==> ValidDate(r.value)
    ensures r.None? <==> d == Date(MinYear, 1, 1)
  {
    if d.day > 1 then Some(Date(d.year, d.month, d.day - 1))
    else if d.month > 1 then Some(Date(d.year, d.month - 1, DaysInMonth(d.year, d.month - 1)))
    else if d.year > MinYear then Some(Date(d.year - 1, 12, 31))
    else None
  }

  /** `d + timedelta(days=k)` for any integer `k`; `None` where Python raises `OverflowError`. */
  function AddDays(d: Date, k: int): (r: Option<Date>)
    requires ValidDate(d)
    ensures r.Some? ==> ValidDate(r.value)
    decreases if k < 0 then -k else k
  {
    if k == 0 then Some(d)
    else if k > 0 then
      match NextDay(d)
      case None => None
      case Some(n) => AddDays(n, k - 1)
    else
      match PrevDay(d)
      case None => None
      case Some(p) => AddDays(p, k + 1)
  }

  lemma DaysBeforeYearStep(y: int)
    requires y >= 1
    ensures DaysBeforeYear(y + 1) == DaysBeforeYear(y) + 365 + (if IsLeap(y) then 1 else 0)
  {
    DivSucc4(y - 1);
    DivSucc100(y - 1);
    DivSucc400(y - 1);
    CenturiesDivisible(y);
  }

  /** A multiple of 400 is one of 100, and a multiple of 100 is one of 4. */
  lemma CenturiesDivisible(y: int)
    ensures y % 400 == 0 ==> y % 100 == 0
    ensures y % 100 == 0 ==> y % 4 == 0
  {
    if y % 400 == 0 {
      var q, d, r := y / 400, y / 100, y % 100;
      assert y == 400 * q && y == 100 * d + r && 0 <= r < 100;
      assert r == 100 * (4 * q - d);
      assert 4 * q - d == 0;
    }
    if y % 100 == 0 {
      var q, d, r := y / 100, y / 4, y % 4;
      assert y == 100 * q && y == 4 * d + r && 0 <= r < 4;
      assert r == 4 * (25 * q - d);
      assert 25 * q - d == 0;
    }
  }

  /** Counting multiples of 4 up to `p + 1` adds one exactly when `p + 1` is one. */
  lemma DivSucc4(p: int)
    ensures (p + 1) / 4 == p / 4 + (if (p + 1) % 4 == 0 then 1 else 0)
  {
    var q, r := p / 4, p % 4;
    assert p == 4 * q + r;
    if r < 3 { assert p + 1 == 4 * q + (r + 1); } else { assert p + 1 == 4 * (q + 1); }
  }

  /** Counting multiples of 100 up to `p + 1` adds one exactly when `p + 1` is one. */
  lemma DivSucc100(p: int)
    ensures (p + 1) / 100 == p / 100 + (if (p + 1) % 100 == 0 then 1 else 0)
  {
    var q, r := p / 100, p % 100;
    assert p == 100 * q + r;
    if r < 99 { assert p + 1 == 100 * q + (r + 1); } else { assert p + 1 == 100 * (q + 1); }
  }

  /** Counting multiples of 400 up to `p + 1` adds one exactly when `p + 1` is one. */
  lemma DivSucc400(p: int)
    ensures (p + 1) / 400 == p / 400 + (if (p + 1) % 400 == 0 then 1 else 0)
  {
    var q, r := p / 400, p % 400;
    assert p == 400 * q + r;
    if r < 399 { assert p + 1 == 400 * q + (r + 1); } else { assert p + 1 == 400 * (q + 1); }
  }

  /** A month's days come right after the days of the months before it. */
  lemma DaysBeforeMonthNext(y: int, m: int)
    requires 1 <= m < 12
    ensures DaysBeforeMonth(y, m + 1) == DaysBeforeMonth(y, m) + DaysInMonth(y, m)
  {
  }

  /** New Year's Day is one ordinal after the New Year's Eve before it. */
  lemma YearBoundary(y: int)
    requires MinYear <= y < MaxYear
    ensures ToOrdinal(Date(y + 1, 1, 1)) == ToOrdinal(Date(y, 12, 31)) + 1
  {
    DaysBeforeYearStep(y);
  }

  /** The next day is one ordinal later. */
  lemma NextDayOrdinal(d: Date)
    requires ValidDate(d) && NextDay(d).Some?
    ensures ToOrdinal(NextDay(d).value) == ToOrdinal(d) + 1
  {
    if d.day < DaysInMonth(d.year, d.month) {
      assert NextDay(d) == Some(Date(d.year, d.month, d.day + 1));
    } else if d.month < 12 {
      assert NextDay(d) == Some(Date(d.year, d.month + 1, 1));
      DaysBeforeMonthNext(d.year, d.month);
    } else {
      assert NextDay(d) == Some(Date(d.year + 1, 1, 1));
      YearBoundary(d.year);
    }
  }

  /** The previous day is one ordinal earlier. */
  lemma PrevDayOrdinal(d: Date)
    requires ValidDate(d) && PrevDay(d).Some?
    ensures ToOrdinal(PrevDay(d).value) == ToOrdinal(d) - 1
  {
    if d.day > 1 {
      assert PrevDay(d) == Some(Date(d.year, d.month, d.day - 1));
    } else if d.month > 1 {
      assert PrevDay(d) == Some(Date(d.year, d.month - 1, DaysInMonth(d.year, d.month - 1)));
      DaysBeforeMonthNext(d.year, d.month - 1);
    } else {
      assert PrevDay(d) == Some(Date(d.year - 1, 12, 31));
      YearBoundary(d.year - 1);
    }
  }

  /** Stepping forward and back returns to the same day, in both orders. */
  lemma NextPrevInverse(d: Date)
    requires ValidDate(d)
    ensures NextDay(d).Some? ==> PrevDay(NextDay(d).value) == Some(d)
    ensures PrevDay(d).Some? ==> NextDay(PrevDay(d).value) == Some(d)
  {
  }

  /** `date.max.toordinal()`. */
  const MaxOrdinal := 3652059

  /** 9999-12-31 is the last ordinal, and 0001-01-01 the first. */
  lemma OrdinalEnds()
    ensures ToOrdinal(Date(MaxYear, 12, 31)) == MaxOrdinal
    ensures ToOrdinal(Date(MinYear, 1, 1)) == 1
  {
  }

  /** A successful addition of `k` days moves the ordinal by exactly `k`. */
  lemma {:induction false} AddDaysMoves(d: Date, k: int)
    requires ValidDate(d) && AddDays(d, k).Some?
    ensures ToOrdinal(AddDays(d, k).value) == ToOrdinal(d) + k
    decreases if k < 0 then -k else k
  {
    if k > 0 {
      var n := NextDay(d).value;
      var e := AddDays(n, k - 1);
      assert AddDays(d, k) == e;
      NextDayOrdinal(d);
      AddDaysMoves(n, k - 1);
    } else if k < 0 {
      var p := PrevDay(d).value;
      var e := AddDays(p, k + 1);
      assert AddDays(d, k) == e;
      PrevDayOrdinal(d);
      AddDaysMoves(p, k + 1);
    }
  }

  /** An addition of `k` days fails only when the ordinal would leave `1 .. MaxOrdinal`. */
  lemma {:induction false} AddDaysFails(d: Date, k: int)
    requires ValidDate(d) && AddDays(d, k).None?
    ensures ToOrdinal(d) + k < 1 || ToOrdinal(d) + k > MaxOrdinal
    decreases if k < 0 then -k else k
  {
    if k > 0 {
      if NextDay(d).Some? {
        var n := NextDay(d).value;
        assert AddDays(d, k) == AddDays(n, k - 1);
        NextDayOrdinal(d);
        AddDaysFails(n, k - 1);
      } else {
        OrdinalEnds();
      }
    } else {
      if PrevDay(d).Some? {
        var p := PrevDay(d).value;
        assert AddDays(d, k) == AddDays(p, k + 1);
        PrevDayOrdinal(d);
        AddDaysFails(p, k + 1);
      } else {
        OrdinalEnds();
      }
    }
  }

  /** Adding `k` days moves the ordinal by exactly `k`, and fails only past the calendar's ends. */
  lemma AddDaysOrdinal(d: Date, k: int)
    requires ValidDate(d)
    ensures AddDays(d, k).Some? ==> ToOrdinal(AddDays(d, k).value) == ToOrdinal(d) + k
    ensures AddDays(d, k).None? ==> ToOrdinal(d) + k < 1 || ToOrdinal(d) + k > MaxOrdinal
  {
    if AddDays(d, k).Some? {
      AddDaysMoves(d, k);
    } else {
      AddDaysFails(d, k);
    }
  }

  /** Weekdays advance by one each day, wrapping from Sunday to Monday. */
  lemma WeekdayNext(d: Date)
    requires ValidDate(d) && NextDay(d).Some?
    ensures Weekday(NextDay(d).value) == (Weekday(d) + 1) % 7
  {
    NextDayOrdinal(d);
    var n := ToOrdinal(d) + 6;
    assert ToOrdinal(NextDay(d).value) + 6 == n + 1;
    ModSucc7(n);
  }

  /** The remainder of a successor is the successor of the remainder, wrapped. */
  lemma ModSucc7(n: int)
    ensures (n + 1) % 7 == ((n % 7) + 1) % 7
  {
    var q := n / 7;
    var r := n % 7;
    assert n == 7 * q + r;
    if r < 6 {
      assert n + 1 == 7 * q + (r + 1);
    } else {
      assert n + 1 == 7 * (q + 1);
    }
  }

  /** Anchors: 0001-01-01 was a Monday and 2024-01-06 a Saturday. */
  lemma WeekdayExamples()
    ensures Weekday(Date(1, 1, 1)) == 0
    ensures Weekday(Date(2024, 1, 6)) == 5 && IsWeekend(Date(2024, 1, 6))
    ensures Weekday(Date(2024, 1, 8)) == 0 && !IsWeekend(Date(2024, 1, 8))
  {
  }

  // ---------------------------------------------------------------------
  // Months

  /** The month before `(y, m)`: December of the year before for January. */
  function PreviousMonth(y: int, m: int): (r: YearMonth)
    requires 1 <= m <= 12
    ensures 1 <= r.month <= 12
  {
    if m == 1 then YearMonth(y - 1, 12) else YearMonth(y, m - 1)
  }

  /** The day before the first of a month is the last day of the previous month. */
  lemma DayBeforeFirstOfMonth(d: Date)
    requires ValidDate(d) && FirstOfMonth(d) != Date(MinYear, 1, 1)
    ensures ValidDate(FirstOfMonth(d))
    ensures var YearMonth(py, pm) := PreviousMonth(d.year, d.month);
      PrevDay(FirstOfMonth(d)) == Some(Date(py, pm, DaysInMonth(py, pm)))
  {
  }

  /** The first day after the month `(y, m)`; `None` past the calendar's end. */
  function FirstOfNextMonth(y: int, m: int): Option<Date>
    requires MinYear <= y <= MaxYear && 1 <= m <= 12
  {
    NextDay(Date(y, m, DaysInMonth(y, m)))
  }

  /**
   * The exclusive end of a month is the first of the next month (January of
   * the next year after December), and the half-open range holds exactly the
   * month's days.
   */
  lemma MonthRangeLength(y: int, m: int)
    requires MinYear <= y <= MaxYear && 1 <= m <= 12 && !(y == MaxYear && m == 12)
    ensures FirstOfNextMonth(y, m) == Some(if m == 12 then Date(y + 1, 1, 1) else Date(y, m + 1, 1))
    ensures ToOrdinal(FirstOfNextMonth(y, m).value) - ToOrdinal(Date(y, m, 1)) == DaysInMonth(y, m)
  {
    NextDayOrdinal(Date(y, m, DaysInMonth(y, m)));
  }

  // ---------------------------------------------------------------------
  // Text form

  /** `n` in decimal, left-padded with zeros to `width` characters. */
  function Pad(n: nat, width: nat): string {
    var s := NatToString(n);
    if |s| >= width then s else Zeros(width - |s|) + s
  }

  function Zeros(k: nat): (z: string)
    ensures |z| == k && forall i :: 0 <= i < k ==> z[i] == '0'
  {
    seq(k, _ => '0')
  }

  /** `d.strftime("%Y-%m-%d")` */
  function FormatDate(d: Date): string
    requires ValidDate(d)
  {
    Pad(d.year, 4) + "-" + Pad(d.month, 2) + "-" + Pad(d.day, 2)
  }

  /**
   * `datetime.strptime(s, "%Y-%m-%d").date()` on the ten-character form:
   * four digits, a dash, two digits, a dash, two digits, naming a real date;
   * `None` where Python raises `ValueError`.
   */
  function ParseIsoDate(s: string): (r: Option<Date>)
    ensures r.Some? ==> ValidDate(r.value)
  {
    if |s| == 10 && s[4] == '-' && s[7] == '-'
       && IsDigitString(s[..4]) && IsDigitString(s[5..7]) && IsDigitString(s[8..])
    then
      var d := Date(DigitsValue(s[..4]), DigitsValue(s[5..7]), DigitsValue(s[8..]));
      if ValidDate(d) then Some(d) else None
    else None
  }

  function Pow10(k: nat): nat {
    if k == 0 then 1 else 10 * Pow10(k - 1)
  }

  lemma {:induction false} NatToStringLength(n: nat, w: nat)
    requires 1 <= w && n < Pow10(w)
    ensures |NatToString(n)| <= w
    decreases w
  {
    if n >= 10 {
      assert w > 1;
      NatToStringLength(n / 10, w - 1);
    }
  }

  /** Leading zeros do not change a digit string's value. */
  lemma {:induction false} LeadingZeros(z: string, s: string)
    requires forall i :: 0 <= i < |z| ==> z[i] == '0'
    requires forall i :: 0 <= i < |s| ==> IsDigit(s[i])
    ensures DigitsValue(z + s) == DigitsValue(s)
    decreases |s|
  {
    if s == [] {
      assert z + s == z;
      AllZerosValue(z);
    } else {
      var t := z + s;
      assert t[..|t| - 1] == z + s[..|s| - 1];
      LeadingZeros(z, s[..|s| - 1]);
    }
  }

  lemma {:induction false} AllZerosValue(z: string)
    requires forall i :: 0 <= i < |z| ==> z[i] == '0'
    ensures DigitsValue(z) == 0
    decreases |z|
  {
    if z != [] {
      AllZerosValue(z[..|z| - 1]);
    }
  }

  /** A padded number below `10^width` has exactly `width` digits and reads back as itself. */
  lemma PadRoundTrip(n: nat, width: nat)
    requires 1 <= width && n < Pow10(width)
    ensures |Pad(n, width)| == width && IsDigitString(Pad(n, width))
    ensures DigitsValue(Pad(n, width)) == n
  {
    var s := NatToString(n);
    NatToStringLength(n, width);
    NatToStringValue(n);
    if |s| < width {
      var z := Zeros(width - |s|);
      LeadingZeros(z, s);
      assert Pad(n, width) == z + s;
      assert forall i :: 0 <= i < |z + s| ==> IsDigit((z + s)[i]);
    }
  }

  /** What `strftime` writes, `strptime` reads back. */
  lemma FormatParseRoundTrip(d: Date)
    requires ValidDate(d)
    ensures ParseIsoDate(FormatDate(d)) == Some(d)
  {
    assert Pow10(4) == 10000 && Pow10(2) == 100;
    PadRoundTrip(d.year, 4);
    PadRoundTrip(d.month, 2);
    PadRoundTrip(d.day, 2);
    var y, m, dd := Pad(d.year, 4), Pad(d.month, 2), Pad(d.day, 2);
    var s := FormatDate(d);
    assert s == y + "-" + m + "-" + dd;
    assert s[..4] == y;
    assert s[5..7] == m;
    assert s[8..] == dd;
  }
}

=== FILE: core_tools.dfy ===
/**
 * The general AWS tools: the envelopes each tool returns, the listing loops
 * (EC2 reservations and their Name tags, RDS instances), the account
 * summary's counts by state and by engine, and the connectivity roll-up.
 *
 * What `get_client` and the SDK call produce is a parameter: `Ok` with the
 * response, or `Err` with the text of the exception either of them raised.
 */
module CoreTools {
  import opened Wrappers
  import opened Text
  import opened Seqs

  /** An answer from the client factory and the SDK call, or the text of what they raised. */
  type Answer<T> = Result<T, string>

  /** `role_name or "default"`, `region or "default"`: how the results name the role and region used. */
  function Label(name: Option<string>): (r: string)
    ensures Truthy(name) ==> r == name.value
    ensures !Truthy(name) ==> r == "default"
  {
    if Truthy(name) then name.value else "default"
  }

  // ---------------------------------------------------------------------
  // get_caller_identity

  /** `get_caller_identity`'s response; absent keys are `None`. */
  datatype CallerIdentity = CallerIdentity(account: Option<string>, userId: Option<string>, arn: Option<string>)

  datatype IdentityResult =
    | IdentityFound(account: Option<string>, userId: Option<string>, arn: Option<string>, roleLabel: string)
    | IdentityFailed(message: string, roleLabel: string)

  /** `get_caller_identity(role_name)`: never raises; a failure becomes an error envelope. */
  function GetCallerIdentity(roleName: Option<string>, answer: Answer<CallerIdentity>): (r: IdentityResult)
    ensures r.roleLabel == Label(roleName)
    ensures r.IdentityFound? <==> answer.Ok?
    ensures answer.Ok? ==> r.account == answer.value.account && r.userId == answer.value.userId && r.arn == answer.value.arn
    ensures answer.Err? ==> r.message == "Failed to get caller identity: " + answer.error
  {
    match answer
    case Ok(id) => IdentityFound(id.account, id.userId, id.arn, Label(roleName))
    case Err(text) => IdentityFailed("Failed to get caller identity: " + text, Label(roleName))
  }

  // ---------------------------------------------------------------------
  // list_s3_buckets

  datatype BucketsResult =
    | BucketsListed(buckets: seq<string>, count: int, roleLabel: string)
    | BucketsFailed(message: string, roleLabel: string)

  /** `list_s3_buckets(role_name)` over the bucket names of the response. */
  function ListS3Buckets(roleName: Option<string>, answer: Answer<seq<string>>): (r: BucketsResult)
    ensures r.roleLabel == Label(roleName)
    ensures r.BucketsListed? <==> answer.Ok?
    ensures answer.Ok? ==> r.buckets == answer.value && r.count == |answer.value|
    ensures answer.Err? ==> r.message == "Failed to list S3 buckets: " + answer.error
  {
    match answer
    case Ok(names) => BucketsListed(names, |names|, Label(roleName))
    case Err(text) => BucketsFailed("Failed to list S3 buckets: " + text, Label(roleName))
  }

  // ---------------------------------------------------------------------
  // list_ec2_instances

  datatype Tag = Tag(key: string, value: string)

  /** An instance of `describe_instances`; optional keys are `None` when absent. */
  datatype Ec2Instance = Ec2Instance(instanceId: string, instanceType: string, state: string, tags: seq<Tag>,
                                     privateIp: Option<string>, publicIp: Option<string>,
                                     vpcId: Option<string>, subnetId: Option<string>)

  /** The record the tool reports per instance. */
  datatype InstanceRow = InstanceRow(instanceId: string, instanceType: string, state: string, name: string,
                                     privateIp: string, publicIp: string, vpcId: string, subnetId: string)

  /** `{"Name": "instance-state-name", "Values": states}` */
  datatype StateFilter = StateFilter(name: string, values: seq<string>)

  /** The instance's name: the value of the first `Name` tag, or `N/A` when there is none. */
  function NameTag(tags: seq<Tag>): (r: string)
    ensures (forall i :: 0 <= i < |tags| ==> tags[i].key != "Name") ==> r == "N/A"
    ensures forall i :: (0 <= i < |tags| && tags[i].key == "Name" && (forall j :: 0 <= j < i ==> tags[j].key != "Name")
                         ==> r == tags[i].value)
  {
    if tags == [] then "N/A"
    else if tags[0].key == "Name" then tags[0].value
    else
      var rest := NameTag(tags[1..]);
      assert forall i :: 1 <= i < |tags| ==> tags[i] == tags[1..][i - 1];
      rest
  }

  /** The tag loop with its early `break`. */
  method InstanceName(tags: seq<Tag>) returns (name: string)
    ensures name == NameTag(tags)
  {
    name := "N/A";
    var i := 0;
    while i < |tags|
      invariant 0 <= i <= |tags|
      invariant NameTag(tags) == NameTag(tags[i..])
    {
      if tags[i].key == "Name" {
        name := tags[i].value;
        break;
      }
      assert tags[i..][1..] == tags[i + 1..];
      i := i + 1;
    }
  }

  function OrNA(o: Option<string>): string {
    o.GetOr("N/A")
  }

  function Row(inst: Ec2Instance): (r: InstanceRow)
    ensures r.instanceId == inst.instanceId && r.state == inst.state && r.name == NameTag(inst.tags)
  {
    InstanceRow(inst.instanceId, inst.instanceType, inst.state, NameTag(inst.tags),
                OrNA(inst.privateIp), OrNA(inst.publicIp), OrNA(inst.vpcId), OrNA(inst.subnetId))
  }

  /** The rows of the instances of one reservation, in order. */
  function Rows(insts: seq<Ec2Instance>): (r: seq<InstanceRow>)
    ensures |r| == |insts| && forall i :: 0 <= i < |insts| ==> r[i] == Row(insts[i])
  {
    if insts == [] then []
    else
      var init := insts[..|insts| - 1];
      var front := Rows(init);
      var r := front + [Row(insts[|insts| - 1])];
      assert forall i :: 0 <= i < |insts| ==> r[i] == Row(insts[i]) by {
        forall i | 0 <= i < |insts|
          ensures r[i] == Row(insts[i])
        {
          if i < |init| {
            assert r[i] == front[i] && init[i] == insts[i];
          } else {
            assert i == |front| && r[|front|] == Row(insts[|insts| - 1]);
          }
        }
      }
      r
  }

  /** The rows of all reservations, in order. */
  function AllRows(reservations: seq<seq<Ec2Instance>>): seq<InstanceRow> {
    if reservations == [] then []
    else AllRows(reservations[..|reservations| - 1]) + Rows(reservations[|reservations| - 1])
  }

  /** `Filters` is sent only for a non-empty list of states. */
  function Ec2Filters(states: Option<seq<string>>): (r: Option<seq<StateFilter>>)
    ensures r.Some? <==> states.Some? && states.value != []
    ensures r.Some? ==> r.value == [StateFilter("instance-state-name", states.value)]
  {
    if states.Some? && states.value != [] then Some([StateFilter("instance-state-name", states.value)]) else None
  }

  datatype Ec2Result =
    | InstancesListed(instances: seq<InstanceRow>, count: int, regionLabel: string, roleLabel: string,
                      filteredStates: Option<seq<string>>)
    | InstancesFailed(message: string, regionLabel: string, roleLabel: string)

  /** The loops of `list_ec2_instances` over the reservations and their instances. */
  method ListEc2Instances(roleName: Option<string>, region: Option<string>, states: Option<seq<string>>,
                          answer: Answer<seq<seq<Ec2Instance>>>) returns (r: Ec2Result, filters: Option<seq<StateFilter>>)
    // The `Filters` parameter the `describe_instances` call is given.
    ensures filters == Ec2Filters(states)
    ensures r.regionLabel == Label(region) && r.roleLabel == Label(roleName)
    ensures answer.Err? ==> r == InstancesFailed("Failed to list EC2 instances: " + answer.error,
                                                 Label(region), Label(roleName))
    ensures answer.Ok? ==> (r.InstancesListed? && r.instances == AllRows(answer.value)
                            && r.count == |r.instances| && r.filteredStates == states)
  {
    filters := Ec2Filters(states);
    if answer.Err? {
      return InstancesFailed("Failed to list EC2 instances: " + answer.error, Label(region), Label(roleName)), filters;
    }
    var reservations := answer.value;
    var rows: seq<InstanceRow> := [];
    for i := 0 to |reservations|
      invariant rows == AllRows(reservations[..i])
    {
      var insts := reservations[i];
      ghost var before := rows;
      for j := 0 to |insts|
        invariant rows == before + Rows(insts[..j])
      {
        var inst := insts[j];
        var name := InstanceName(inst.tags);
        RowsStep(before, insts, j);
        rows := rows + [InstanceRow(inst.instanceId, inst.instanceType, inst.state, name,
                                    OrNA(inst.privateIp), OrNA(inst.publicIp), OrNA(inst.vpcId), OrNA(inst.subnetId))];
      }
      AllRowsStep(reservations, i);
    }
    assert reservations[..|reservations|] == reservations;
    return InstancesListed(rows, |rows|, Label(region), Label(roleName), states), filters;
  }

  /** One more instance adds its row after the rows so far. */
  lemma RowsStep(before: seq<InstanceRow>, insts: seq<Ec2Instance>, j: nat)
    requires j < |insts|
    ensures before + Rows(insts[..j + 1]) == (before + Rows(insts[..j])) + [Row(insts[j])]
  {
    TakeStep(insts, j);
  }

  /** One more reservation adds the rows of all its instances. */
  lemma AllRowsStep(reservations: seq<seq<Ec2Instance>>, i: nat)
    requires i < |reservations|
    ensures AllRows(reservations[..i + 1]) == AllRows(reservations[..i]) + Rows(reservations[i][..|reservations[i]|])
  {
    TakeStep(reservations, i);
    assert reservations[i][..|reservations[i]|] == reservations[i];
  }

  // ---------------------------------------------------------------------
  // list_rds_instances

  datatype Endpoint = Endpoint(address: Option<string>, port: Option<int>)

  /** An instance of `describe_db_instances`; optional keys are `None` when absent. */
  datatype DbInstance = DbInstance(identifier: string, engine: string, engineVersion: string, instanceClass: string,
                                   status: string, allocatedStorage: int, storageType: Option<string>, multiAz: bool,
                                   endpoint: Option<Endpoint>, vpcId: Option<string>)

  /** The record the tool reports per database; `port` is `None` where the tool reports `N/A`. */
  datatype DbRow = DbRow(identifier: string, engine: string, engineVersion: string, instanceClass: string,
                         status: string, allocatedStorage: int, storageType: string, multiAz: bool,
                         endpoint: string, port: Option<int>, vpcId: string)

  function DbRowOf(db: DbInstance): (r: DbRow)
    ensures r.identifier == db.identifier && r.engine == db.engine
    ensures db.endpoint.None? ==> r.endpoint == "N/A" && r.port.None?
  {
    DbRow(db.identifier, db.engine, db.engineVersion, db.instanceClass, db.status, db.allocatedStorage,
          OrNA(db.storageType), db.multiAz,
          if db.endpoint.Some? then OrNA(db.endpoint.value.address) else "N/A",
          if db.endpoint.Some? then db.endpoint.value.port else None,
          OrNA(db.vpcId))
  }

  function DbRows(dbs: seq<DbInstance>): (r: seq<DbRow>)
    ensures |r| == |dbs| && forall i :: 0 <= i < |dbs| ==> r[i] == DbRowOf(dbs[i])
  {
    if dbs == [] then [] else DbRows(dbs[..|dbs| - 1]) + [DbRowOf(dbs[|dbs| - 1])]
  }

  datatype RdsResult =
    | DatabasesListed(instances: seq<DbRow>, count: int, regionLabel: string, roleLabel: string)
    | DatabasesFailed(message: string, regionLabel: string, roleLabel: string)

  /** `list_rds_instances(role_name, region)` */
  function ListRdsInstances(roleName: Option<string>, region: Option<string>, answer: Answer<seq<DbInstance>>): (r: RdsResult)
    ensures r.regionLabel == Label(region) && r.roleLabel == Label(roleName)
    ensures r.DatabasesListed? <==> answer.Ok?
    ensures answer.Ok? ==> r.instances == DbRows(answer.value) && r.count == |answer.value|
    ensures answer.Err? ==> r.message == "Failed to list RDS instances: " + answer.error
  {
    match answer
    case Ok(dbs) => DatabasesListed(DbRows(dbs), |DbRows(dbs)|, Label(region), Label(roleName))
    case Err(text) => DatabasesFailed("Failed to list RDS instances: " + text, Label(region), Label(roleName))
  }

  // ---------------------------------------------------------------------
  // get_aws_regions

  datatype RegionsResult =
    | RegionsListed(regions: seq<string>, count: int, service: string, roleLabel: string)
    | RegionsFailed(message: string, service: string, roleLabel: string)

  /**
   * `get_aws_regions(role_name, service)`. `answer` is the region names from
   * `describe_regions` when the service is `ec2`, and the session's available
   * regions otherwise. The names come back sorted, with their count.
   */
  function GetAwsRegions(roleName: Option<string>, service: string, answer: Answer<seq<string>>): (r: RegionsResult)
    ensures r.service == service && r.roleLabel == Label(roleName)
    ensures r.RegionsListed? <==> answer.Ok?
    ensures answer.Err? ==> r.message == "Failed to get AWS regions: " + answer.error
  {
    match answer
    case Ok(names) => RegionsListed(SortStrings(names), |names|, service, Label(roleName))
    case Err(text) => RegionsFailed("Failed to get AWS regions: " + text, service, Label(roleName))
  }

  /** The regions come back in code-point order, as a permutation of the names, and `count` is their number. */
  lemma RegionsSorted(roleName: Option<string>, service: string, answer: Answer<seq<string>>)
    requires answer.Ok?
    ensures var r := GetAwsRegions(roleName, service, answer);
      SortedStrings(r.regions) && multiset(r.regions) == multiset(answer.value) && r.count == |r.regions|
  {
    SortStringsCorrect(answer.value);
    var r := GetAwsRegions(roleName, service, answer);
    assert |r.regions| == |multiset(r.regions)|;
  }

  // ---------------------------------------------------------------------
  // Counting by key

  /** `record.get(key, "unknown")` */
  function KeyOrUnknown(k: Option<string>): string {
    k.GetOr("unknown")
  }

  function Keys(ks: seq<Option<string>>): (r: seq<string>)
    ensures |r| == |ks| && forall i :: 0 <= i < |ks| ==> r[i] == KeyOrUnknown(ks[i])
  {
    if ks == [] then [] else Keys(ks[..|ks| - 1]) + [KeyOrUnknown(ks[|ks| - 1])]
  }

  /** `counts[k] = counts.get(k, 0) + 1` for each key in turn. */
  function CountsOf(ks: seq<string>): map<string, nat> {
    if ks == [] then map[]
    else
      var m := CountsOf(ks[..|ks| - 1]);
      var k := ks[|ks| - 1];
      m[k := (if k in m then m[k] else 0) + 1]
  }

  /** The counting loop of `get_account_summary`. */
  method CountByKey(ks: seq<Option<string>>) returns (counts: map<string, nat>)
    ensures counts == CountsOf(Keys(ks))
  {
    counts := map[];
    for i := 0 to |ks|
      invariant counts == CountsOf(Keys(ks[..i]))
    {
      var k := KeyOrUnknown(ks[i]);
      CountStep(ks, i);
      counts := counts[k := (if k in counts then counts[k] else 0) + 1];
    }
    assert ks[..|ks|] == ks;
  }

  /** One more key adds one to its count and leaves the others alone. */
  lemma CountStep(ks: seq<Option<string>>, i: nat)
    requires i < |ks|
    ensures var m := CountsOf(Keys(ks[..i]));
      var k := KeyOrUnknown(ks[i]);
      CountsOf(Keys(ks[..i + 1])) == m[k := (if k in m then m[k] else 0) + 1]
  {
    TakeStep(ks, i);
    AppendInit(Keys(ks[..i]), KeyOrUnknown(ks[i]));
  }

  /** A key is counted iff it occurs, and its count is its number of occurrences. */
  lemma {:induction false} CountsAreOccurrences(ks: seq<string>)
    ensures forall k :: k in CountsOf(ks) <==> k in ks
    ensures forall k :: k in CountsOf(ks) ==> CountsOf(ks)[k] == multiset(ks)[k]
  {
    if ks != [] {
      var init := ks[..|ks| - 1];
      CountsAreOccurrences(init);
      assert ks == init + [ks[|ks| - 1]];
    }
  }

  /** An arbitrary key of a non-empty map. */
  ghost function AnyKey(m: map<string, nat>): (k: string)
    requires m != map[]
    ensures k in m
  {
    var k :| k in m; k
  }

  /** The sum of the counts in a map. */
  ghost function SumValues(m: map<string, nat>): nat
    decreases |m|
  {
    if m == map[] then 0 else m[AnyKey(m)] + SumValues(m - {AnyKey(m)})
  }

  /** The sum does not depend on which key is taken first. */
  lemma {:induction false} SumValuesRemove(m: map<string, nat>, k: string)
    requires k in m
    ensures SumValues(m) == m[k] + SumValues(m - {k})
    decreases |m|
  {
    var j := AnyKey(m);
    if j != k {
      SumValuesRemove(m - {j}, k);
      SumValuesRemove(m - {k}, j);
      assert m - {j} - {k} == m - {k} - {j};
    }
  }

  /** The counts add up to the number of records: `sum(instances_by_state.values()) == total_instances`. */
  lemma {:induction false} CountsSum(ks: seq<string>)
    ensures SumValues(CountsOf(ks)) == |ks|
  {
    if ks != [] {
      var init := ks[..|ks| - 1];
      var k := ks[|ks| - 1];
      var m := CountsOf(init);
      var m' := CountsOf(ks);
      CountsSum(init);
      SumValuesRemove(m', k);
      if k in m {
        SumValuesRemove(m, k);
        assert m' - {k} == m - {k};
      } else {
        assert m' - {k} == m;
      }
    }
  }

  // ---------------------------------------------------------------------
  // get_account_summary

  datatype Counts = Counts(total: int, byKey: map<string, nat>)

  /** The sections of the summary; each is present only when its tool succeeded. */
  datatype Summary = Summary(identity: Option<CallerIdentity>,
                             bucketCount: Option<int>, ec2: Option<Counts>, rds: Option<Counts>)

  datatype SummaryResult = SummaryResult(summary: Summary, roleLabel: string)

  function StatesOf(rows: seq<InstanceRow>): (r: seq<Option<string>>)
    ensures |r| == |rows| && forall i :: 0 <= i < |rows| ==> r[i] == Some(rows[i].state)
  {
    if rows == [] then [] else StatesOf(rows[..|rows| - 1]) + [Some(rows[|rows| - 1].state)]
  }

  function EnginesOf(rows: seq<DbRow>): (r: seq<Option<string>>)
    ensures |r| == |rows| && forall i :: 0 <= i < |rows| ==> r[i] == Some(rows[i].engine)
  {
    if rows == [] then [] else EnginesOf(rows[..|rows| - 1]) + [Some(rows[|rows| - 1].engine)]
  }

  /**
   * `get_account_summary(role_name)`: calls the four tools with the role and
   * default region, keeping a section only for a tool that succeeded, with
   * EC2 instances counted by state and databases by engine.
   */
  method AccountSummary(roleName: Option<string>, identityAnswer: Answer<CallerIdentity>,
                        bucketsAnswer: Answer<seq<string>>, ec2Answer: Answer<seq<seq<Ec2Instance>>>,
                        rdsAnswer: Answer<seq<DbInstance>>) returns (r: SummaryResult)
    ensures r.roleLabel == Label(roleName)
    ensures r.summary.identity.Some? <==> identityAnswer.Ok?
    ensures identityAnswer.Ok? ==>
      r.summary.identity.value == identityAnswer.value
    ensures r.summary.bucketCount.Some? <==> bucketsAnswer.Ok?
    ensures bucketsAnswer.Ok? ==> r.summary.bucketCount.value == |bucketsAnswer.value|
    ensures r.summary.ec2.Some? <==> ec2Answer.Ok?
    ensures ec2Answer.Ok? ==> var rows := AllRows(ec2Answer.value);
      r.summary.ec2.value == Counts(|rows|, CountsOf(Keys(StatesOf(rows))))
    ensures r.summary.rds.Some? <==> rdsAnswer.Ok?
    ensures rdsAnswer.Ok? ==> var rows := DbRows(rdsAnswer.value);
      r.summary.rds.value == Counts(|rows|, CountsOf(Keys(EnginesOf(rows))))
  {
    var summary := Summary(None, None, None, None);
    var identity := GetCallerIdentity(roleName, identityAnswer);
    if identity.IdentityFound? {
      summary := summary.(identity := Some(CallerIdentity(identity.account, identity.userId, identity.arn)));
    }
    var buckets := ListS3Buckets(roleName, bucketsAnswer);
    if buckets.BucketsListed? {
      summary := summary.(bucketCount := Some(buckets.count));
    }
    var ec2, _ := ListEc2Instances(roleName, None, None, ec2Answer);
    if ec2.InstancesListed? {
      var byState := CountByKey(StatesOf(ec2.instances));
      summary := summary.(ec2 := Some(Counts(|ec2.instances|, byState)));
    }
    var rds := ListRdsInstances(roleName, None, rdsAnswer);
    if rds.DatabasesListed? {
      var byEngine := CountByKey(EnginesOf(rds.instances));
      summary := summary.(rds := Some(Counts(|rds.instances|, byEngine)));
    }
    return SummaryResult(summary, Label(roleName));
  }

  /** In the EC2 section the counts by state add up to `total_instances`. */
  lemma SummaryCountsAddUp(rows: seq<InstanceRow>)
    ensures SumValues(CountsOf(Keys(StatesOf(rows)))) == |rows|
  {
    CountsSum(Keys(StatesOf(rows)));
  }

  /** In the EC2 section a state is counted iff some instance is in it. */
  lemma SummaryCountsStates(rows: seq<InstanceRow>)
    ensures forall s :: s in CountsOf(Keys(StatesOf(rows))) <==> exists i :: 0 <= i < |rows| && rows[i].state == s
  {
    var ks := Keys(StatesOf(rows));
    CountsAreOccurrences(ks);
    StateKeys(rows);
  }

  /** The keys counted for the EC2 section are the instances' states, in order. */
  lemma StateKeys(rows: seq<InstanceRow>)
    ensures var ks := Keys(StatesOf(rows));
      forall s :: s in ks <==> exists i :: 0 <= i < |rows| && rows[i].state == s
  {
    var ks := Keys(StatesOf(rows));
    assert forall i :: 0 <= i < |rows| ==> ks[i] == rows[i].state;
  }

  // ---------------------------------------------------------------------
  // test_aws_connectivity

  /** One entry of `tests`; `accountId` is the STS entry's `account_id`, and `None` in the entries that have no such key. */
  datatype TestEntry = TestEntry(status: string, message: string, accountId: Option<string>)

  predicate Succeeded(t: TestEntry) {
    t.status == "success"
  }

  function StsEntry(identity: IdentityResult): (t: TestEntry)
    ensures Succeeded(t) <==> identity.IdentityFound?
    ensures identity.IdentityFound? ==>
      t.message == "Successfully retrieved caller identity" && t.accountId == identity.account
    ensures identity.IdentityFailed? ==> t.status == "error" && t.message == identity.message && t.accountId == None
  {
    match identity
    case IdentityFound(_, _, _, _) => TestEntry("success", "Successfully retrieved caller identity", identity.account)
    case IdentityFailed(message, _) => TestEntry("error", message, None)
  }

  function S3Entry(buckets: BucketsResult): (t: TestEntry)
    ensures Succeeded(t) <==> buckets.BucketsListed?
  {
    match buckets
    case BucketsListed(_, count, _) => TestEntry("success", "Found " + IntToString(count) + " buckets", None)
    case BucketsFailed(message, _) => TestEntry("error", message, None)
  }

  function Ec2Entry(ec2: Ec2Result): (t: TestEntry)
    ensures Succeeded(t) <==> ec2.InstancesListed?
  {
    match ec2
    case InstancesListed(_, count, _, _, _) => TestEntry("success", "Found " + IntToString(count) + " instances", None)
    case InstancesFailed(message, _, _) => TestEntry("error", message, None)
  }

  /** `sum(1 for test in tests if test["status"] == "success")` */
  function SuccessCount(tests: seq<TestEntry>): (k: nat)
    ensures k <= |tests|
    ensures k == |tests| <==> forall i :: 0 <= i < |tests| ==> Succeeded(tests[i])
    ensures k == 0 <==> forall i :: 0 <= i < |tests| ==> !Succeeded(tests[i])
  {
    if tests == [] then 0
    else
      var rest := SuccessCount(tests[1..]);
      assert forall i :: 1 <= i < |tests| ==> tests[i] == tests[1..][i - 1];
      (if Succeeded(tests[0]) then 1 else 0) + rest
  }

  /** `overall_status`: `success` when every test succeeded, `partial` when some did, `error` otherwise. */
  function OverallStatus(tests: seq<TestEntry>): (s: string)
    ensures s == "success" <==> forall i :: 0 <= i < |tests| ==> Succeeded(tests[i])
    ensures s == "partial" <==>
      (exists i :: 0 <= i < |tests| && Succeeded(tests[i])) && (exists i :: 0 <= i < |tests| && !Succeeded(tests[i]))
    ensures s == "error" <==> |tests| > 0 && forall i :: 0 <= i < |tests| ==> !Succeeded(tests[i])
  {
    var k := SuccessCount(tests);
    if k == |tests| then "success" else if k > 0 then "partial" else "error"
  }

  /** `success_rate`: `"<successes>/<tests>"`. */
  function SuccessRate(tests: seq<TestEntry>): string {
    IntToString(SuccessCount(tests)) + "/" + IntToString(|tests|)
  }

  /** The success rate reads back as the number of successes and the number of tests. */
  lemma SuccessRateReadsBack(tests: seq<TestEntry>)
    ensures var parts := SplitOn(SuccessRate(tests), '/');
      |parts| == 2 && ParseInt(parts[0]) == Some(SuccessCount(tests) as int) && ParseInt(parts[1]) == Some(|tests|)
  {
    var a := IntToString(SuccessCount(tests));
    var b := IntToString(|tests|);
    SplitAtSlash(a, b);
    ParseIntRendered(SuccessCount(tests));
    ParseIntRendered(|tests|);
  }

  lemma {:induction false} SplitAtSlash(a: string, b: string)
    requires '/' !in a && '/' !in b
    ensures SplitOn(a + "/" + b, '/') == [a, b]
  {
    if a == [] {
      assert a + "/" + b == ['/'] + b;
      NoSeparator(b, '/');
    } else {
      SplitAtSlash(a[1..], b);
      assert (a + "/" + b)[1..] == a[1..] + "/" + b;
      assert a == [a[0]] + a[1..];
    }
  }

  lemma {:induction false} NoSeparator(s: string, sep: char)
    requires sep !in s
    ensures SplitOn(s, sep) == [s]
  {
    if s != [] {
      NoSeparator(s[1..], sep);
      assert s == [s[0]] + s[1..];
    }
  }

  /** One named entry of `tests`. */
  datatype NamedTest = NamedTest(name: string, entry: TestEntry)

  datatype ConnectivityReport = ConnectivityReport(roleLabel: string, tests: seq<NamedTest>,
                                                   overallStatus: string, successRate: string)

  /** The roll-up of three tests: all succeeded, none did, or some did. */
  lemma OverallOfThree(a: TestEntry, b: TestEntry, c: TestEntry)
    ensures OverallStatus([a, b, c]) == "success" <==> Succeeded(a) && Succeeded(b) && Succeeded(c)
    ensures OverallStatus([a, b, c]) == "error" <==> !Succeeded(a) && !Succeeded(b) && !Succeeded(c)
    ensures OverallStatus([a, b, c]) == "partial" <==>
      !(Succeeded(a) && Succeeded(b) && Succeeded(c)) && (Succeeded(a) || Succeeded(b) || Succeeded(c))
  {
    var entries := [a, b, c];
    assert entries[0] == a && entries[1] == b && entries[2] == c;
    assert forall i :: 0 <= i < 3 ==> entries[i] in {a, b, c};
  }

  /** `test_aws_connectivity(role_name)`: the STS, S3 and EC2 tests with the default region, then the roll-up. */
  method TestAwsConnectivity(roleName: Option<string>, identityAnswer: Answer<CallerIdentity>,
                             bucketsAnswer: Answer<seq<string>>, ec2Answer: Answer<seq<seq<Ec2Instance>>>)
    returns (r: ConnectivityReport)
    ensures r.roleLabel == Label(roleName)
    ensures |r.tests| == 3 && r.tests[0].name == "sts" && r.tests[1].name == "s3" && r.tests[2].name == "ec2"
    ensures Succeeded(r.tests[0].entry) <==> identityAnswer.Ok?
    ensures Succeeded(r.tests[1].entry) <==> bucketsAnswer.Ok?
    ensures Succeeded(r.tests[2].entry) <==> ec2Answer.Ok?
    ensures r.overallStatus == "success" <==> identityAnswer.Ok? && bucketsAnswer.Ok? && ec2Answer.Ok?
    ensures r.overallStatus == "error" <==> identityAnswer.Err? && bucketsAnswer.Err? && ec2Answer.Err?
    ensures r.overallStatus == "partial" <==>
      !(identityAnswer.Ok? && bucketsAnswer.Ok? && ec2Answer.Ok?) && (identityAnswer.Ok? || bucketsAnswer.Ok? || ec2Answer.Ok?)
    ensures r.successRate == SuccessRate([r.tests[0].entry, r.tests[1].entry, r.tests[2].entry])
  {
    var sts := StsEntry(GetCallerIdentity(roleName, identityAnswer));
    var s3 := S3Entry(ListS3Buckets(roleName, bucketsAnswer));
    var ec2Result, _ := ListEc2Instances(roleName, None, None, ec2Answer);
    var ec2 := Ec2Entry(ec2Result);
    var entries := [sts, s3, ec2];
    OverallOfThree(sts, s3, ec2);
    r := ConnectivityReport(Label(roleName), [NamedTest("sts", sts), NamedTest("s3", s3), NamedTest("ec2", ec2)],
                            OverallStatus(entries), SuccessRate(entries));
  }
}

=== FILE: cost_tools.dfy ===
/**
 * The Cost Explorer tools: the date ranges they ask for, the request and
 * filter they build, the envelope they answer with, and the loops that
 * classify days as weekend or weekday and pick the most expensive linked
 * account. Both copies of the tools behave alike and share this model.
 *
 * The Cost Explorer call is a parameter (`ApiOutcome`); amounts are the
 * reals the `Amount` strings denote; today's date is a parameter.
 */
module CostTools {
  import opened Wrappers
  import opened Text
  import opened Calendar
  import opened Seqs

  // ---------------------------------------------------------------------
  // Requests

  /** An entry of `GroupBy`: `{"Type": kind, "Key": key}`. */
  datatype GroupKey = GroupKey(kind: string, key: string)

  /** A Cost Explorer filter expression. */
  datatype Filter =
    | Dimensions(dimension: string, values: seq<string>)
    | Tags(tagKey: string, tagValues: seq<string>)
    | Not(operand: Filter)
    | And(operands: seq<Filter>)
      /** The empty dictionary `{}`, which Python treats as false. */
    | NoCondition

  /** The keyword arguments of `get_cost_and_usage`; an absent key is `None`. */
  datatype CostRequest = CostRequest(start: string, end: string, granularity: string, metrics: seq<string>,
                                     groupBy: Option<seq<GroupKey>>, filter: Option<Filter>)

  /** `if group_by:` */
  predicate GroupByGiven(groupBy: Option<seq<GroupKey>>) {
    groupBy.Some? && groupBy.value != []
  }

  /** `if filter_expression:` */
  predicate FilterGiven(filter: Option<Filter>) {
    filter.Some? && filter.value != NoCondition
  }

  const DefaultMetrics: seq<string> := ["UnblendedCost"]

  /** The parameters `get_cost_for_period` sends: `GroupBy` and `Filter` only when given and non-empty. */
  function PeriodRequest(start: string, end: string, granularity: string, metrics: seq<string>,
                         groupBy: Option<seq<GroupKey>>, filter: Option<Filter>): (r: CostRequest)
    ensures r.start == start && r.end == end && r.granularity == granularity && r.metrics == metrics
    ensures r.groupBy.Some? <==> GroupByGiven(groupBy)
    ensures r.groupBy.Some? ==> r.groupBy == groupBy
    ensures r.filter.Some? <==> FilterGiven(filter)
    ensures r.filter.Some? ==> r.filter == filter
  {
    CostRequest(start, end, granularity, metrics,
                if GroupByGiven(groupBy) then groupBy else None,
                if FilterGiven(filter) then filter else None)
  }

  // ---------------------------------------------------------------------
  // Responses and the envelope

  /** A metric's name and amount. */
  datatype Metric = Metric(name: string, amount: real)
  /** The metrics of a period or group, in the order of the response's keys. */
  type Metrics = seq<Metric>

  /** An entry of `Groups`. */
  datatype Group = Group(keys: seq<string>, metrics: Metrics)

  /** An entry of `ResultsByTime`; `total` is `None` when the `Total` key is absent. */
  datatype PeriodResult = PeriodResult(start: string, end: string, total: Option<Metrics>, groups: seq<Group>)

  /** What the Cost Explorer call does with a request. */
  datatype ApiOutcome = Answered(results: seq<PeriodResult>) | Raised(text: string)

  /** The dictionary `get_cost_for_period` returns. */
  datatype Envelope =
    | Success(results: seq<PeriodResult>, periodStart: string, periodEnd: string)
    | Failure(message: string, periodStart: string, periodEnd: string)

  /** `get_cost_for_period`: success carries the data, failure the message; both echo the requested period. */
  function CostForPeriod(request: CostRequest, outcome: ApiOutcome): (r: Envelope)
    ensures r.periodStart == request.start && r.periodEnd == request.end
    ensures r.Success? <==> outcome.Answered?
    ensures r.Success? ==> r.results == outcome.results
    ensures r.Failure? ==> r.message == "Failed to get cost data: " + outcome.text
  {
    match outcome
    case Answered(results) => Success(results, request.start, request.end)
    case Raised(text) => Failure("Failed to get cost data: " + text, request.start, request.end)
  }

  // ---------------------------------------------------------------------
  // Metric selection

  /** `name in metrics` and its amount. */
  function Lookup(ms: Metrics, name: string): Option<real> {
    if ms == [] then None
    else if ms[0].name == name then Some(ms[0].amount)
    else Lookup(ms[1..], name)
  }

  /** A metric is found iff some entry carries its name, and the amount found is the first such entry's. */
  lemma {:induction false} LookupFound(ms: Metrics, name: string)
    ensures Lookup(ms, name).Some? <==> exists i :: 0 <= i < |ms| && ms[i].name == name
    ensures Lookup(ms, name).Some? ==>
      exists i :: 0 <= i < |ms| && ms[i] == Metric(name, Lookup(ms, name).value) && forall j :: 0 <= j < i ==> ms[j].name != name
  {
    if ms != [] && ms[0].name != name {
      LookupFound(ms[1..], name);
      if Lookup(ms, name).Some? {
        var i :| 0 <= i < |ms[1..]| && ms[1..][i] == Metric(name, Lookup(ms, name).value)
          && forall j :: 0 <= j < i ==> ms[1..][j].name != name;
        assert ms[i + 1] == ms[1..][i];
        assert forall j :: 0 <= j < i + 1 ==> ms[j].name != name by {
          forall j | 0 <= j < i + 1 ensures ms[j].name != name {
            if j > 0 { assert ms[j] == ms[1..][j - 1]; }
          }
        }
      } else {
        forall i | 0 <= i < |ms| ensures ms[i].name != name {
          if i > 0 { assert ms[i] == ms[1..][i - 1]; }
        }
      }
    }
  }

  /**
   * The cost of a period or group: `UnblendedCost`, else `BlendedCost`, else
   * `NetUnblendedCost`, else the first metric; `None` where the empty metrics
   * make Python raise `IndexError`.
   */
  function SelectCost(ms: Metrics): (r: Option<real>)
    ensures r.Some? <==> ms != []
    ensures Lookup(ms, "UnblendedCost").Some? ==> r == Lookup(ms, "UnblendedCost")
  {
    if Lookup(ms, "UnblendedCost").Some? then Lookup(ms, "UnblendedCost")
    else if Lookup(ms, "BlendedCost").Some? then Lookup(ms, "BlendedCost")
    else if Lookup(ms, "NetUnblendedCost").Some? then Lookup(ms, "NetUnblendedCost")
    else if ms != [] then Some(ms[0].amount)
    else None
  }

  /**
   * The total of a period in the trend: 0 when `Total` is absent or empty;
   * otherwise the first of `UnblendedCost`, `BlendedCost`,
   * `NetUnblendedCost`, `NetAmortizedCost`, else the first metric.
   */
  function TrendTotal(total: Option<Metrics>): (r: real)
    ensures total.None? || total.value == [] ==> r == 0.0
    ensures total.Some? && Lookup(total.value, "UnblendedCost").Some? ==> r == Lookup(total.value, "UnblendedCost").value
  {
    if total.None? || total.value == [] then 0.0
    else
      var ms := total.value;
      if Lookup(ms, "UnblendedCost").Some? then Lookup(ms, "UnblendedCost").value
      else if Lookup(ms, "BlendedCost").Some? then Lookup(ms, "BlendedCost").value
      else if Lookup(ms, "NetUnblendedCost").Some? then Lookup(ms, "NetUnblendedCost").value
      else if Lookup(ms, "NetAmortizedCost").Some? then Lookup(ms, "NetAmortizedCost").value
      else ms[0].amount
  }

  /** The first metric's amount is used only when none of the named metrics is present. */
  lemma MetricPriority(ms: Metrics)
    requires ms != []
    ensures Lookup(ms, "UnblendedCost").None? && Lookup(ms, "BlendedCost").Some? ==> SelectCost(ms) == Lookup(ms, "BlendedCost")
    ensures Lookup(ms, "UnblendedCost").None? && Lookup(ms, "BlendedCost").None? && Lookup(ms, "NetUnblendedCost").None?
      ==> SelectCost(ms) == Some(ms[0].amount)
  {
  }

  // ---------------------------------------------------------------------
  // Dates

  datatype DateError =
    | InvalidDate  // `ValueError` from `date(...)`
    | Overflow     // `OverflowError` from date arithmetic

  /** `strftime("%B")` in the C locale. */
  function MonthName(m: int): string
    requires 1 <= m <= 12
  {
    ["January", "February", "March", "April", "May", "June", "July",
     "August", "September", "October", "November", "December"][m - 1]
  }

  /** The dictionary `get_current_date_info` returns. */
  datatype DateInfo = DateInfo(currentYear: int, currentMonth: int, currentMonthName: string,
                               firstDayCurrentMonth: string, todayFormatted: string, yesterdayFormatted: string,
                               firstDayPreviousMonth: string, lastDayPreviousMonth: string)

  /**
   * `get_current_date_info()` for the date `today`: the first day of the
   * month, the day before it, the first day of that day's month, and
   * yesterday. Only the first month of year 1 has no previous day.
   */
  function CurrentDateInfo(today: Date): (r: Result<DateInfo, DateError>)
    requires ValidDate(today)
    ensures r.Ok? <==> !(today.year == MinYear && today.month == 1)
    ensures r.Ok? ==> (r.value.currentYear == today.year && r.value.currentMonth == today.month
                       && r.value.todayFormatted == FormatDate(today))
  {
    var first := FirstOfMonth(today);
    match PrevDay(first)
    case None => Err(Overflow)
    case Some(lastPrevious) =>
      match PrevDay(today)
      case None => Err(Overflow)
      case Some(yesterday) =>
        Ok(DateInfo(today.year, today.month, MonthName(today.month),
                    FormatDate(first), FormatDate(today), FormatDate(yesterday),
                    FormatDate(FirstOfMonth(lastPrevious)), FormatDate(lastPrevious)))
  }

  /**
   * Read back, the dates of `get_current_date_info` are the first day of the
   * current month, the last and first days of the previous month, and the
   * day whose ordinal is one less than today's.
   */
  lemma DateInfoMeaning(today: Date)
    requires ValidDate(today) && CurrentDateInfo(today).Ok?
    ensures var info := CurrentDateInfo(today).value;
      var YearMonth(py, pm) := PreviousMonth(today.year, today.month);
      ParseIsoDate(info.firstDayCurrentMonth) == Some(Date(today.year, today.month, 1))
      && ParseIsoDate(info.lastDayPreviousMonth) == Some(Date(py, pm, DaysInMonth(py, pm)))
      && ParseIsoDate(info.firstDayPreviousMonth) == Some(Date(py, pm, 1))
      && ParseIsoDate(info.yesterdayFormatted).Some?
      && ToOrdinal(ParseIsoDate(info.yesterdayFormatted).value) == ToOrdinal(today) - 1
  {
    var first := FirstOfMonth(today);
    DayBeforeFirstOfMonth(today);
    var YearMonth(py, pm) := PreviousMonth(today.year, today.month);
    var last := Date(py, pm, DaysInMonth(py, pm));
    var yesterday := PrevDay(today).value;
    PrevDayOrdinal(today);
    FormatParseRoundTrip(first);
    FormatParseRoundTrip(last);
    FormatParseRoundTrip(FirstOfMonth(last));
    FormatParseRoundTrip(yesterday);
  }

  /**
   * `get_monthly_cost(year, month, ...)`: the request for the first day of
   * the month up to the first day of the next month, exclusive, at DAILY
   * granularity.
   */
  function MonthlyRequest(year: int, month: int, groupBy: Option<seq<GroupKey>>, filter: Option<Filter>)
    : (r: Result<CostRequest, DateError>)
    ensures r.Ok? <==> MinYear <= year <= MaxYear && 1 <= month <= 12 && !(year == MaxYear && month == 12)
    ensures r.Err? && MinYear <= year <= MaxYear && 1 <= month <= 12 ==> r.error == Overflow
    ensures r.Ok? ==> r.value.granularity == "DAILY" && r.value.metrics == DefaultMetrics
  {
    if !(MinYear <= year <= MaxYear && 1 <= month <= 12) then Err(InvalidDate)
    else
      match FirstOfNextMonth(year, month)
      case None => Err(Overflow)
      case Some(end) =>
        Ok(PeriodRequest(FormatDate(Date(year, month, 1)), FormatDate(end), "DAILY", DefaultMetrics, groupBy, filter))
  }

  /**
   * The month's request starts on its first day and ends, exclusively, on
   * the first day of the next month (January of the next year after
   * December), so the range holds exactly the month's days.
   */
  lemma MonthlyRange(year: int, month: int, groupBy: Option<seq<GroupKey>>, filter: Option<Filter>)
    requires MonthlyRequest(year, month, groupBy, filter).Ok?
    ensures var q := MonthlyRequest(year, month, groupBy, filter).value;
      var end := if month == 12 then Date(year + 1, 1, 1) else Date(year, month + 1, 1);
      ParseIsoDate(q.start) == Some(Date(year, month, 1))
      && ParseIsoDate(q.end) == Some(end)
      && ToOrdinal(end) - ToOrdinal(Date(year, month, 1)) == DaysInMonth(year, month)
  {
    MonthRangeLength(year, month);
    FormatParseRoundTrip(Date(year, month, 1));
    FormatParseRoundTrip(FirstOfNextMonth(year, month).value);
  }

  /** `get_current_month_cost(filter)` */
  function CurrentMonthRequest(today: Date, filter: Option<Filter>): (r: Result<CostRequest, DateError>)
    requires ValidDate(today)
    ensures CurrentDateInfo(today).Ok? ==> r == MonthlyRequest(today.year, today.month, None, filter)
  {
    match CurrentDateInfo(today)
    case Err(e) => Err(e)
    case Ok(info) => MonthlyRequest(info.currentYear, info.currentMonth, None, filter)
  }

  /** `get_previous_month_cost(filter)`: the monthly request for the month before today's. */
  function PreviousMonthRequest(today: Date, filter: Option<Filter>): (r: Result<CostRequest, DateError>)
    requires ValidDate(today)
    ensures CurrentDateInfo(today).Ok? ==>
      r == MonthlyRequest(PreviousMonth(today.year, today.month).year, PreviousMonth(today.year, today.month).month, None, filter)
  {
    match CurrentDateInfo(today)
    case Err(e) => Err(e)
    case Ok(info) =>
      var YearMonth(py, pm) := PreviousMonth(info.currentYear, info.currentMonth);
      MonthlyRequest(py, pm, None, filter)
  }

  /**
   * The two ways of naming the previous month agree: the previous month's
   * request starts on the first day `get_current_date_info` reports for the
   * previous month, and ends on its first day of the current month.
   */
  lemma PreviousMonthAgrees(today: Date, filter: Option<Filter>)
    requires ValidDate(today) && CurrentDateInfo(today).Ok?
    ensures PreviousMonthRequest(today, filter).Ok?
    ensures PreviousMonthRequest(today, filter).value.start == CurrentDateInfo(today).value.firstDayPreviousMonth
    ensures PreviousMonthRequest(today, filter).value.end == CurrentDateInfo(today).value.firstDayCurrentMonth
  {
    DayBeforeFirstOfMonth(today);
    var YearMonth(py, pm) := PreviousMonth(today.year, today.month);
    MonthRangeLength(py, pm);
  }

  /**
   * `get_current_month_cost_excluding_days(k)`: from the first day of the
   * month up to `today - k + 1`, exclusive.
   */
  function ExcludingDaysRequest(today: Date, daysToExclude: int, filter: Option<Filter>): (r: Result<CostRequest, DateError>)
    requires ValidDate(today)
    ensures r.Err? ==> r.error == Overflow
    ensures r.Ok? ==> r.value.start == FormatDate(FirstOfMonth(today)) && r.value.granularity == "DAILY"
    ensures r.Ok? <==> AddDays(today, -daysToExclude).Some? && NextDay(AddDays(today, -daysToExclude).value).Some?
    ensures r.Ok? ==> r.value.end == FormatDate(NextDay(AddDays(today, -daysToExclude).value).value)
  {
    match AddDays(today, -daysToExclude)
    case None => Err(Overflow)
    case Some(last) =>
      match NextDay(last)
      case None => Err(Overflow)
      case Some(end) =>
        Ok(PeriodRequest(FormatDate(FirstOfMonth(today)), FormatDate(end), "DAILY", DefaultMetrics, None, filter))
  }

  /** The exclusive end of the shortened month is the day whose ordinal is `today - k + 1`. */
  lemma ExcludingDaysEnd(today: Date, daysToExclude: int, filter: Option<Filter>)
    requires ValidDate(today) && ExcludingDaysRequest(today, daysToExclude, filter).Ok?
    ensures var q := ExcludingDaysRequest(today, daysToExclude, filter).value;
      ParseIsoDate(q.start) == Some(FirstOfMonth(today))
      && ParseIsoDate(q.end).Some?
      && ToOrdinal(ParseIsoDate(q.end).value) == ToOrdinal(today) - daysToExclude + 1
  {
    var end := NextDay(AddDays(today, -daysToExclude).value).value;
    ShiftedNextOrdinal(today, -daysToExclude);
    RangeParses(ExcludingDaysRequest(today, daysToExclude, filter).value, FirstOfMonth(today), end);
  }

  /** A request whose bounds are formatted dates reads those dates back. */
  lemma RangeParses(q: CostRequest, start: Date, end: Date)
    requires ValidDate(start) && ValidDate(end)
    requires q.start == FormatDate(start) && q.end == FormatDate(end)
    ensures ParseIsoDate(q.start) == Some(start) && ParseIsoDate(q.end) == Some(end)
  {
    FormatParseRoundTrip(start);
    FormatParseRoundTrip(end);
  }

  /** The day after `d + k` has ordinal `ordinal(d) + k + 1`. */
  lemma ShiftedNextOrdinal(d: Date, k: int)
    requires ValidDate(d) && AddDays(d, k).Some? && NextDay(AddDays(d, k).value).Some?
    ensures ToOrdinal(NextDay(AddDays(d, k).value).value) == ToOrdinal(d) + k + 1
  {
    AddDaysOrdinal(d, k);
    NextDayOrdinal(AddDays(d, k).value);
  }

  /** The trend's range: from the first day of a month before the previous one, back `(months - 2) * 30` days, up to tomorrow. */
  function TrendRequest(today: Date, months: int, granularity: string, filter: Option<Filter>): (r: Result<CostRequest, DateError>)
    requires ValidDate(today)
    ensures r.Ok? ==> r.value.groupBy == Some([GroupKey("DIMENSION", "SERVICE")])
    ensures r.Ok? ==> ParseIsoDate(r.value.start).Some? && ParseIsoDate(r.value.start).value.day == 1
    ensures r.Ok? ==> NextDay(today).Some? && ParseIsoDate(r.value.end) == NextDay(today)
  {
    match PrevDay(FirstOfMonth(today))
    case None => Err(Overflow)
    case Some(lastPrevious) =>
      match PrevDay(FirstOfMonth(lastPrevious))
      case None => Err(Overflow)
      case Some(beforePrevious) =>
        match AddDays(FirstOfMonth(beforePrevious), -((months - 2) * 30))
        case None => Err(Overflow)
        case Some(back) =>
          match NextDay(today)
          case None => Err(Overflow)
          case Some(end) =>
            var start := FirstOfMonth(back);
            FormatParseRoundTrip(start);
            FormatParseRoundTrip(end);
            Ok(PeriodRequest(FormatDate(start), FormatDate(end), granularity, DefaultMetrics,
                             Some([GroupKey("DIMENSION", "SERVICE")]), filter))
  }

  /**
   * The trend starts on the first of the month holding the day `(months - 2) * 30`
   * days before the first of the month two months back; for two months, on that first.
   */
  lemma TrendStart(today: Date, months: int, granularity: string, filter: Option<Filter>)
    requires ValidDate(today) && TrendRequest(today, months, granularity, filter).Ok?
    ensures var YearMonth(y1, m1) := PreviousMonth(today.year, today.month);
      var YearMonth(y2, m2) := PreviousMonth(y1, m1);
      var s := ParseIsoDate(TrendRequest(today, months, granularity, filter).value.start).value;
      ValidDate(Date(y2, m2, 1)) && ValidDate(s) && s.day == 1
      && ToOrdinal(s) <= ToOrdinal(Date(y2, m2, 1)) - (months - 2) * 30 < ToOrdinal(s) + DaysInMonth(s.year, s.month)
    ensures months == 2 ==>
      var YearMonth(y1, m1) := PreviousMonth(today.year, today.month);
      var YearMonth(y2, m2) := PreviousMonth(y1, m1);
      ParseIsoDate(TrendRequest(today, months, granularity, filter).value.start) == Some(Date(y2, m2, 1))
  {
    var lastPrevious := PrevDay(FirstOfMonth(today)).value;
    DayBeforeFirstOfMonth(today);
    var beforePrevious := PrevDay(FirstOfMonth(lastPrevious)).value;
    DayBeforeFirstOfMonth(lastPrevious);
    var k := -((months - 2) * 30);
    var back := AddDays(FirstOfMonth(beforePrevious), k).value;
    AddDaysMoves(FirstOfMonth(beforePrevious), k);
    var start := FirstOfMonth(back);
    FormatParseRoundTrip(start);
    assert TrendRequest(today, months, granularity, filter).value.start == FormatDate(start);
    if months == 2 {
      assert AddDays(FirstOfMonth(beforePrevious), k) == Some(FirstOfMonth(beforePrevious));
    }
  }

  // ---------------------------------------------------------------------
  // Filters and fixed groupings

  /** `{"Not": {"Dimensions": {"Key": "SERVICE", "Values": services}}}` */
  function ExcludeServices(services: seq<string>): Filter {
    Not(Dimensions("SERVICE", services))
  }

  /** `get_cost_excluding_services`: the exclusion filter is always sent, even for an empty list. */
  function ExcludingServicesRequest(start: string, end: string, services: seq<string>, granularity: string): (r: CostRequest)
    ensures r.filter == Some(ExcludeServices(services)) && r.groupBy.None?
    ensures r.start == start && r.end == end
  {
    PeriodRequest(start, end, granularity, DefaultMetrics, None, Some(ExcludeServices(services)))
  }

  /** The Digital filter: the `Environment=Digital` tag, joined by `And` with the exclusion only when services are listed. */
  function DigitalFilter(excludeServices: Option<seq<string>>): (f: Filter)
    ensures (excludeServices.None? || excludeServices.value == []) ==> f == Tags("Environment", ["Digital"])
    ensures excludeServices.Some? && excludeServices.value != [] ==>
      f == And([Tags("Environment", ["Digital"]), ExcludeServices(excludeServices.value)])
  {
    var tag := Tags("Environment", ["Digital"]);
    if excludeServices.Some? && excludeServices.value != [] then And([tag, ExcludeServices(excludeServices.value)])
    else tag
  }

  /** `get_digital_cost_for_month`: the month's request with the Digital filter. */
  function DigitalMonthRequest(year: int, month: int, excludeServices: Option<seq<string>>): (r: Result<CostRequest, DateError>)
    ensures r.Ok? ==> r.value.filter == Some(DigitalFilter(excludeServices))
    ensures r.Ok? <==> MonthlyRequest(year, month, None, None).Ok?
  {
    MonthlyRequest(year, month, None, Some(DigitalFilter(excludeServices)))
  }

  /** `get_cost_by_service`: grouped by the SERVICE dimension. */
  function ByServiceRequest(start: string, end: string, granularity: string): (r: CostRequest)
    ensures r.groupBy == Some([GroupKey("DIMENSION", "SERVICE")]) && r.filter.None?
  {
    PeriodRequest(start, end, granularity, DefaultMetrics, Some([GroupKey("DIMENSION", "SERVICE")]), None)
  }

  /** `get_cost_by_tag`: grouped by the given tag. */
  function ByTagRequest(start: string, end: string, tagKey: string, granularity: string): (r: CostRequest)
    ensures r.groupBy == Some([GroupKey("TAG", tagKey)]) && r.filter.None?
  {
    PeriodRequest(start, end, granularity, DefaultMetrics, Some([GroupKey("TAG", tagKey)]), None)
  }

  /** The request of `get_most_expensive_account`: monthly, grouped by linked account. */
  function LinkedAccountRequest(start: string, end: string): (r: CostRequest)
    ensures r.groupBy == Some([GroupKey("DIMENSION", "LINKED_ACCOUNT")]) && r.granularity == "MONTHLY"
  {
    PeriodRequest(start, end, "MONTHLY", DefaultMetrics, Some([GroupKey("DIMENSION", "LINKED_ACCOUNT")]), None)
  }

  // ---------------------------------------------------------------------
  // The trend

  /** One entry of `total_by_period`. */
  datatype PeriodTotal = PeriodTotal(start: string, end: string, total: real)

  /**
   * The two loops of `get_cost_trend` over a successful answer: one total per
   * period, then one label per consecutive pair, naming the later period.
   */
  method TrendAnalysis(results: seq<PeriodResult>) returns (totals: seq<PeriodTotal>, labels: seq<string>)
    ensures |totals| == |results|
    ensures forall i :: 0 <= i < |results| ==>
      totals[i] == PeriodTotal(results[i].start, results[i].end, TrendTotal(results[i].total))
    ensures |labels| == if |results| == 0 then 0 else |results| - 1
    ensures forall i :: 0 <= i < |labels| ==> labels[i] == results[i + 1].start + " to " + results[i + 1].end
  {
    totals := [];
    for i := 0 to |results|
      invariant |totals| == i
      invariant forall k :: 0 <= k < i ==> totals[k] == PeriodTotal(results[k].start, results[k].end, TrendTotal(results[k].total))
    {
      totals := totals + [PeriodTotal(results[i].start, results[i].end, TrendTotal(results[i].total))];
    }
    labels := [];
    var i := 1;
    while i < |totals|
      invariant |totals| == |results|
      invariant i == 1 || i <= |totals|
      invariant |labels| == i - 1
      invariant forall k :: 0 <= k < i - 1 ==> labels[k] == results[k + 1].start + " to " + results[k + 1].end
    {
      labels := labels + [totals[i].start + " to " + totals[i].end];
      i := i + 1;
    }
  }

  // ---------------------------------------------------------------------
  // Weekend and weekday days

  /** Why reading a daily period raises. */
  datatype PeriodError =
    | MissingTotal        // `KeyError`: no `Total`
    | NoMetrics           // `IndexError`: `Total` is empty
    | BadDate(text: string) // `ValueError` from `strptime`

  /** A daily period read: its start text, its date and its cost. */
  datatype DayCost = DayCost(start: string, date: ValidDay, cost: real)

  /** Reading one daily period: the cost first, then the date. */
  function ReadDay(p: PeriodResult): (r: Result<DayCost, PeriodError>)
    ensures r.Ok? ==> r.value.start == p.start
  {
    if p.total.None? then Err(MissingTotal)
    else
      match SelectCost(p.total.value)
      case None => Err(NoMetrics)
      case Some(cost) =>
        match ParseIsoDate(p.start)
        case None => Err(BadDate(p.start))
        case Some(d) => Ok(DayCost(p.start, d, cost))
  }

  /** Every period read in order, or the error of the first one that cannot be read. */
  function ReadDays(ps: seq<PeriodResult>): (r: Result<seq<DayCost>, PeriodError>)
    ensures r.Ok? ==> |r.value| == |ps|
  {
    if ps == [] then Ok([])
    else
      match ReadDays(ps[..|ps| - 1])
      case Err(e) => Err(e)
      case Ok(cs) =>
        match ReadDay(ps[|ps| - 1])
        case Err(e) => Err(e)
        case Ok(c) => Ok(cs + [c])
  }

  lemma {:induction false} ReadDaysStops(ps: seq<PeriodResult>, k: nat)
    requires 0 < k <= |ps| && ReadDays(ps[..k]).Err?
    ensures ReadDays(ps) == ReadDays(ps[..k])
    decreases |ps| - k
  {
    if k < |ps| {
      var p := ps[..k + 1];
      assert p[..|p| - 1] == ps[..k];
      ReadDaysStops(ps, k + 1);
    } else {
      assert ps[..k] == ps;
    }
  }

  lemma ReadDaysStep(ps: seq<PeriodResult>, i: nat, cs: seq<DayCost>)
    requires i < |ps| && ReadDays(ps[..i]) == Ok(cs) && ReadDay(ps[i]).Ok?
    ensures ReadDays(ps[..i + 1]) == Ok(cs + [ReadDay(ps[i]).value])
  {
    var p := ps[..i + 1];
    assert p[..|p| - 1] == ps[..i];
  }

  /** A period that cannot be read makes the whole reading fail with its error. */
  lemma ReadDaysFails(ps: seq<PeriodResult>, i: nat, cs: seq<DayCost>)
    requires i < |ps| && ReadDays(ps[..i]) == Ok(cs) && ReadDay(ps[i]).Err?
    ensures ReadDays(ps) == Err(ReadDay(ps[i]).error)
  {
    var p := ps[..i + 1];
    assert p[..|p| - 1] == ps[..i];
    ReadDaysStops(ps, i + 1);
  }

  /** The days of `cs` that fall on a weekend (`weekend`) or on a weekday (`!weekend`), in order. */
  function OnWeekend(cs: seq<DayCost>, weekend: bool): (r: seq<DayCost>)
    ensures forall i :: 0 <= i < |r| ==> IsWeekend(r[i].date) == weekend
    ensures |r| <= |cs|
  {
    if cs == [] then []
    else
      var rest := OnWeekend(cs[..|cs| - 1], weekend);
      var c := cs[|cs| - 1];
      if IsWeekend(c.date) == weekend then rest + [c] else rest
  }

  lemma OnWeekendStep(cs: seq<DayCost>, c: DayCost, weekend: bool)
    ensures OnWeekend(cs + [c], weekend) == if IsWeekend(c.date) == weekend then OnWeekend(cs, weekend) + [c] else OnWeekend(cs, weekend)
  {
    var s := cs + [c];
    assert s[..|s| - 1] == cs;
  }

  /** The days counted in the daily average: all of them, or only the weekdays. */
  function Included(cs: seq<DayCost>, includeWeekends: bool): seq<DayCost>
  {
    if includeWeekends then cs else OnWeekend(cs, false)
  }

  function Costs(cs: seq<DayCost>): (r: seq<real>)
    ensures |r| == |cs| && forall i :: 0 <= i < |cs| ==> r[i] == cs[i].cost
  {
    if cs == [] then [] else Costs(cs[..|cs| - 1]) + [cs[|cs| - 1].cost]
  }

  function Starts(cs: seq<DayCost>): (r: seq<string>)
    ensures |r| == |cs| && forall i :: 0 <= i < |cs| ==> r[i] == cs[i].start
  {
    if cs == [] then [] else Starts(cs[..|cs| - 1]) + [cs[|cs| - 1].start]
  }

  lemma CostsAppend(cs: seq<DayCost>, c: DayCost)
    ensures Costs(cs + [c]) == Costs(cs) + [c.cost]
  {
    var s := cs + [c];
    assert s[..|s| - 1] == cs;
  }

  lemma StartsAppend(cs: seq<DayCost>, c: DayCost)
    ensures Starts(cs + [c]) == Starts(cs) + [c.start]
  {
    var s := cs + [c];
    assert s[..|s| - 1] == cs;
  }

  /**
   * Weekend and weekday days partition the periods, every day lands on the
   * side its weekday says, and the days counted in the average are all of
   * them or only the weekdays.
   */
  lemma {:induction false} DayCounts(cs: seq<DayCost>, includeWeekends: bool)
    ensures |OnWeekend(cs, true)| + |OnWeekend(cs, false)| == |cs|
    ensures multiset(OnWeekend(cs, true)) + multiset(OnWeekend(cs, false)) == multiset(cs)
    ensures |Included(cs, includeWeekends)| == if includeWeekends then |cs| else |OnWeekend(cs, false)|
  {
    if cs != [] {
      var init, c := cs[..|cs| - 1], cs[|cs| - 1];
      DayCounts(init, includeWeekends);
      SplitLast(cs);
      OnWeekendStep(init, c, true);
      OnWeekendStep(init, c, false);
    }
  }

  /** What `get_average_daily_cost` adds to a successful answer: the costs counted, and those of weekends and of weekdays. */
  datatype DailyBreakdown = DailyBreakdown(daily: seq<real>, weekend: seq<real>, weekday: seq<real>)

  /** The breakdown of the days read from the periods. */
  function BreakdownOf(cs: seq<DayCost>, includeWeekends: bool): DailyBreakdown
  {
    DailyBreakdown(Costs(Included(cs, includeWeekends)), Costs(OnWeekend(cs, true)), Costs(OnWeekend(cs, false)))
  }

  /** The loop of `get_average_daily_cost` over the periods. */
  method AverageDailyCost(results: seq<PeriodResult>, includeWeekends: bool)
    returns (r: Result<DailyBreakdown, PeriodError>)
    ensures ReadDays(results).Err? ==> r == Err(ReadDays(results).error)
    ensures ReadDays(results).Ok? ==> r == Ok(BreakdownOf(ReadDays(results).value, includeWeekends))
  {
    var daily: seq<real> := [];
    var weekend: seq<real> := [];
    var weekday: seq<real> := [];
    ghost var cs: seq<DayCost> := [];
    for i := 0 to |results|
      invariant ReadDays(results[..i]) == Ok(cs)
      invariant daily == Costs(Included(cs, includeWeekends))
      invariant weekend == Costs(OnWeekend(cs, true))
      invariant weekday == Costs(OnWeekend(cs, false))
    {
      var day := ReadDay(results[i]);
      if day.Err? {
        ReadDaysFails(results, i, cs);
        return Err(day.error);
      }
      var c := day.value;
      BreakdownAdvance(results, i, cs, includeWeekends, daily, weekend, weekday);
      var isWeekend := IsWeekend(c.date);
      // each cost goes to its side, and to the average when weekends count or it falls on a weekday
      daily := if includeWeekends || !isWeekend then daily + [c.cost] else daily;
      weekend := if isWeekend then weekend + [c.cost] else weekend;
      weekday := if isWeekend then weekday else weekday + [c.cost];
      cs := cs + [c];
    }
    assert results[..|results|] == results;
    return Ok(DailyBreakdown(daily, weekend, weekday));
  }

  /**
   * Reading one more period extends the days read by it; the three lists kept for
   * the days so far, extended by its cost on its side, are those of the longer run.
   */
  lemma BreakdownAdvance(results: seq<PeriodResult>, i: nat, cs: seq<DayCost>, includeWeekends: bool,
                         daily: seq<real>, weekend: seq<real>, weekday: seq<real>)
    requires i < |results| && ReadDays(results[..i]) == Ok(cs) && ReadDay(results[i]).Ok?
    requires daily == Costs(Included(cs, includeWeekends))
    requires weekend == Costs(OnWeekend(cs, true)) && weekday == Costs(OnWeekend(cs, false))
    ensures ReadDays(results[..i + 1]) == Ok(cs + [ReadDay(results[i]).value])
    ensures var c := ReadDay(results[i]).value;
      (if includeWeekends || !IsWeekend(c.date) then daily + [c.cost] else daily)
        == Costs(Included(cs + [c], includeWeekends))
    ensures var c := ReadDay(results[i]).value;
      (if IsWeekend(c.date) then weekend + [c.cost] else weekend) == Costs(OnWeekend(cs + [c], true))
    ensures var c := ReadDay(results[i]).value;
      (if IsWeekend(c.date) then weekday else weekday + [c.cost]) == Costs(OnWeekend(cs + [c], false))
  {
    ReadDaysStep(results, i, cs);
    BreakdownStep(cs, ReadDay(results[i]).value, includeWeekends);
  }

  lemma BreakdownStep(cs: seq<DayCost>, c: DayCost, includeWeekends: bool)
    ensures var b := BreakdownOf(cs, includeWeekends);
      BreakdownOf(cs + [c], includeWeekends) ==
        DailyBreakdown(if includeWeekends || !IsWeekend(c.date) then b.daily + [c.cost] else b.daily,
                       if IsWeekend(c.date) then b.weekend + [c.cost] else b.weekend,
                       if IsWeekend(c.date) then b.weekday else b.weekday + [c.cost])
  {
    OnWeekendStep(cs, c, true);
    OnWeekendStep(cs, c, false);
    CostsAppend(cs, c);
    CostsAppend(OnWeekend(cs, true), c);
    CostsAppend(OnWeekend(cs, false), c);
  }

  /** What `get_weekend_daily_cost` and `get_weekday_daily_cost` add to a successful answer: costs and their start dates. */
  datatype DaySide = DaySide(costs: seq<real>, dates: seq<string>)

  /** The costs and start dates of the weekend days (`weekend`) or of the weekdays (`!weekend`), in order. */
  function SideOf(cs: seq<DayCost>, weekend: bool): DaySide
  {
    DaySide(Costs(OnWeekend(cs, weekend)), Starts(OnWeekend(cs, weekend)))
  }

  /** One more day extends the costs and dates of its side of the weekend split, and leaves the other side's unchanged. */
  lemma SideStep(cs: seq<DayCost>, c: DayCost, weekend: bool)
    ensures var side := SideOf(cs, weekend);
      SideOf(cs + [c], weekend) ==
        if IsWeekend(c.date) == weekend then DaySide(side.costs + [c.cost], side.dates + [c.start]) else side
  {
    OnWeekendStep(cs, c, weekend);
    CostsAppend(OnWeekend(cs, weekend), c);
    StartsAppend(OnWeekend(cs, weekend), c);
  }

  /** Reading one more period extends the days read by it, and its side of the split by its cost and date. */
  lemma SideAdvance(results: seq<PeriodResult>, i: nat, cs: seq<DayCost>, weekend: bool,
                    costs: seq<real>, dates: seq<string>)
    requires i < |results| && ReadDays(results[..i]) == Ok(cs) && ReadDay(results[i]).Ok?
    requires DaySide(costs, dates) == SideOf(cs, weekend)
    ensures var c := ReadDay(results[i]).value;
      ReadDays(results[..i + 1]) == Ok(cs + [c])
      && (if IsWeekend(c.date) == weekend then DaySide(costs + [c.cost], dates + [c.start]) else DaySide(costs, dates))
         == SideOf(cs + [c], weekend)
  {
    ReadDaysStep(results, i, cs);
    SideStep(cs, ReadDay(results[i]).value, weekend);
  }

  /** The loop of `get_weekend_daily_cost`: the weekend costs and their start dates. */
  method WeekendDailyCost(results: seq<PeriodResult>) returns (r: Result<DaySide, PeriodError>)
    ensures ReadDays(results).Err? ==> r == Err(ReadDays(results).error)
    ensures ReadDays(results).Ok? ==> r == Ok(SideOf(ReadDays(results).value, true))
  {
    var costs: seq<real> := [];
    var dates: seq<string> := [];
    ghost var cs: seq<DayCost> := [];
    for i := 0 to |results|
      invariant ReadDays(results[..i]) == Ok(cs)
      invariant DaySide(costs, dates) == SideOf(cs, true)
    {
      var day := ReadDay(results[i]);
      if day.Err? {
        ReadDaysFails(results, i, cs);
        return Err(day.error);
      }
      var c := day.value;
      SideAdvance(results, i, cs, true, costs, dates);
      if IsWeekend(c.date) {
        costs := costs + [c.cost];
        dates := dates + [c.start];
      }
      cs := cs + [c];
    }
    assert results[..|results|] == results;
    return Ok(DaySide(costs, dates));
  }

  /** The loop of `get_weekday_daily_cost`: the weekday costs and their start dates. */
  method WeekdayDailyCost(results: seq<PeriodResult>) returns (r: Result<DaySide, PeriodError>)
    ensures ReadDays(results).Err? ==> r == Err(ReadDays(results).error)
    ensures ReadDays(results).Ok? ==> r == Ok(SideOf(ReadDays(results).value, false))
  {
    var costs: seq<real> := [];
    var dates: seq<string> := [];
    ghost var cs: seq<DayCost> := [];
    for i := 0 to |results|
      invariant ReadDays(results[..i]) == Ok(cs)
      invariant DaySide(costs, dates) == SideOf(cs, false)
    {
      var day := ReadDay(results[i]);
      if day.Err? {
        ReadDaysFails(results, i, cs);
        return Err(day.error);
      }
      var c := day.value;
      SideAdvance(results, i, cs, false, costs, dates);
      if !IsWeekend(c.date) {
        costs := costs + [c.cost];
        dates := dates + [c.start];
      }
      cs := cs + [c];
    }
    assert results[..|results|] == results;
    return Ok(DaySide(costs, dates));
  }

  // ---------------------------------------------------------------------
  // The most expensive account

  /** `most_expensive`: the account id and name are `None` until some cost beats 0. */
  datatype MostExpensive = MostExpensive(accountId: Option<string>, accountName: Option<string>, cost: real)

  /** An account's id and name as `get_most_expensive_account` reads them from a group key. */
  datatype Account = Account(id: string, name: string)

  /** `Keys[0]` split at the first space: the id, and the rest without surrounding parentheses, or `Unknown`. */
  function AccountFields(info: string): (r: Account)
    ensures ' ' !in r.id
    ensures SplitFirstSpace(info).tail.None? ==> r == Account(info, "Unknown")
    ensures SplitFirstSpace(info).tail.Some? ==> info == r.id + " " + SplitFirstSpace(info).tail.value
    ensures SplitFirstSpace(info).tail.Some? ==> r.name == StripChars(SplitFirstSpace(info).tail.value, {'(', ')'})
  {
    var split := SplitFirstSpace(info);
    Account(split.head, if split.tail.Some? then StripChars(split.tail.value, {'(', ')'}) else "Unknown")
  }

  /**
   * With a space in the key, the name is the rest of the key with only parentheses
   * cut from its two ends: it starts and ends with neither, and the rest is the name
   * between runs of parentheses.
   */
  lemma AccountNameUnwrapped(info: string)
    requires SplitFirstSpace(info).tail.Some?
    ensures var rest := SplitFirstSpace(info).tail.value;
      var name := AccountFields(info).name;
      exists i, j :: CutBetween(rest, {'(', ')'}, i, j) && name == rest[i..j]
    ensures var name := AccountFields(info).name;
      name != [] ==> name[0] !in {'(', ')'} && name[|name| - 1] !in {'(', ')'}
  {
    StripCharsSlice(SplitFirstSpace(info).tail.value, {'(', ')'});
  }

  /** The groups of every period, in order. */
  function AllGroups(results: seq<PeriodResult>): seq<Group> {
    if results == [] then [] else AllGroups(results[..|results| - 1]) + results[|results| - 1].groups
  }

  /** A group the selection can read: it has a key and a metric. */
  predicate Readable(g: Group) {
    g.keys != [] && g.metrics != []
  }

  function GroupCost(g: Group): real
    requires Readable(g)
  {
    SelectCost(g.metrics).value
  }

  /** The running maximum a readable group sets when its cost beats the previous one. */
  function Leader(g: Group): (r: MostExpensive)
    requires Readable(g)
    ensures r.accountId.Some? && r.accountName.Some? && r.cost == GroupCost(g)
  {
    var account := AccountFields(g.keys[0]);
    MostExpensive(Some(account.id), Some(account.name), GroupCost(g))
  }

  /** The message `get_most_expensive_account` returns when a group cannot be read. */
  const IndexErrorMessage := "Failed to get most expensive account: list index out of range"

  /**
   * The running maximum over the groups, replaced only by a strictly greater
   * cost; `None` where a group without a key or a metric makes Python raise
   * `IndexError`.
   */
  function MostExpensiveOf(gs: seq<Group>): Option<MostExpensive> {
    if gs == [] then Some(MostExpensive(None, None, 0.0))
    else
      match MostExpensiveOf(gs[..|gs| - 1])
      case None => None
      case Some(best) =>
        var g := gs[|gs| - 1];
        if !Readable(g) then None
        else if GroupCost(g) > best.cost then Some(Leader(g))
        else Some(best)
  }

  lemma {:induction false} MostExpensiveStops(gs: seq<Group>, k: nat)
    requires 0 < k <= |gs| && MostExpensiveOf(gs[..k]).None?
    ensures MostExpensiveOf(gs) == MostExpensiveOf(gs[..k])
    decreases |gs| - k
  {
    if k < |gs| {
      var p := gs[..k + 1];
      assert p[..|p| - 1] == gs[..k];
      MostExpensiveStops(gs, k + 1);
    } else {
      assert gs[..k] == gs;
    }
  }

  /** Every group has a key and a metric. */
  predicate AllReadable(gs: seq<Group>) {
    forall i :: 0 <= i < |gs| ==> Readable(gs[i])
  }

  /** The selection fails iff some group has no key or no metric. */
  lemma {:induction false} MostExpensiveReadable(gs: seq<Group>)
    ensures MostExpensiveOf(gs).Some? <==> AllReadable(gs)
    decreases |gs|
  {
    if gs != [] {
      MostExpensiveReadable(gs[..|gs| - 1]);
      AllReadableLast(gs);
    }
  }

  /** All groups are readable iff all but the last are and the last is. */
  lemma AllReadableLast(gs: seq<Group>)
    requires gs != []
    ensures AllReadable(gs) <==> AllReadable(gs[..|gs| - 1]) && Readable(gs[|gs| - 1])
  {
    assert forall i :: 0 <= i < |gs| - 1 ==> gs[..|gs| - 1][i] == gs[i];
  }

  /** The last group of a readable sequence updates the running maximum of the others. */
  lemma MostExpensiveLast(gs: seq<Group>)
    requires gs != [] && MostExpensiveOf(gs[..|gs| - 1]).Some? && Readable(gs[|gs| - 1])
    ensures var prev := MostExpensiveOf(gs[..|gs| - 1]).value;
      var g := gs[|gs| - 1];
      MostExpensiveOf(gs) ==
        Some(if GroupCost(g) > prev.cost
           then Leader(g)
           else prev)
  {
  }

  /** Over readable groups the result's cost is at least 0 and at least every group's cost. */
  lemma {:induction false} MostExpensiveCostBound(gs: seq<Group>)
    requires AllReadable(gs)
    ensures MostExpensiveOf(gs).Some?
    ensures MostExpensiveOf(gs).value.cost >= 0.0
    ensures forall i :: 0 <= i < |gs| ==> GroupCost(gs[i]) <= MostExpensiveOf(gs).value.cost
    decreases |gs|
  {
    MostExpensiveReadable(gs);
    if gs != [] {
      var init := gs[..|gs| - 1];
      AllReadableLast(gs);
      MostExpensiveCostBound(init);
      MostExpensiveLast(gs);
      var prev := MostExpensiveOf(init).value;
      var best := MostExpensiveOf(gs).value;
      CostsAtMostLast(gs, best.cost, prev.cost);
    }
  }

  /** No group costs more than `c`. */
  predicate CostsAtMost(gs: seq<Group>, c: real)
    requires AllReadable(gs)
  {
    forall i :: 0 <= i < |gs| ==> GroupCost(gs[i]) <= c
  }

  /** A bound on all but the last group, raised to cover the last one, bounds them all. */
  lemma CostsAtMostLast(gs: seq<Group>, c: real, d: real)
    requires gs != [] && AllReadable(gs) && AllReadable(gs[..|gs| - 1])
    requires CostsAtMost(gs[..|gs| - 1], d) && d <= c && GroupCost(gs[|gs| - 1]) <= c
    ensures CostsAtMost(gs, c)
  {
    forall i | 0 <= i < |gs|
      ensures GroupCost(gs[i]) <= c
    {
      if i < |gs| - 1 {
        assert gs[i] == gs[..|gs| - 1][i];
      }
    }
  }

  /** Over readable groups no account is reported iff no cost is positive, and then the cost stays 0. */
  lemma {:induction false} MostExpensiveNone(gs: seq<Group>)
    requires AllReadable(gs)
    ensures MostExpensiveOf(gs).Some?
    ensures MostExpensiveOf(gs).value.accountId.None? <==> forall i :: 0 <= i < |gs| ==> GroupCost(gs[i]) <= 0.0
    ensures MostExpensiveOf(gs).value.accountId.None? ==> MostExpensiveOf(gs).value == MostExpensive(None, None, 0.0)
    decreases |gs|
  {
    MostExpensiveReadable(gs);
    if gs != [] {
      var init := gs[..|gs| - 1];
      var g := gs[|gs| - 1];
      AllReadableLast(gs);
      MostExpensiveNone(init);
      MostExpensiveCostBound(init);
      MostExpensiveLast(gs);
      var prev := MostExpensiveOf(init).value;
      var best := MostExpensiveOf(gs).value;
      if best.accountId.None? {
        assert best == prev && GroupCost(g) <= 0.0;
        CostsAtMostLast(gs, 0.0, 0.0);
      } else if prev.accountId.Some? {
        var i :| 0 <= i < |init| && !(GroupCost(init[i]) <= 0.0);
        assert gs[i] == init[i];
      } else {
        assert GroupCost(g) > 0.0;
      }
    }
  }

  /** A reported account is the first group whose cost equals the maximum, and its id and name come from that group's key. */
  lemma {:induction false} MostExpensiveFirst(gs: seq<Group>)
    requires AllReadable(gs) && MostExpensiveOf(gs).Some? && MostExpensiveOf(gs).value.accountId.Some?
    ensures var best := MostExpensiveOf(gs).value;
      exists i :: 0 <= i < |gs| && GroupCost(gs[i]) == best.cost
        && (forall j :: 0 <= j < i ==> GroupCost(gs[j]) < best.cost)
        && best == Leader(gs[i])
    decreases |gs|
  {
    var init := gs[..|gs| - 1];
    var g := gs[|gs| - 1];
    AllReadableLast(gs);
    assert forall i :: 0 <= i < |init| ==> init[i] == gs[i];
    MostExpensiveCostBound(init);
    var prev := MostExpensiveOf(init).value;
    if GroupCost(g) > prev.cost {
      assert GroupCost(gs[|gs| - 1]) == MostExpensiveOf(gs).value.cost;
    } else {
      MostExpensiveFirst(init);
      var i :| 0 <= i < |init| && GroupCost(init[i]) == prev.cost
        && (forall j :: 0 <= j < i ==> GroupCost(init[j]) < prev.cost)
        && prev == Leader(init[i]);
      assert gs[i] == init[i];
    }
  }

  /**
   * The selection fails iff some group has no key or no metric. Otherwise
   * the result is the first group with the greatest cost, provided that
   * cost is positive: its cost is at least every group's, strictly more than
   * every earlier group's, and its id and name come from its key. With no
   * positive cost the account stays `None` and the cost 0.
   */
  lemma MostExpensiveIsFirstMaximum(gs: seq<Group>)
    ensures MostExpensiveOf(gs).None? <==> exists i :: 0 <= i < |gs| && !Readable(gs[i])
    ensures MostExpensiveOf(gs).Some? ==>
      var best := MostExpensiveOf(gs).value;
      best.cost >= 0.0
      && (forall i :: 0 <= i < |gs| ==> GroupCost(gs[i]) <= best.cost)
      && (best.accountId.None? <==> forall i :: 0 <= i < |gs| ==> GroupCost(gs[i]) <= 0.0)
      && (best.accountId.None? ==> best == MostExpensive(None, None, 0.0))
      && (best.accountId.Some? ==>
            exists i :: 0 <= i < |gs| && GroupCost(gs[i]) == best.cost
              && (forall j :: 0 <= j < i ==> GroupCost(gs[j]) < best.cost)
              && best == Leader(gs[i]))
  {
    MostExpensiveReadable(gs);
    if AllReadable(gs) {
      MostExpensiveCostBound(gs);
      MostExpensiveNone(gs);
      if MostExpensiveOf(gs).value.accountId.Some? {
        MostExpensiveFirst(gs);
      }
    }
  }

  /** The nested loops of `get_most_expensive_account` over the periods and their groups. */
  method MostExpensiveAccount(results: seq<PeriodResult>) returns (r: Result<MostExpensive, string>)
    ensures MostExpensiveOf(AllGroups(results)).None? ==> r == Err(IndexErrorMessage)
    ensures MostExpensiveOf(AllGroups(results)).Some? ==> r == Ok(MostExpensiveOf(AllGroups(results)).value)
  {
    var best := MostExpensive(None, None, 0.0);
    for i := 0 to |results|
      invariant MostExpensiveOf(AllGroups(results[..i])) == Some(best)
    {
      AllGroupsNext(results, i);
      var scanned := ScanGroups(AllGroups(results[..i]), results[i].groups, best);
      if scanned.None? {
        AllGroupsPrefixStops(results, i + 1);
        return Err(IndexErrorMessage);
      }
      best := scanned.value;
    }
    assert results[..|results|] == results;
    return Ok(best);
  }

  /** The inner loop of `get_most_expensive_account`, over one period's groups. */
  method ScanGroups(ghost seen: seq<Group>, groups: seq<Group>, best: MostExpensive)
    returns (r: Option<MostExpensive>)
    requires MostExpensiveOf(seen) == Some(best)
    ensures r == MostExpensiveOf(seen + groups)
  {
    var current := best;
    ghost var scanned := seen;
    assert seen + groups[..0] == seen;
    for j := 0 to |groups|
      invariant scanned == seen + groups[..j]
      invariant MostExpensiveOf(scanned) == Some(current)
    {
      var g := groups[j];
      if !Readable(g) {
        ScanFails(seen, groups, j, current);
        return None;
      }
      MostExpensiveStep(scanned, g, current);
      ConcatTakeStep(seen, groups, j);
      if GroupCost(g) > current.cost {
        current := Leader(g);
      }
      scanned := scanned + [g];
    }
    assert groups[..|groups|] == groups;
    return Some(current);
  }

  /** An unreadable group in the middle of a period makes the whole selection fail. */
  lemma ScanFails(seen: seq<Group>, groups: seq<Group>, j: nat, current: MostExpensive)
    requires j < |groups| && MostExpensiveOf(seen + groups[..j]) == Some(current) && !Readable(groups[j])
    ensures MostExpensiveOf(seen + groups).None?
  {
    ConcatTakeStep(seen, groups, j);
    MostExpensiveStops(seen + groups, |seen| + j + 1);
  }

  lemma MostExpensiveStep(seen: seq<Group>, g: Group, best: MostExpensive)
    requires MostExpensiveOf(seen) == Some(best) && Readable(g)
    ensures MostExpensiveOf(seen + [g]) ==
      Some(if GroupCost(g) > best.cost
         then Leader(g)
         else best)
  {
    AppendInit(seen, g);
  }

  lemma AllGroupsNext(results: seq<PeriodResult>, i: nat)
    requires i < |results|
    ensures AllGroups(results[..i + 1]) == AllGroups(results[..i]) + results[i].groups
  {
    assert results[..i + 1][..i] == results[..i];
  }

  /** The groups of a prefix of the periods are a prefix of all the groups. */
  lemma {:induction false} AllGroupsPrefix(results: seq<PeriodResult>, k: nat)
    requires k <= |results|
    ensures |AllGroups(results[..k])| <= |AllGroups(results)|
    ensures AllGroups(results)[..|AllGroups(results[..k])|] == AllGroups(results[..k])
    decreases |results| - k
  {
    if k < |results| {
      AllGroupsPrefix(results, k + 1);
      var p := results[..k + 1];
      assert p[..|p| - 1] == results[..k];
    } else {
      assert results[..k] == results;
    }
  }

  /** An error in the groups of the first periods is the error of the whole selection. */
  lemma AllGroupsPrefixStops(results: seq<PeriodResult>, k: nat)
    requires k <= |results| && MostExpensiveOf(AllGroups(results[..k])).None?
    ensures MostExpensiveOf(AllGroups(results)) == MostExpensiveOf(AllGroups(results[..k]))
  {
    AllGroupsPrefix(results, k);
    var all := AllGroups(results);
    MostExpensiveStops(all, |AllGroups(results[..k])|);
  }
}

=== FILE: model_provider.dfy ===
/**
 * The choice of language model from the environment: Google, then
 * Anthropic, then Bedrock, each counted as configured only when its key
 * holds a non-whitespace character.
 *
 * The availability of `boto3` and LiteLlm and the outcome of the STS
 * credential check are parameters (`Platform`).
 */
module ModelProvider {
  import opened Wrappers
  import opened Text

  /** What the process can import, and whether the STS identity call succeeds. */
  datatype Platform = Platform(boto3Installed: bool, credentialsValid: bool, liteLlmInstalled: bool)

  /** The provider chosen and the model or profile it is given. */
  datatype Provider = Google(model: string) | Anthropic(model: string) | Bedrock(profile: string)

  /** What `get_configured_model` returns: a model name, or a LiteLlm wrapper around one. */
  datatype Model = ModelName(name: string) | LiteLlm(model: string)

  const DefaultGoogleModel := "gemini-2.0-flash"
  const DefaultAnthropicModel := "claude-3-5-sonnet-20240620"

  const AnthropicNeedsLiteLlm := "LiteLlm is required for Anthropic Claude. Please ensure google-adk is properly installed."
  const BedrockNeedsBoto3 := "Bedrock requires boto3 library. Please install with: pip install boto3"
  const BedrockNeedsCredentials :=
    "Bedrock requires valid AWS credentials" + ". Please configure AWS access before using Bedrock models."
  const BedrockNeedsLiteLlm := "LiteLlm is required for AWS Bedrock. Please ensure google-adk is properly installed."
  const NoProviderFound :=
    "No AI provider API key found" + ". Please set " + "GOOGLE_API_KEY" + ", " + "ANTHROPIC_API_KEY" + ", or "
    + "BEDROCK_INFERENCE_PROFILE" + ". See logs above for detailed configuration instructions."

  /** `key and key.strip()`: the variable is set and holds a character that is not whitespace. */
  predicate KeySet(env: map<string, string>, name: string) {
    Truthy(Getenv(env, name)) && Strip(Getenv(env, name).value) != ""
  }

  /** A variable that is unset, empty or only whitespace does not count as configured. */
  lemma KeySetIff(env: map<string, string>, name: string)
    ensures KeySet(env, name) <==> name in env && HasNonSpace(env[name])
  {
    if name in env {
      StripNonEmptyIff(env[name]);
    }
  }

  /** The provider the environment selects, or the `ModelConfigurationError` message. */
  function SelectProvider(env: map<string, string>, platform: Platform): (r: Result<Provider, string>)
    ensures KeySet(env, "GOOGLE_API_KEY") ==> r.Ok? && r.value.Google?
    ensures r.Ok? && r.value.Anthropic? ==> !KeySet(env, "GOOGLE_API_KEY") && KeySet(env, "ANTHROPIC_API_KEY")
    ensures r.Ok? && r.value.Bedrock? ==>
      !KeySet(env, "GOOGLE_API_KEY") && !KeySet(env, "ANTHROPIC_API_KEY") && KeySet(env, "BEDROCK_INFERENCE_PROFILE")
      && platform.credentialsValid && r.value.profile == env["BEDROCK_INFERENCE_PROFILE"]
    ensures r == Err(NoProviderFound) <==>
      !KeySet(env, "GOOGLE_API_KEY") && !KeySet(env, "ANTHROPIC_API_KEY") && !KeySet(env, "BEDROCK_INFERENCE_PROFILE")
  {
    if KeySet(env, "GOOGLE_API_KEY") then
      Ok(Google(Getenv(env, "GOOGLE_AI_MODEL").GetOr(DefaultGoogleModel)))
    else if KeySet(env, "ANTHROPIC_API_KEY") then
      if !platform.liteLlmInstalled then Err(AnthropicNeedsLiteLlm)
      else Ok(Anthropic(Getenv(env, "ANTHROPIC_MODEL").GetOr(DefaultAnthropicModel)))
    else if KeySet(env, "BEDROCK_INFERENCE_PROFILE") then
      if !platform.boto3Installed then Err(BedrockNeedsBoto3)
      else if !platform.credentialsValid then Err(BedrockNeedsCredentials)
      else if !platform.liteLlmInstalled then Err(BedrockNeedsLiteLlm)
      else Ok(Bedrock(env["BEDROCK_INFERENCE_PROFILE"]))
    else Err(NoProviderFound)
  }

  /** `get_configured_model()` as written: the Bedrock profile is handed to LiteLlm unchanged. */
  function ConfiguredModelAsWritten(env: map<string, string>, platform: Platform): (r: Result<Model, string>)
    ensures SelectProvider(env, platform).Ok? && SelectProvider(env, platform).value.Bedrock? ==>
      r == Ok(LiteLlm(env["BEDROCK_INFERENCE_PROFILE"]))
  {
    match SelectProvider(env, platform)
    case Err(message) => Err(message)
    case Ok(Google(model)) => Ok(ModelName(model))
    case Ok(Anthropic(model)) => Ok(LiteLlm(model))
    case Ok(Bedrock(profile)) => Ok(LiteLlm(profile))
  }

  /**
   * `get_configured_model()` with the LiteLlm model name Bedrock needs:
   * the profile behind the `bedrock/` provider prefix.
   */
  function ConfiguredModel(env: map<string, string>, platform: Platform): (r: Result<Model, string>)
    ensures SelectProvider(env, platform).Err? <==> r.Err?
    ensures r.Err? ==> r.error == SelectProvider(env, platform).error
    ensures SelectProvider(env, platform).Ok? && SelectProvider(env, platform).value.Bedrock? ==>
      r.Ok? && r.value.LiteLlm? && StartsWith(r.value.model, "bedrock/")
      && r.value.model[|"bedrock/"|..] == env["BEDROCK_INFERENCE_PROFILE"]
  {
    match SelectProvider(env, platform)
    case Err(message) => Err(message)
    case Ok(Google(model)) => Ok(ModelName(model))
    case Ok(Anthropic(model)) => Ok(LiteLlm(model))
    case Ok(Bedrock(profile)) => Ok(LiteLlm("bedrock/" + profile))
  }

  /**
   * With only an inference profile configured and valid credentials, the
   * code hands LiteLlm the bare profile, where LiteLlm needs it behind the
   * `bedrock/` provider prefix.
   */
  lemma BedrockProfileUnprefixed(profile: string)
    requires HasNonSpace(profile)
    ensures var env := map["BEDROCK_INFERENCE_PROFILE" := profile];
      ConfiguredModelAsWritten(env, Platform(true, true, true)) == Ok(LiteLlm(profile))
      && ConfiguredModel(env, Platform(true, true, true)) == Ok(LiteLlm("bedrock/" + profile))
      && ConfiguredModelAsWritten(env, Platform(true, true, true)) != ConfiguredModel(env, Platform(true, true, true))
  {
    var env := map["BEDROCK_INFERENCE_PROFILE" := profile];
    KeySetIff(env, "BEDROCK_INFERENCE_PROFILE");
    assert !KeySet(env, "GOOGLE_API_KEY") && !KeySet(env, "ANTHROPIC_API_KEY");
    assert |"bedrock/" + profile| != |profile|;
  }

  /**
   * Google wins whenever its key is set, whatever else is set; the model is
   * `GOOGLE_AI_MODEL`, or `gemini-2.0-flash` when that is unset.
   */
  lemma GoogleFirst(env: map<string, string>, platform: Platform)
    requires KeySet(env, "GOOGLE_API_KEY")
    ensures ConfiguredModel(env, platform) ==
      Ok(ModelName(if "GOOGLE_AI_MODEL" in env then env["GOOGLE_AI_MODEL"] else DefaultGoogleModel))
  {
  }

  /**
   * Without a Google key, an Anthropic key selects Claude through LiteLlm,
   * with `ANTHROPIC_MODEL` or `claude-3-5-sonnet-20240620`; Bedrock is not consulted.
   */
  lemma AnthropicSecond(env: map<string, string>, platform: Platform)
    requires !KeySet(env, "GOOGLE_API_KEY") && KeySet(env, "ANTHROPIC_API_KEY")
    ensures ConfiguredModel(env, platform) ==
      if !platform.liteLlmInstalled then Err(AnthropicNeedsLiteLlm)
      else Ok(LiteLlm(if "ANTHROPIC_MODEL" in env then env["ANTHROPIC_MODEL"] else DefaultAnthropicModel))
  {
  }

  /** Bedrock, last in line, fails with the credentials message when the STS check fails and boto3 is present. */
  lemma BedrockNeedsValidCredentials(env: map<string, string>, platform: Platform)
    requires !KeySet(env, "GOOGLE_API_KEY") && !KeySet(env, "ANTHROPIC_API_KEY") && KeySet(env, "BEDROCK_INFERENCE_PROFILE")
    requires platform.boto3Installed && !platform.credentialsValid
    ensures ConfiguredModel(env, platform) == Err(BedrockNeedsCredentials)
    ensures Contains(ConfiguredModel(env, platform).error, "Bedrock requires valid AWS credentials")
  {
    ContainsPrefix("Bedrock requires valid AWS credentials", ". Please configure AWS access before using Bedrock models.");
  }

  /** The error for an unconfigured environment names all three variables. */
  lemma NoProviderNamesAllVariables()
    ensures Contains(NoProviderFound, "No AI provider API key found")
    ensures Contains(NoProviderFound, "GOOGLE_API_KEY")
    ensures Contains(NoProviderFound, "ANTHROPIC_API_KEY")
    ensures Contains(NoProviderFound, "BEDROCK_INFERENCE_PROFILE")
  {
    var m1 := "No AI provider API key found";
    var m2 := m1 + ". Please set " + "GOOGLE_API_KEY";
    var m3 := m2 + ", " + "ANTHROPIC_API_KEY";
    var m4 := m3 + ", or " + "BEDROCK_INFERENCE_PROFILE";
    var tail := ". See logs above for detailed configuration instructions.";
    assert NoProviderFound == m4 + tail;
    ContainsPrefix(m1, ". Please set ");
    ContainsExtended(m1 + ". Please set ", m1, "GOOGLE_API_KEY");
    ContainsSuffix(m1 + ". Please set ", "GOOGLE_API_KEY");
    ContainsExtended(m2, m1, ", ");
    ContainsExtended(m2 + ", ", m1, "ANTHROPIC_API_KEY");
    ContainsExtended(m2, "GOOGLE_API_KEY", ", ");
    ContainsExtended(m2 + ", ", "GOOGLE_API_KEY", "ANTHROPIC_API_KEY");
    ContainsSuffix(m2 + ", ", "ANTHROPIC_API_KEY");
    ContainsExtended(m3, m1, ", or ");
    ContainsExtended(m3 + ", or ", m1, "BEDROCK_INFERENCE_PROFILE");
    ContainsExtended(m3, "GOOGLE_API_KEY", ", or ");
    ContainsExtended(m3 + ", or ", "GOOGLE_API_KEY", "BEDROCK_INFERENCE_PROFILE");
    ContainsExtended(m3, "ANTHROPIC_API_KEY", ", or ");
    ContainsExtended(m3 + ", or ", "ANTHROPIC_API_KEY", "BEDROCK_INFERENCE_PROFILE");
    ContainsSuffix(m3 + ", or ", "BEDROCK_INFERENCE_PROFILE");
    ContainsExtended(m4, m1, tail);
    ContainsExtended(m4, "GOOGLE_API_KEY", tail);
    ContainsExtended(m4, "ANTHROPIC_API_KEY", tail);
    ContainsExtended(m4, "BEDROCK_INFERENCE_PROFILE", tail);
  }

  /** An empty Google key and a whitespace-only Anthropic key leave no provider configured. */
  lemma BlankKeysIgnored()
    ensures ConfiguredModel(map["GOOGLE_API_KEY" := "", "ANTHROPIC_API_KEY" := "   "], Platform(true, true, true))
      == Err(NoProviderFound)
  {
    var env := map["GOOGLE_API_KEY" := "", "ANTHROPIC_API_KEY" := "   "];
    assert !HasNonSpace("") && !HasNonSpace("   ");
    KeySetIff(env, "GOOGLE_API_KEY");
    KeySetIff(env, "ANTHROPIC_API_KEY");
    KeySetIff(env, "BEDROCK_INFERENCE_PROFILE");
    assert "BEDROCK_INFERENCE_PROFILE" !in env;
    assert SelectProvider(env, Platform(true, true, true)) == Err(NoProviderFound);
  }
}

=== FILE: seqs.dfy ===
/**
 * Facts about prefixes of sequences, stated apart from any recursive
 * function so that proving them stays cheap.
 */
module Seqs {
  /** Extending a prefix by one element. */
  lemma TakeStep<T>(s: seq<T>, i: nat)
    requires i < |s|
    ensures s[..i + 1] == s[..i] + [s[i]]
    ensures s[..i + 1][..i] == s[..i]
  {
  }

  /** Appending one element and dropping it again. */
  lemma AppendInit<T>(s: seq<T>, x: T)
    ensures (s + [x])[..|s|] == s
    ensures (s + [x])[|s|] == x
  {
  }

  /** A prefix of a concatenation that reaches into its second part. */
  lemma ConcatTakeStep<T>(a: seq<T>, b: seq<T>, j: nat)
    requires j < |b|
    ensures a + b[..j + 1] == (a + b[..j]) + [b[j]]
    ensures (a + b)[..|a| + j + 1] == a + b[..j + 1]
    ensures (a + b)[..|a| + j + 1][..|a| + j] == a + b[..j]
  {
    assert (a + b)[..|a| + j + 1] == a + b[..j + 1];
  }

  /** A non-empty sequence is its front followed by its last element. */
  lemma SplitLast<T>(s: seq<T>)
    requires s != []
    ensures s == s[..|s| - 1] + [s[|s| - 1]]
  {
  }
}

=== FILE: slack_sessions.dfy ===
/**
 * The Slack bot's conversation sessions and its user whitelist.
 *
 * A session belongs to a channel and the user who opened it, optionally to a
 * Slack thread. The manager keeps two dictionaries in step: `sessions`, keyed
 * `<channel>_<user>_<thread_ts or "main">`, and `threadSessionMap`, keyed
 * `<channel>_<thread_ts>` and naming the session key a thread belongs to.
 *
 * The wall clock is the parameter `now`, in whole seconds; the timeout is in
 * minutes.
 */
module SlackSessions {
  import opened Wrappers
  import opened Text

  // ---------------------------------------------------------------------
  // Environment settings and the whitelist

  /** `SESSION_TIMEOUT_MINUTES`: the integer in the variable, 1200 when it is unset; `None` when `int()` raises. */
  function SessionTimeoutFromEnv(env: map<string, string>): Option<int> {
    ParseInt(Getenv(env, "SESSION_TIMEOUT_MINUTES").GetOr("1200"))
  }

  /** `WHITELIST_ENABLED`: the variable, lowercased, is exactly `true`. */
  function WhitelistEnabled(env: map<string, string>): bool {
    Lower(Getenv(env, "WHITELIST_ENABLED").GetOr("false")) == "true"
  }

  /** The comma-separated entries of `WHITELIST_USERS` (one empty entry when it is unset). */
  function WhitelistEntries(env: map<string, string>): seq<string> {
    SplitOn(Getenv(env, "WHITELIST_USERS").GetOr(""), ',')
  }

  /** `WHITELIST_USERS`: every entry stripped, the blank ones dropped. */
  function WhitelistUsers(env: map<string, string>): set<string> {
    set p | p in WhitelistEntries(env) && Strip(p) != "" :: Strip(p)
  }

  /** `is_user_whitelisted(user_id)` */
  predicate IsUserWhitelisted(enabled: bool, users: set<string>, userId: string) {
    !enabled || userId in users
  }

  /** Every user ever admitted: with the whitelist off, everybody; with it on, exactly the listed ids. */
  lemma WhitelistDecision(env: map<string, string>, userId: string)
    ensures !WhitelistEnabled(env) ==> IsUserWhitelisted(WhitelistEnabled(env), WhitelistUsers(env), userId)
    ensures WhitelistEnabled(env) ==>
      (IsUserWhitelisted(WhitelistEnabled(env), WhitelistUsers(env), userId) <==>
        (exists p :: p in WhitelistEntries(env) && Strip(p) == userId && userId != ""))
  {
  }

  /** The flag is case-insensitive, anything other than `true` (including unset) leaves it off. */
  lemma WhitelistFlagExamples()
    ensures WhitelistEnabled(map["WHITELIST_ENABLED" := "TRUE"])
    ensures WhitelistEnabled(map["WHITELIST_ENABLED" := "True"])
    ensures !WhitelistEnabled(map[])
    ensures !WhitelistEnabled(map["WHITELIST_ENABLED" := "1"])
    ensures !WhitelistEnabled(map["WHITELIST_ENABLED" := "yes"])
  {
    assert Lower("TRUE") == "true";
    assert Lower("True") == "true";
    assert Lower("false") != "true" by { assert |Lower("false")| == 5; }
    assert Lower("1") != "true" by { assert |Lower("1")| == 1; }
    assert Lower("yes") != "true" by { assert |Lower("yes")| == 3; }
  }

  /**
   * Every whitelisted id is non-empty, holds no comma and has no surrounding
   * whitespace; and every entry holding a non-whitespace character contributes
   * its stripped form.
   */
  lemma WhitelistUsersShape(env: map<string, string>)
    ensures forall u :: u in WhitelistUsers(env) ==>
      u != "" && ',' !in u && u[0] !in Whitespace && u[|u| - 1] !in Whitespace
    ensures forall p :: p in WhitelistEntries(env) && HasNonSpace(p) ==> Strip(p) in WhitelistUsers(env)
  {
    var raw := Getenv(env, "WHITELIST_USERS").GetOr("");
    SplitJoin(raw, ',');
    forall u | u in WhitelistUsers(env)
      ensures u != "" && ',' !in u && u[0] !in Whitespace && u[|u| - 1] !in Whitespace
    {
      var p :| p in WhitelistEntries(env) && Strip(p) != "" && Strip(p) == u;
      StrippedPiece(p);
    }
    forall p | p in WhitelistEntries(env) && HasNonSpace(p)
      ensures Strip(p) in WhitelistUsers(env)
    {
      StripNonEmptyIff(p);
    }
  }

  /** The stripped form of a piece is a slice of it, so holds no comma when the piece holds none, and has no whitespace at either end. */
  lemma StrippedPiece(p: string)
    requires Strip(p) != ""
    ensures ',' !in p ==> ',' !in Strip(p)
    ensures Strip(p)[0] !in Whitespace && Strip(p)[|Strip(p)| - 1] !in Whitespace
  {
    var l := TrimLeft(p, Whitespace);
    var u := TrimRight(l, Whitespace);
    assert u == Strip(p);
    var off := |p| - |l|;
    assert l == p[off..] && u == l[..|u|];
    assert u[0] == l[0];
    if ',' !in p {
      forall i | 0 <= i < |u|
        ensures u[i] != ','
      {
        assert u[i] == l[i] == p[off + i];
      }
    }
  }

  /** The session timeout is 1200 minutes when the variable is unset. */
  lemma SessionTimeoutDefault()
    ensures SessionTimeoutFromEnv(map[]) == Some(1200)
  {
    assert NatToString(1) == "1";
    assert NatToString(12) == NatToString(1) + "2";
    assert NatToString(120) == NatToString(12) + "0";
    assert NatToString(1200) == NatToString(120) + "0";
    assert IntToString(1200) == "1200";
    ParseIntRendered(1200);
    assert ParseInt("1200") == Some(1200);
    assert Getenv(map[], "SESSION_TIMEOUT_MINUTES").GetOr("1200") == "1200";
  }

  // ---------------------------------------------------------------------
  // Keys

  /** The `sessions` key of a channel, a user and an optional thread: `<channel>_<user>_<thread_ts or "main">`. */
  function SessionKey(channel: string, user: string, threadTs: Option<string>): string {
    channel + "_" + user + "_" + (if Truthy(threadTs) then threadTs.value else "main")
  }

  /** The `thread_session_map` key of a thread: `<channel>_<thread_ts>`. */
  function ThreadKey(channel: string, threadTs: string): string {
    channel + "_" + threadTs
  }

  /** `session_id` of a session: `s_<channel>_<thread_ts>`, or the creation time for an unthreaded one. */
  function SessionId(channel: string, threadTs: Option<string>, now: int): string {
    "s_" + channel + "_" + (if Truthy(threadTs) then threadTs.value else IntToString(now))
  }

  // ---------------------------------------------------------------------
  // Sessions

  /** `ConversationSession`: one conversation of a user in a channel, perhaps in a thread. */
  class ConversationSession {
    const channel: string
    /** The user who opened the session. */
    const user: string
    /** The user of the latest message, which may differ in a thread. */
    var currentUser: string
    var threadTs: Option<string>
    var sessionId: string
    var lastActivity: int
    /** The user id sent to the API: `u_<user>`. */
    const userId: string

    constructor(channel: string, user: string, threadTs: Option<string>, now: int)
      ensures this.channel == channel && this.user == user && currentUser == user
      ensures this.threadTs == threadTs && sessionId == SessionId(channel, threadTs, now)
      ensures lastActivity == now && userId == "u_" + user
    {
      this.channel := channel;
      this.user := user;
      currentUser := user;
      this.threadTs := threadTs;
      sessionId := SessionId(channel, threadTs, now);
      lastActivity := now;
      userId := "u_" + user;
    }

    /** `update_activity()` */
    method UpdateActivity(now: int)
      modifies this
      ensures lastActivity == now
      ensures currentUser == old(currentUser) && threadTs == old(threadTs) && sessionId == old(sessionId)
    {
      lastActivity := now;
    }

    /** `is_expired(timeout)`: more than `timeoutMinutes` minutes have passed since the last activity. */
    predicate IsExpired(now: int, timeoutMinutes: int)
      reads this
    {
      now - lastActivity > timeoutMinutes * 60
    }
  }

  /** The expiry boundary is strict, and once expired a session stays expired as time goes on. */
  lemma ExpiryBoundary(s: ConversationSession, now: int, later: int, timeoutMinutes: int)
    requires now <= later
    ensures s.lastActivity + timeoutMinutes * 60 == now ==> !s.IsExpired(now, timeoutMinutes)
    ensures s.lastActivity + timeoutMinutes * 60 < now <==> s.IsExpired(now, timeoutMinutes)
    ensures s.IsExpired(now, timeoutMinutes) ==> s.IsExpired(later, timeoutMinutes)
  {
  }

  /** The thread keys of the sessions stored under `keys` in `m` that belong to a thread. */
  ghost function ThreadKeysOf(m: map<string, ConversationSession>, keys: set<string>): set<string>
    reads m.Values
  {
    ThreadKeysIn(Threads(m), keys)
  }

  /** Where a session lives: its channel and its thread, if any. */
  datatype Place = Place(channel: string, threadTs: Option<string>)

  /** The channel and thread of each stored session. */
  ghost function Threads(m: map<string, ConversationSession>): map<string, Place>
    reads m.Values
  {
    map k | k in m :: Place(m[k].channel, m[k].threadTs)
  }

  /** The thread keys of the threaded entries under `keys` of a channel-and-thread map. */
  ghost function ThreadKeysIn(t: map<string, Place>, keys: set<string>): set<string> {
    set k | k in keys && k in t && Truthy(t[k].threadTs) :: ThreadKey(t[k].channel, t[k].threadTs.value)
  }

  /** The thread key of one entry, as a set: empty when the session has no thread. */
  function OwnThreadKey(s: Place): set<string> {
    if Truthy(s.threadTs) then {ThreadKey(s.channel, s.threadTs.value)} else {}
  }

  /** `SessionManager`: the sessions and the thread map. */
  class SessionManager {
    /** `SESSION_TIMEOUT_MINUTES`, the default timeout of `is_expired`. */
    const timeoutMinutes: int
    /** `cleanup_interval`, in seconds. */
    const cleanupInterval: int
    var sessions: map<string, ConversationSession>
    var threadSessionMap: map<string, string>

    constructor(timeoutMinutes: int)
      ensures this.timeoutMinutes == timeoutMinutes && cleanupInterval == timeoutMinutes * 60
      ensures sessions == map[] && threadSessionMap == map[]
    {
      this.timeoutMinutes := timeoutMinutes;
      cleanupInterval := timeoutMinutes * 60;
      sessions := map[];
      threadSessionMap := map[];
    }

    /** Each stored session sits under the key of its own channel, user and thread. */
    ghost predicate KeysConsistent()
      reads this, sessions.Values
    {
      forall k :: k in sessions ==> k == SessionKey(sessions[k].channel, sessions[k].user, sessions[k].threadTs)
    }

    /** The keys of the sessions that have expired at `now`. */
    ghost function ExpiredKeys(now: int): set<string>
      reads this, sessions.Values
    {
      set k | k in sessions && sessions[k].IsExpired(now, timeoutMinutes)
    }

    /** The sessions a cleanup at `now` keeps. */
    ghost function LiveSessions(now: int): map<string, ConversationSession>
      reads this, sessions.Values
    {
      sessions - ExpiredKeys(now)
    }

    /** The thread map a cleanup at `now` keeps: the thread keys of the expired threaded sessions are gone. */
    ghost function LiveThreadMap(now: int): map<string, string>
      reads this, sessions.Values
    {
      threadSessionMap - ThreadKeysOf(sessions, ExpiredKeys(now))
    }

    /** After a cleanup at `now`, the thread `threadTs` of `channel` is mapped to a stored session. */
    ghost predicate ThreadMapped(channel: string, threadTs: Option<string>, now: int)
      reads this, sessions.Values
    {
      Truthy(threadTs)
      && ThreadKey(channel, threadTs.value) in LiveThreadMap(now)
      && LiveThreadMap(now)[ThreadKey(channel, threadTs.value)] in LiveSessions(now)
    }

    /**
     * `_cleanup_expired_sessions()`: the expired sessions are removed, and so
     * is the thread-map entry of each expired threaded session; nothing else
     * changes, and no stored session is expired afterwards.
     */
    method CleanupExpiredSessions(now: int)
      modifies this
      ensures sessions == old(LiveSessions(now))
      ensures threadSessionMap == old(LiveThreadMap(now))
      ensures forall k :: k in sessions ==> !sessions[k].IsExpired(now, timeoutMinutes)
      ensures old(KeysConsistent()) ==> KeysConsistent()
    {
      var expired := set k | k in sessions && sessions[k].IsExpired(now, timeoutMinutes);
      DropSessions(expired);
    }

    /** The loop of the cleanup over the expired keys. */
    method DropSessions(expired: set<string>)
      requires expired <= sessions.Keys
      modifies this
      ensures sessions == old(sessions) - expired
      ensures threadSessionMap == old(threadSessionMap) - old(ThreadKeysOf(sessions, expired))
    {
      var left := expired;
      ghost var gone: set<string> := {};
      ghost var s0 := sessions;
      ghost var t0 := threadSessionMap;
      ghost var snap := Threads(sessions);
      assert ThreadKeysIn(snap, gone) == {};
      assert t0 - {} == t0 && s0 - {} == s0;
      while left != {}
        invariant left !! gone && left + gone == expired
        invariant sessions == s0 - gone
        invariant threadSessionMap == t0 - ThreadKeysIn(snap, gone)
        decreases |left|
      {
        var k :| k in left;
        assert k in sessions && sessions[k] == s0[k];
        assert snap[k] == Place(sessions[k].channel, sessions[k].threadTs);
        ThreadKeysGrow(snap, gone, k);
        MapMinusUnion(t0, ThreadKeysIn(snap, gone), OwnThreadKey(snap[k]));
        MapMinusUnion(s0, gone, {k});
        MoveKey(left, gone, expired, k);
        DropSession(k);
        left := left - {k};
        gone := gone + {k};
      }
    }

    /** One step of the cleanup: the session under `k` and the thread-map entry of its thread are removed. */
    method DropSession(k: string)
      requires k in sessions
      modifies this
      ensures sessions == old(sessions) - {k}
      ensures threadSessionMap == old(threadSessionMap) - OwnThreadKey(Place(old(sessions)[k].channel, old(sessions)[k].threadTs))
    {
      var s := sessions[k];
      if Truthy(s.threadTs) {
        var threadKey := ThreadKey(s.channel, s.threadTs.value);
        if threadKey in threadSessionMap {
          threadSessionMap := threadSessionMap - {threadKey};
        } else {
          assert threadSessionMap - {threadKey} == threadSessionMap;
        }
      } else {
        assert threadSessionMap - {} == threadSessionMap;
      }
      sessions := sessions - {k};
    }

    /**
     * `get_session(channel, user, thread_ts)`. After the cleanup, a thread
     * already mapped to a stored session gets that session back, with its
     * activity and current user updated. Otherwise the session under
     * `<channel>_<user>_<thread_ts or "main">` is used, created when absent;
     * a newly created threaded session is recorded in the thread map.
     */
    method GetSession(channel: string, user: string, threadTs: Option<string>, now: int)
      returns (session: ConversationSession)
      modifies this, sessions.Values
      ensures old(ThreadMapped(channel, threadTs, now)) ==>
        session == old(LiveSessions(now))[old(LiveThreadMap(now))[ThreadKey(channel, threadTs.value)]]
        && sessions == old(LiveSessions(now)) && threadSessionMap == old(LiveThreadMap(now))
        && session.lastActivity == now && session.currentUser == user
      ensures !old(ThreadMapped(channel, threadTs, now)) && SessionKey(channel, user, threadTs) in old(LiveSessions(now)) ==>
        session == old(LiveSessions(now))[SessionKey(channel, user, threadTs)]
        && sessions == old(LiveSessions(now)) && threadSessionMap == old(LiveThreadMap(now))
        && session.lastActivity == now && session.currentUser == old(session.currentUser)
      ensures !old(ThreadMapped(channel, threadTs, now)) && SessionKey(channel, user, threadTs) !in old(LiveSessions(now)) ==>
        fresh(session)
        && session.channel == channel && session.user == user && session.currentUser == user
        && session.threadTs == threadTs && session.sessionId == SessionId(channel, threadTs, now)
        && session.lastActivity == now && session.userId == "u_" + user
        && sessions == old(LiveSessions(now))[SessionKey(channel, user, threadTs) := session]
        && threadSessionMap == (if Truthy(threadTs)
                                then old(LiveThreadMap(now))[ThreadKey(channel, threadTs.value) := SessionKey(channel, user, threadTs)]
                                else old(LiveThreadMap(now)))
      ensures !fresh(session) ==> session.threadTs == old(session.threadTs) && session.sessionId == old(session.sessionId)
      ensures forall s :: s in old(sessions).Values && s != session ==> unchanged(s)
      ensures old(KeysConsistent()) ==> KeysConsistent()
    {
      CleanupExpiredSessions(now);
      session := FindOrCreateSession(channel, user, threadTs, now);
    }

    /** The thread `threadTs` of `channel` is mapped to a stored session. */
    ghost predicate Mapped(channel: string, threadTs: Option<string>)
      reads this
    {
      Truthy(threadTs)
      && ThreadKey(channel, threadTs.value) in threadSessionMap
      && threadSessionMap[ThreadKey(channel, threadTs.value)] in sessions
    }

    /** The part of `get_session` after the cleanup, when no stored session has expired. */
    method FindOrCreateSession(channel: string, user: string, threadTs: Option<string>, now: int)
      returns (session: ConversationSession)
      requires forall k :: k in sessions ==> !sessions[k].IsExpired(now, timeoutMinutes)
      modifies this, sessions.Values
      ensures old(Mapped(channel, threadTs)) ==>
        session == old(sessions)[old(threadSessionMap)[ThreadKey(channel, threadTs.value)]]
        && sessions == old(sessions) && threadSessionMap == old(threadSessionMap)
        && session.lastActivity == now && session.currentUser == user
      ensures !old(Mapped(channel, threadTs)) && SessionKey(channel, user, threadTs) in old(sessions) ==>
        session == old(sessions)[SessionKey(channel, user, threadTs)]
        && sessions == old(sessions) && threadSessionMap == old(threadSessionMap)
        && session.lastActivity == now && session.currentUser == old(session.currentUser)
      ensures !old(Mapped(channel, threadTs)) && SessionKey(channel, user, threadTs) !in old(sessions) ==>
        fresh(session)
        && session.channel == channel && session.user == user && session.currentUser == user
        && session.threadTs == threadTs && session.sessionId == SessionId(channel, threadTs, now)
        && session.lastActivity == now && session.userId == "u_" + user
        && sessions == old(sessions)[SessionKey(channel, user, threadTs) := session]
        && threadSessionMap == (if Truthy(threadTs)
                                then old(threadSessionMap)[ThreadKey(channel, threadTs.value) := SessionKey(channel, user, threadTs)]
                                else old(threadSessionMap))
      ensures !fresh(session) ==> session.threadTs == old(session.threadTs) && session.sessionId == old(session.sessionId)
      ensures forall s :: s in old(sessions).Values && s != session ==> unchanged(s)
      ensures old(KeysConsistent()) ==> KeysConsistent()
    {
      if Truthy(threadTs) {
        var threadKey := ThreadKey(channel, threadTs.value);
        if threadKey in threadSessionMap {
          var existingKey := threadSessionMap[threadKey];
          if existingKey in sessions && !sessions[existingKey].IsExpired(now, timeoutMinutes) {
            session := sessions[existingKey];
            session.UpdateActivity(now);
            session.currentUser := user;
            return;
          }
        }
      }
      var key := SessionKey(channel, user, threadTs);
      if key !in sessions || sessions[key].IsExpired(now, timeoutMinutes) {
        session := new ConversationSession(channel, user, threadTs, now);
        sessions := sessions[key := session];
        if Truthy(threadTs) {
          threadSessionMap := threadSessionMap[ThreadKey(channel, threadTs.value) := key];
        }
      } else {
        session := sessions[key];
        session.UpdateActivity(now);
      }
    }

    /**
     * `update_session_thread(session, new_thread_ts)`: the session moves to
     * thread `newThreadTs`, its entry moves from its old key to
     * `<channel>_<user>_<newThreadTs>` when the old key is stored, and the
     * thread is mapped to the new key. When the old and the new key are the
     * same string, the move deletes the entry.
     */
    method UpdateSessionThread(session: ConversationSession, newThreadTs: string, now: int)
      returns (r: ConversationSession)
      modifies this, session
      ensures r == session
      ensures session.threadTs == Some(newThreadTs) && session.sessionId == "s_" + session.channel + "_" + newThreadTs
      ensures session.lastActivity == now && session.currentUser == old(session.currentUser)
      ensures var oldKey := SessionKey(session.channel, session.user, old(session.threadTs));
        var newKey := session.channel + "_" + session.user + "_" + newThreadTs;
        sessions == (if oldKey in old(sessions) then old(sessions)[newKey := old(sessions)[oldKey]] - {oldKey}
                     else old(sessions))
        && threadSessionMap == old(threadSessionMap)[ThreadKey(session.channel, newThreadTs) := newKey]
        && (oldKey == newKey ==> newKey !in sessions)
      ensures var oldKey := SessionKey(session.channel, session.user, old(session.threadTs));
        old(KeysConsistent()) && newThreadTs != "" && (oldKey in old(sessions) ==> old(sessions)[oldKey] == session)
        ==> KeysConsistent()
    {
      var oldKey := SessionKey(session.channel, session.user, session.threadTs);
      ghost var consistent := KeysConsistent();
      ghost var s0 := sessions;
      session.threadTs := Some(newThreadTs);
      session.sessionId := "s_" + session.channel + "_" + newThreadTs;
      session.UpdateActivity(now);
      var newKey := session.channel + "_" + session.user + "_" + newThreadTs;
      if oldKey in sessions {
        sessions := sessions[newKey := sessions[oldKey]];
        sessions := sessions - {oldKey};
      }
      threadSessionMap := threadSessionMap[ThreadKey(session.channel, newThreadTs) := newKey];
      r := session;
      if consistent && newThreadTs != "" && (oldKey in s0 ==> s0[oldKey] == session) {
        forall k | k in sessions
          ensures k == SessionKey(sessions[k].channel, sessions[k].user, sessions[k].threadTs)
        {
          if k != newKey || oldKey !in s0 {
            assert k in s0 && sessions[k] == s0[k];
          }
        }
      }
    }
  }

  /** Moving one key from the keys left to the keys done keeps the two disjoint and their union the same. */
  lemma MoveKey<K>(left: set<K>, gone: set<K>, all: set<K>, k: K)
    requires left !! gone && left + gone == all && k in left
    ensures (left - {k}) !! (gone + {k}) && (left - {k}) + (gone + {k}) == all
  {
  }

  /** Removing two sets of keys one after the other removes their union. */
  lemma MapMinusUnion<K, V>(m: map<K, V>, a: set<K>, b: set<K>)
    ensures (m - a) - b == m - (a + b)
  {
  }

  /** Equal strings with the same prefix have the same remainder. */
  lemma AppendCancel(a: string, x: string, y: string)
    requires a + x == a + y
    ensures x == y
  {
    assert x == (a + x)[|a|..];
    assert y == (a + y)[|a|..];
  }

  /** Adding one key to the removed keys adds that session's thread key, if it has one. */
  lemma ThreadKeysGrow(m: map<string, Place>, gone: set<string>, k: string)
    requires k in m
    ensures ThreadKeysIn(m, gone + {k}) == ThreadKeysIn(m, gone) + OwnThreadKey(m[k])
  {
  }

  /**
   * A direct mention that opens a thread: `get_session(channel, user, None)`
   * and then `update_session_thread(session, thread_ts)`. The session ends up
   * under `<channel>_<user>_<thread_ts>` and the thread is mapped to it; every
   * other stored session was stored before and is unchanged. (Keys are plain
   * concatenations, so the entry under the user's main key is required to be
   * that user's own unthreaded session.)
   */
  method StartThread(m: SessionManager, channel: string, user: string, threadTs: string, now: int)
    returns (started: ConversationSession)
    requires threadTs != "" && threadTs != "main"
    requires SessionKey(channel, user, None) in m.sessions ==>
      var own := m.sessions[SessionKey(channel, user, None)];
      own.channel == channel && own.user == user && !Truthy(own.threadTs)
    modifies m, m.sessions.Values
    ensures started.channel == channel && started.user == user
    ensures started.threadTs == Some(threadTs) && started.lastActivity == now
    ensures started in old(m.sessions).Values || fresh(started)
    ensures var newKey := channel + "_" + user + "_" + threadTs;
      newKey in m.sessions && m.sessions[newKey] == started
      && ThreadKey(channel, threadTs) in m.threadSessionMap && m.threadSessionMap[ThreadKey(channel, threadTs)] == newKey
    ensures forall o :: o in m.sessions.Values && o != started ==> o in old(m.sessions).Values && unchanged(o)
  {
    var mainKey := SessionKey(channel, user, None);
    var newKey := channel + "_" + user + "_" + threadTs;
    assert newKey != mainKey by {
      if newKey == mainKey {
        AppendCancel(channel + "_" + user + "_", threadTs, "main");
      }
    }
    var s := m.GetSession(channel, user, None, now);
    assert s.channel == channel && s.user == user && !Truthy(s.threadTs);
    assert m.sessions[mainKey] == s;
    started := m.UpdateSessionThread(s, threadTs, now);
  }

  /**
   * After a thread is opened, a later message in it, from any user and within
   * the timeout, gets the same session back, provided no session stored
   * before belonged to that thread.
   */
  method ThreadReplyReusesSession(m: SessionManager, channel: string, user: string, replier: string,
                                  threadTs: string, now: int, later: int)
    returns (started: ConversationSession, reply: ConversationSession)
    requires threadTs != "" && threadTs != "main"
    requires now <= later <= now + m.timeoutMinutes * 60
    requires SessionKey(channel, user, None) in m.sessions ==>
      var own := m.sessions[SessionKey(channel, user, None)];
      own.channel == channel && own.user == user && !Truthy(own.threadTs)
    requires forall s :: s in m.sessions.Values && Truthy(s.threadTs) ==>
      ThreadKey(s.channel, s.threadTs.value) != ThreadKey(channel, threadTs)
    modifies m, m.sessions.Values
    ensures reply == started && started.threadTs == Some(threadTs) && reply.currentUser == replier
  {
    var tk := ThreadKey(channel, threadTs);
    started := StartThread(m, channel, user, threadTs, now);
    assert forall o :: o in m.sessions.Values && o != started && Truthy(o.threadTs) ==>
      ThreadKey(o.channel, o.threadTs.value) != tk;
    assert !started.IsExpired(later, m.timeoutMinutes);
    assert tk !in ThreadKeysOf(m.sessions, m.ExpiredKeys(later));
    assert m.ThreadMapped(channel, Some(threadTs), later);
    reply := m.GetSession(channel, replier, Some(threadTs), later);
  }
}

=== FILE: text.dfy ===
/**
 * String operations of Python's `str` that the rest of the model relies on,
 * restricted to ASCII: prefix and substring tests, digit strings, integer
 * rendering and parsing, case folding, stripping, splitting, and the
 * code-point ordering that `sorted` uses.
 */
module Text {
  import opened Wrappers

  /** Python truthiness of an optional string: `None` and `""` are both false. */
  predicate Truthy(o: Option<string>) {
    o.Some? && o.value != ""
  }

  /** `os.getenv(name)` on an environment given as a map. */
  function Getenv(env: map<string, string>, name: string): Option<string> {
    if name in env then Some(env[name]) else None
  }

  // ---------------------------------------------------------------------
  // Prefixes and substrings

  /** `s.startswith(prefix)` */
  predicate StartsWith(s: string, prefix: string) {
    |prefix| <= |s| && s[..|prefix|] == prefix
  }

  /** `sub in s` */
  predicate Contains(s: string, sub: string) {
    exists i :: 0 <= i <= |s| && StartsWith(s[i..], sub)
  }

  lemma {:induction false} ContainsAppended(a: string, sub: string, b: string)
    ensures Contains(a + sub + b, sub)
  {
    var s := a + sub + b;
    assert s[|a|..] == sub + b;
    assert StartsWith(s[|a|..], sub);
  }

  lemma ContainsPrefix(sub: string, t: string)
    ensures Contains(sub + t, sub)
  {
    assert StartsWith((sub + t)[0..], sub);
  }

  lemma ContainsSuffix(s: string, sub: string)
    ensures Contains(s + sub, sub)
  {
    assert (s + sub)[|s|..] == sub;
    assert StartsWith((s + sub)[|s|..], sub);
  }

  /** A substring of `s` is a substring of every extension of `s`. */
  lemma ContainsExtended(s: string, sub: string, t: string)
    requires Contains(s, sub)
    ensures Contains(s + t, sub)
  {
    var i :| 0 <= i <= |s| && StartsWith(s[i..], sub);
    assert (s + t)[i..][..|sub|] == s[i..][..|sub|];
    assert StartsWith((s + t)[i..], sub);
  }

  // ---------------------------------------------------------------------
  // Digits and integers

  predicate IsDigit(c: char) {
    '0' <= c <= '9'
  }

  /** `s.isdigit()`, restricted to ASCII digits: false on the empty string. */
  predicate IsDigitString(s: string) {
    |s| > 0 && forall i :: 0 <= i < |s| ==> IsDigit(s[i])
  }

  function DigitChar(d: nat): (c: char)
    requires d < 10
    ensures IsDigit(c) && DigitValue(c) == d
  {
    (d + '0' as int) as char
  }

  function DigitValue(c: char): (d: nat)
    requires IsDigit(c)
    ensures d < 10
  {
    (c as int - '0' as int) as nat
  }

  /** Decimal rendering of a natural number, as `str(n)` gives it. */
  function NatToString(n: nat): (s: string)
    ensures IsDigitString(s)
    ensures n > 0 ==> s[0] != '0'
    decreases n
  {
    if n < 10 then [DigitChar(n)] else NatToString(n / 10) + [DigitChar(n % 10)]
  }

  /** `str(i)` for any integer. */
  function IntToString(i: int): string {
    if i < 0 then "-" + NatToString(-i) else NatToString(i)
  }

  /** The value of a string of decimal digits. */
  function DigitsValue(s: string): nat
    requires forall i :: 0 <= i < |s| ==> IsDigit(s[i])
  {
    if s == [] then 0 else 10 * DigitsValue(s[..|s| - 1]) + DigitValue(s[|s| - 1])
  }

  lemma {:induction false} NatToStringValue(n: nat)
    ensures DigitsValue(NatToString(n)) == n
    decreases n
  {
    if n >= 10 {
      var s := NatToString(n);
      NatToStringValue(n / 10);
      assert s[..|s| - 1] == NatToString(n / 10);
    }
  }

  // ---------------------------------------------------------------------
  // Whitespace and stripping

  /** The ASCII characters Python's `str.isspace` accepts. */
  const Whitespace: set<char> := {' ', '\t', '\n', '\r', '\U{B}', '\U{C}', '\U{1C}', '\U{1D}', '\U{1E}', '\U{1F}'}

  /** `s.lstrip(chars)` */
  function TrimLeft(s: string, chars: set<char>): (r: string)
    ensures |r| <= |s| && r == s[|s| - |r|..]
    ensures forall k :: 0 <= k < |s| - |r| ==> s[k] in chars
    ensures r != [] ==> r[0] !in chars
  {
    if s != [] && s[0] in chars then TrimLeft(s[1..], chars) else s
  }

  /** `s.rstrip(chars)` */
  function TrimRight(s: string, chars: set<char>): (r: string)
    ensures |r| <= |s| && r == s[..|r|]
    ensures forall k :: |r| <= k < |s| ==> s[k] in chars
    ensures r != [] ==> r[|r| - 1] !in chars
  {
    if s != [] && s[|s| - 1] in chars then TrimRight(s[..|s| - 1], chars) else s
  }

  /** `s.strip(chars)`: drops every leading and trailing character in `chars`. */
  function StripChars(s: string, chars: set<char>): string {
    TrimRight(TrimLeft(s, chars), chars)
  }

  /** Everything of `s` before `i` and from `j` on is in `chars`. */
  predicate CutBetween(s: string, chars: set<char>, i: int, j: int) {
    0 <= i <= j <= |s|
    && (forall k :: 0 <= k < i ==> s[k] in chars)
    && (forall k :: j <= k < |s| ==> s[k] in chars)
  }

  /** `s.strip(chars)` keeps a slice of `s`, cut only at runs of `chars`, and ends on neither side in one of them. */
  lemma StripCharsSlice(s: string, chars: set<char>)
    ensures var r := StripChars(s, chars);
      exists i, j :: CutBetween(s, chars, i, j) && r == s[i..j]
    ensures var r := StripChars(s, chars);
      r != [] ==> r[0] !in chars && r[|r| - 1] !in chars
  {
    StripCharsEnds(s, chars);
    StripCharsCut(s, chars);
  }

  /** What `strip(chars)` leaves starts and ends outside `chars`. */
  lemma StripCharsEnds(s: string, chars: set<char>)
    ensures var r := StripChars(s, chars);
      r != [] ==> r[0] !in chars && r[|r| - 1] !in chars
  {
    var left := TrimLeft(s, chars);
    var r := TrimRight(left, chars);
    if r != [] {
      assert r[0] == left[0];
    }
  }

  /** What `strip(chars)` leaves is a slice of `s` with only `chars` around it. */
  lemma StripCharsCut(s: string, chars: set<char>)
    ensures var r := StripChars(s, chars);
      exists i, j :: CutBetween(s, chars, i, j) && r == s[i..j]
  {
    var left := TrimLeft(s, chars);
    var r := TrimRight(left, chars);
    var i := |s| - |left|;
    var j := i + |r|;
    assert left == s[i..] && r == left[..|r|];
    assert r == s[i..j];
    forall k | j <= k < |s|
      ensures s[k] in chars
    {
      assert s[k] == left[k - i];
    }
    assert CutBetween(s, chars, i, j);
  }

  /** `s.strip()` */
  function Strip(s: string): string {
    StripChars(s, Whitespace)
  }

  /** `bool(s.strip())`: the string holds a character that is not whitespace. */
  predicate HasNonSpace(s: string) {
    exists k :: 0 <= k < |s| && s[k] !in Whitespace
  }

  lemma {:induction false} StripEmptyIffBlank(s: string, chars: set<char>)
    ensures StripChars(s, chars) == [] <==> forall k :: 0 <= k < |s| ==> s[k] in chars
  {
    var l := TrimLeft(s, chars);
    if l == [] {
      assert forall k :: 0 <= k < |s| ==> s[k] in chars;
    } else {
      assert l[0] !in chars;
      assert s[|s| - |l|] !in chars;
      assert TrimRight(l, chars) != [];
    }
  }

  lemma StripNonEmptyIff(s: string)
    ensures Strip(s) != [] <==> HasNonSpace(s)
  {
    StripEmptyIffBlank(s, Whitespace);
  }

  /** ASCII `str.lower()`. */
  function Lower(s: string): (r: string)
    ensures |r| == |s|
    ensures forall k :: 0 <= k < |s| ==> r[k] == LowerChar(s[k])
  {
    if s == [] then [] else [LowerChar(s[0])] + Lower(s[1..])
  }

  function LowerChar(c: char): char {
    if 'A' <= c <= 'Z' then (c as int + 32) as char else c
  }

  // ---------------------------------------------------------------------
  // Integer parsing

  /** The digits of `s` after an optional sign, as `int()` reads them. */
  function ParseSigned(s: string): Option<int> {
    if |s| > 0 && (s[0] == '-' || s[0] == '+') then
      if IsDigitString(s[1..]) then
        var v: int := DigitsValue(s[1..]);
        Some(if s[0] == '-' then -v else v)
      else None
    else if IsDigitString(s) then Some(DigitsValue(s))
    else None
  }

  /** `int(s)` on a string: surrounding whitespace, an optional sign, then decimal digits; `None` where Python raises `ValueError`. */
  function ParseInt(s: string): Option<int> {
    ParseSigned(Strip(s))
  }

  /** What `str` renders, `int` reads back. */
  lemma ParseIntRendered(i: int)
    ensures ParseInt(IntToString(i)) == Some(i)
  {
    var n: nat := if i < 0 then -i else i;
    var d := NatToString(n);
    var s := IntToString(i);
    assert s[|s| - 1] == d[|d| - 1];
    StripUnpadded(s);
    ParseSignedRendered(i);
  }

  /** Without surrounding whitespace, the sign and digits `str` writes read back as the integer. */
  lemma ParseSignedRendered(i: int)
    ensures ParseSigned(IntToString(i)) == Some(i)
  {
    var n: nat := if i < 0 then -i else i;
    NatToStringValue(n);
    if i < 0 {
      assert IntToString(i)[1..] == NatToString(n);
    }
  }

  /** A string that neither starts nor ends with whitespace is its own strip. */
  lemma StripUnpadded(s: string)
    requires s != [] && s[0] !in Whitespace && s[|s| - 1] !in Whitespace
    ensures Strip(s) == s
  {
    assert TrimLeft(s, Whitespace) == s;
  }

  // ---------------------------------------------------------------------
  // Splitting and joining

  /** `s.split(sep)` for a one-character separator: never empty, the empty string gives `[""]`. */
  function SplitOn(s: string, sep: char): (parts: seq<string>)
    ensures |parts| >= 1
  {
    if s == [] then [""]
    else
      var rest := SplitOn(s[1..], sep);
      if s[0] == sep then [""] + rest else [[s[0]] + rest[0]] + rest[1..]
  }

  /** `sep.join(parts)` */
  function Join(parts: seq<string>, sep: char): string
    requires |parts| >= 1
  {
    if |parts| == 1 then parts[0] else parts[0] + [sep] + Join(parts[1..], sep)
  }

  /** Splitting loses nothing: joining the pieces gives the string back, and no piece holds the separator. */
  lemma {:induction false} SplitJoin(s: string, sep: char)
    ensures Join(SplitOn(s, sep), sep) == s
    ensures forall p :: p in SplitOn(s, sep) ==> sep !in p
  {
    if s != [] {
      var rest := SplitOn(s[1..], sep);
      SplitJoin(s[1..], sep);
      if s[0] == sep {
        assert SplitOn(s, sep) == [""] + rest;
        assert ([""] + rest)[1..] == rest;
      } else {
        var parts := SplitOn(s, sep);
        assert parts == [[s[0]] + rest[0]] + rest[1..];
        if |rest| == 1 {
          assert parts == [[s[0]] + rest[0]];
        } else {
          assert parts[1..] == rest[1..];
          assert Join(rest, sep) == rest[0] + [sep] + Join(rest[1..], sep);
        }
        assert s == [s[0]] + s[1..];
        forall p | p in parts
          ensures sep !in p
        {
          if p != [s[0]] + rest[0] {
            assert p in rest;
          }
        }
      }
    }
  }

  /** The two parts of `s.split(" ", 1)`: the text before the first space and, when there is one, the text after it. */
  datatype Split = Split(head: string, tail: Option<string>)

  /** `s.split(" ", 1)` */
  function SplitFirstSpace(s: string): (r: Split)
    ensures ' ' !in r.head
    ensures r.tail.None? ==> r.head == s && ' ' !in s
    ensures r.tail.Some? ==> s == r.head + " " + r.tail.value
  {
    if s == [] then Split("", None)
    else if s[0] == ' ' then Split("", Some(s[1..]))
    else
      var rest := SplitFirstSpace(s[1..]);
      assert s == [s[0]] + s[1..];
      Split([s[0]] + rest.head, rest.tail)
  }

  // ---------------------------------------------------------------------
  // Code-point order and sorting

  /** Python's `<=` on strings: lexicographic by code point. */
  predicate LexLeq(a: string, b: string) {
    a == [] || (b != [] && (a[0] < b[0] || (a[0] == b[0] && LexLeq(a[1..], b[1..]))))
  }

  lemma {:induction false} LexLeqTotal(a: string, b: string)
    ensures LexLeq(a, b) || LexLeq(b, a)
  {
    if a != [] && b != [] && a[0] == b[0] {
      LexLeqTotal(a[1..], b[1..]);
    }
  }

  lemma {:induction false} LexLeqTransitive(a: string, b: string, c: string)
    requires LexLeq(a, b) && LexLeq(b, c)
    ensures LexLeq(a, c)
  {
    if a != [] && b != [] && c != [] && a[0] == b[0] && b[0] == c[0] {
      LexLeqTransitive(a[1..], b[1..], c[1..]);
    }
  }

  lemma {:induction false} LexLeqAntisymmetric(a: string, b: string)
    requires LexLeq(a, b) && LexLeq(b, a)
    ensures a == b
  {
    if a != [] && b != [] {
      LexLeqAntisymmetric(a[1..], b[1..]);
      assert a == [a[0]] + a[1..] && b == [b[0]] + b[1..];
    }
  }

  predicate SortedStrings(s: seq<string>) {
    forall i, j :: 0 <= i < j < |s| ==> LexLeq(s[i], s[j])
  }

  /** Inserts `x` into a sorted sequence before the first element greater than it. */
  function Insert(x: string, s: seq<string>): seq<string> {
    if s == [] then [x]
    else if LexLeq(x, s[0]) then [x] + s
    else [s[0]] + Insert(x, s[1..])
  }

  /** `sorted(xs)` on strings. */
  function SortStrings(xs: seq<string>): seq<string> {
    if xs == [] then [] else Insert(xs[0], SortStrings(xs[1..]))
  }

  lemma {:induction false} InsertMultiset(x: string, s: seq<string>)
    ensures multiset(Insert(x, s)) == multiset(s) + multiset{x}
  {
    if s != [] && !LexLeq(x, s[0]) {
      InsertMultiset(x, s[1..]);
      assert s == [s[0]] + s[1..];
    }
  }

  /** Every element of `t` is at least `lo` when `t` holds only `x` and elements of `s`, all at least `lo`. */
  lemma LowerBoundKept(lo: string, x: string, s: seq<string>, t: seq<string>)
    requires multiset(t) == multiset(s) + multiset{x}
    requires LexLeq(lo, x)
    requires forall k :: 0 <= k < |s| ==> LexLeq(lo, s[k])
    ensures forall k :: 0 <= k < |t| ==> LexLeq(lo, t[k])
  {
    forall k | 0 <= k < |t|
      ensures LexLeq(lo, t[k])
    {
      assert t[k] in multiset(t);
      if t[k] != x {
        assert t[k] in multiset(s);
        var m :| 0 <= m < |s| && s[m] == t[k];
      }
    }
  }

  /** Putting in front of a sorted sequence an element at most every one of its elements keeps it sorted. */
  lemma ConsSorted(h: string, t: seq<string>)
    requires SortedStrings(t)
    requires forall k :: 0 <= k < |t| ==> LexLeq(h, t[k])
    ensures SortedStrings([h] + t)
  {
    var r := [h] + t;
    forall i, j | 0 <= i < j < |r|
      ensures LexLeq(r[i], r[j])
    {
      assert r[j] == t[j - 1];
      if i > 0 {
        assert r[i] == t[i - 1];
      }
    }
  }

  /** An element at most the first of a sorted sequence is at most all of them. */
  lemma BelowFirst(x: string, s: seq<string>)
    requires SortedStrings(s) && s != [] && LexLeq(x, s[0])
    ensures forall k :: 0 <= k < |s| ==> LexLeq(x, s[k])
  {
    forall k | 0 < k < |s|
      ensures LexLeq(x, s[k])
    {
      LexLeqTransitive(x, s[0], s[k]);
    }
  }

  lemma {:induction false} InsertSorted(x: string, s: seq<string>)
    requires SortedStrings(s)
    ensures SortedStrings(Insert(x, s))
    ensures multiset(Insert(x, s)) == multiset(s) + multiset{x}
  {
    InsertMultiset(x, s);
    if s == [] {
    } else if LexLeq(x, s[0]) {
      BelowFirst(x, s);
      ConsSorted(x, s);
    } else {
      var rest := s[1..];
      assert SortedStrings(rest) by {
        forall i, j | 0 <= i < j < |rest|
          ensures LexLeq(rest[i], rest[j])
        {
          assert rest[i] == s[i + 1] && rest[j] == s[j + 1];
        }
      }
      InsertSorted(x, rest);
      var t := Insert(x, rest);
      LexLeqTotal(x, s[0]);
      assert forall k :: 0 <= k < |rest| ==> LexLeq(s[0], rest[k]) by {
        forall k | 0 <= k < |rest|
          ensures LexLeq(s[0], rest[k])
        {
          assert rest[k] == s[k + 1];
        }
      }
      LowerBoundKept(s[0], x, rest, t);
      ConsSorted(s[0], t);
    }
  }

  /** `sorted` returns an ordered permutation of its input. */
  lemma {:induction false} SortStringsCorrect(xs: seq<string>)
    ensures SortedStrings(SortStrings(xs))
    ensures multiset(SortStrings(xs)) == multiset(xs)
  {
    if xs != [] {
      SortStringsCorrect(xs[1..]);
      InsertSorted(xs[0], SortStrings(xs[1..]));
      assert xs == [xs[0]] + xs[1..];
    }
  }
}

=== FILE: wrappers.dfy ===
/** Failure-compatible wrappers shared by every module of the model. */
module Wrappers {

  /** An optional value: Python's `None` or a present value. */
  datatype Option<+T> = None | Some(value: T) {
    function GetOr(default: T): T {
      match this
      case Some(v) => v
      case None => default
    }
  }

  /** The outcome of an operation that raises in the source: a value or the raised error. */
  datatype Result<+T, +E> = Ok(value: T) | Err(error: E) {
    predicate IsFailure() {
      Err?
    }

    function PropagateFailure<U>(): Result<U, E>
      requires Err?
    {
      Err(error)
    }

    function Extract(): T
      requires Ok?
    {
      value
    }
  }
}
